=== FILE: README.md ===
# Sherpa.ai Federated Learning (`shfl`): access control, privacy and data partitioning, in Dafny

This project models the core of the `shfl` federated-learning framework as
immutable datatypes and pure functions, and proves properties about them.
Every random draw is an explicit parameter: uniform draws, Laplace draws,
shuffle draws and chosen indices. Floats are exact reals. A Python
exception is an `Err` carrying the exception's class.

The model covers these parts of the framework:

- **Data nodes** (`Node`): named private values, per-name access policies,
  and a model-params policy. A query releases
  `mechanism.randomize(query.get(value))`.
- **Access policies and queries** (`Access`, `Query`): `DataAccessDefinition`
  with its defaults, `UnprotectedAccess`, the identity and mean queries, and
  the `LabeledData` setters (`Values`).
- **Federated data** (`FederatedOperation`):
  - the global identifier registry;
  - adding nodes, configuring access and querying every node;
  - `federate_array`'s contiguous chunks;
  - federated transformations.
- **Differential-privacy mechanisms** (`DpMechanism`): the two-coin
  randomized response, the general binary channel and the Laplace mechanism.
- **Subsampling amplification** (`DpSampling`, with `Binomial` for the
  binomial theorem): the size check, the samplers and the
  epsilon/delta reduction. Epsilon is carried as `exp(epsilon)`, so the
  reduction becomes rational arithmetic.
- **The sensitivity sampler and the L1 norm** (`SensitivitySampler`, `Norm`).
- **The poisoning attack** (`FederatedAttack`).
- **Data bases and their splits** (`DataBase`).
- **The IID and non-IID distributions** (`DataDistribution`,
  `DistributionIid`, `DistributionNonIid`).
- **The four aggregators** (`Aggregators`).
- **The linear and logistic regression wrappers** (`LinearRegression`,
  `LogisticRegression`, `ModelChecks`): argument checks and the
  intercept/coefficient packing of the parameters.
- **The legacy `shfl/core` node, mechanisms and federated helpers**
  (`LegacyCore`).

Supporting modules:

- `Wrappers`: the `Result` and `Option` types.
- `Numeric`: sums, averages and Python's `int()` truncation and slicing.
- `Permutation`: the Fisher–Yates shuffle that `random.shuffle` and
  `np.random.shuffle` run, and gathering by an index permutation.
- `Sorting`: `np.sort` and `np.unique`.

Python's behaviour is followed literally where it matters:

- `int()` truncates toward zero.
- A slice clamps its bounds and counts negative bounds from the end.
- `x[-1]` indexes from the end.
- numpy's `argmax` returns the first maximal position.

## Model

| member | source | states |
|---|---|---|
| Values.SetData | shfl/private/data.py:21-23 | the data setter replaces the features and keeps the label |
| Values.SetLabel | shfl/private/data.py:29-31 | the label setter replaces the label and keeps the features |
| Access.MakeAccessDefinition | shfl/private/data.py:46-58 | fails with ValueError exactly when neither a query nor a mechanism is given; a missing query becomes the identity and a missing mechanism becomes the unrandomized one; a given one is kept |
| Access.UnprotectedAccess | shfl/private/data.py:69-74 | unprotected access is the identity query with the unrandomized mechanism |
| Access.Answer | shfl/private/node.py:47-49 | with an unrandomized mechanism the answer is the query's result; with the identity query it is the mechanism applied to the stored value |
| Access.UnprotectedReleasesValue | shfl/private/data.py:69-74 | under unprotected access every stored value is released unchanged |
| Query.Get | shfl/private/query.py:58-67 | the identity returns its input; the mean of a non-empty array is its average; the mean of a scalar is the scalar; the mean of an empty array is NaN; labelled data is a TypeError |
| Query.IdentityIdempotent | shfl/private/query.py:58-59 | applying the identity query twice equals applying it once |
| Query.MeanWithinBounds | shfl/private/query.py:66-67 | the mean of a non-empty array lies between any lower and upper bound of its entries |
| Query.MeanOfConstant | shfl/private/query.py:66-67 | the mean of a constant array is that constant |
| Node.NewNode | shfl/private/node.py:11-15 | a fresh node has no data, no policies and no model, and unprotected model-params access |
| Node.SetPrivateData | shfl/private/node.py:31-32 | the name maps to the new value and is added to the keys; every other name keeps its value; policies and model are untouched |
| Node.ConfigurePrivateDataAccess | shfl/private/node.py:34-35 | the policy is installed under that name only; data and model are untouched |
| Node.ConfigureModelParamsAccess | shfl/private/node.py:37-38 | only the model-params policy changes |
| Node.SetModel | shfl/private/node.py:60-70 | the model is set and nothing else changes |
| Node.SetModelParams | shfl/private/node.py:72-81 | without a model it is an AttributeError; otherwise the model's params are replaced |
| Node.ApplyDataTransformation | shfl/private/node.py:40-41 | a missing name is a KeyError; a failing transformation passes its error on; otherwise only that name's value is replaced by the transformed one |
| Node.QueryPrivateData | shfl/private/node.py:43-49 | no policy under the name is a ValueError; a policy without data is a KeyError; otherwise the answer is the policy's mechanism applied to its query's result |
| Node.QueryModelParams | shfl/private/node.py:51-52 | without a model it is an AttributeError; otherwise only the policy's query is applied to the params, never its mechanism |
| Node.TrainModel | shfl/private/node.py:83-95 | succeeds exactly when the key holds labelled data and a model is set; data without `data`/`label` is a ValueError; on success exactly the stored data and label are passed on |
| Node.StoreThenQueryUnprotected | shfl/private/node.py:31-49 | after storing a value and configuring unprotected access, a query returns exactly that value |
| Node.OtherNamesUnaffected | shfl/private/node.py:31-35 | storing a value or installing a policy under one name does not change the answer to a query on any other name |
| Node.ModelParamsIgnoreMechanism | shfl/private/node.py:51-52 | model params are released unchanged under any policy whose query is the identity, whatever its mechanism |
| FederatedOperation.NewFederatedData | shfl/private/federated_operation.py:18-23 | an identifier already in use is a ValueError; otherwise the identifier joins the registry and the new object has no nodes |
| FederatedOperation.Release | shfl/private/federated_operation.py:25-26 | deleting the object removes exactly its identifier from the registry |
| FederatedOperation.AddDataNode | shfl/private/federated_operation.py:38-54 | one node is appended, holding the data under the identifier; the earlier nodes are kept and the count grows by one |
| FederatedOperation.ConfigureDataAccess | shfl/private/federated_operation.py:56-64 | every node gets the same policy under the identifier, and the node count is unchanged |
| FederatedOperation.QueryAll | shfl/private/federated_operation.py:66-77 | on success there is one answer per node, and answer k is node k's query; a failure is the error of the first node whose query fails, every earlier node answering |
| FederatedOperation.QueryFrom | shfl/private/federated_operation.py:66-77 | the loop from node i on: one answer per remaining node, answer k being node k's query; a failure is the error of the first remaining node whose query fails |
| FederatedOperation.Chunk | shfl/private/federated_operation.py:108-115 | node k's chunk is `array[floor(kL/n) : floor((k+1)L/n)]`, and its bounds are ordered and in range |
| FederatedOperation.Chunks | shfl/private/federated_operation.py:108-115 | a non-empty array gives exactly n chunks, an empty one none, and chunk k is `Chunk(k)` |
| FederatedOperation.ChunksConcat | shfl/private/federated_operation.py:108-115 | the chunks concatenate back to the array |
| FederatedOperation.ChunksEqualSize | shfl/private/federated_operation.py:108-115 | when n divides the length, every chunk has length L/n |
| FederatedOperation.FederateArray | shfl/private/federated_operation.py:94-116 | zero nodes is a ZeroDivisionError; an identifier in use is a ValueError; otherwise node k holds chunk k of the one-dimensional array under the identifier; an empty array gives no nodes, also for a negative count |
| FederatedOperation.FederateMatrix | shfl/private/federated_operation.py:94-116 | a two-dimensional array is split along its first dimension: zero nodes is a ZeroDivisionError, an identifier in use is a ValueError, otherwise node k holds block k of the rows as a matrix; no rows give no nodes |
| FederatedOperation.FederatedMatrixRows | shfl/private/federated_operation.py:94-116 | querying a federated matrix under unprotected access returns its row blocks node by node, and the blocks concatenate back to the original rows |
| FederatedOperation.ApplyFederatedTransformation | shfl/private/federated_operation.py:119-130 | on success every node is the result of transforming its value under the identifier; a failure is the error of the first node whose transformation fails |
| FederatedOperation.TransformFrom | shfl/private/federated_operation.py:119-130 | the loop from node i on: node k becomes node k transformed; a failure is the error of the first remaining node whose transformation fails |
| FederatedOperation.FederatedArrayQuery | shfl/private/federated_operation.py:66-115 | querying a federated array under unprotected access returns exactly its chunks, node by node |
| FederatedAttack.ShuffleLabels | shfl/private/federated_attack.py:34-39 | as written: the data is kept; array labels are permuted with their multiset kept; the rows of 2-D labels are view-swapped, so there are as many rows as before and each is one of the original rows; a value without labels is an AttributeError; scalar labels are a TypeError |
| FederatedAttack.ShuffleLabelsIntended | shfl/private/federated_attack.py:34-39 | as intended: the same errors, and array labels or the rows of 2-D labels are permuted with their multiset kept |
| FederatedAttack.ShuffleLabelsAgreeOnArrays | shfl/private/federated_attack.py:39 | on one-dimensional labels the code as written and the intended shuffle agree |
| FederatedAttack.ShuffleLabelsDuplicatesRows | shfl/private/federated_attack.py:39 | one-hot labels `[[1,0],[0,1]]` with draw 0 at position 1 become `[[1,0],[1,0]]` as written and `[[0,1],[1,0]]` as intended |
| FederatedAttack.ViewShufflePrefixRows | shfl/private/federated_attack.py:39 | every row after the view-swapping shuffle is one of the original rows |
| FederatedAttack.NewPoisoningAttack | shfl/private/federated_attack.py:53-60 | a new attack keeps its percentage and has no adversaries |
| FederatedAttack.SelectAdversaries | shfl/private/federated_attack.py:66-68 | exactly `int(percentage/100*n)` adversaries are chosen, pairwise distinct and below n; a negative count or one larger than n is a ValueError |
| FederatedAttack.ApplyAttack | shfl/private/federated_attack.py:62-73 | as intended: the adversaries are remembered, only their nodes are transformed, and every other node is untouched |
| FederatedAttack.AttackFrom | shfl/private/federated_attack.py:71-73 | the loop from node i on: adversary nodes are transformed, the others kept; it fails exactly when some remaining adversary's transformation fails |
| FederatedAttack.ApplyAttackAsWritten | shfl/private/federated_attack.py:62-73 | as written: any selection is remembered; with adversaries present the call raises TypeError |
| FederatedAttack.AsWrittenFailsWithAdversaries | shfl/private/federated_attack.py:73 | whenever at least one adversary is selected, the code as written fails with TypeError |
| FederatedAttack.AsWrittenCounterexample | shfl/private/federated_attack.py:73 | a single labelled node attacked at 100% fails as written, while the intended attack succeeds |
| FederatedAttack.AttackSucceedsOnLabeledNodes | shfl/private/federated_attack.py:62-73 | when every node holds labelled data with array labels, the attack succeeds; each adversary node's labels are a permutation of its old labels, with the same data |
| DpMechanism.TwoCoinFlip | shfl/differential_privacy/dp_mechanism.py:58-73 | passes exactly a value whose single number is 0 or 1 (a scalar, or a one-element array or matrix), anything else is a ValueError; a first draw above the first probability returns that number; otherwise the answer is 0 exactly when the second draw exceeds the second probability |
| DpMechanism.TwoCoinFlipTruthful | shfl/differential_privacy/dp_mechanism.py:62-67 | a truthful answer returns the bit of a scalar and of a one-element array alike |
| DpMechanism.TwoCoinFlipRejectsLongArrays | shfl/differential_privacy/dp_mechanism.py:62-63 | an array of two or more entries has no truth value and is a ValueError |
| DpMechanism.Bernoulli | shfl/differential_privacy/dp_mechanism.py:101-102 | a Bernoulli draw is a bit, and it is 1 exactly when the uniform draw is below p |
| DpMechanism.ResponseBits | shfl/differential_privacy/dp_mechanism.py:99-104 | one answer per input position, each a bit |
| DpMechanism.ResponseBinaryShape | shfl/differential_privacy/dp_mechanism.py:93-104 | with valid probabilities, the binary channel answers an array of the input's length, all bits |
| DpMechanism.ResponseBinaryRejects | shfl/differential_privacy/dp_mechanism.py:93-104 | the binary channel succeeds exactly on an array with both probabilities in [0, 1] |
| DpMechanism.ResponseBinaryMatrixErrors | shfl/differential_privacy/dp_mechanism.py:99-101 | on a matrix the binary channel fails: with ValueError when 1 - f2 is not a probability (the Bernoulli draw for the zero entries comes first), otherwise with IndexError (the boolean mask does not fit the one-dimensional response) |
| DpMechanism.ResponseBinaryTruthful | shfl/differential_privacy/dp_mechanism.py:78-81 | with f1 = f2 = 1 a binary input is reproduced exactly |
| DpMechanism.ResponseBinaryFlips | shfl/differential_privacy/dp_mechanism.py:78-81 | with f1 = f2 = 0 every bit of a binary input is flipped |
| DpMechanism.LaplaceNoise | shfl/differential_privacy/dp_mechanism.py:132-134 | on an array, a negative scale `sensitivity/epsilon` is a ValueError; otherwise the length is kept and entry i becomes `x[i] + b * laplace(i)`, which moves it by `b` times the draw's magnitude |
| DpMechanism.LaplaceSquareMatrix | shfl/differential_privacy/dp_mechanism.py:132-134 | on an r x r matrix the r noise values broadcast along the rows: entry (i, j) receives noise j |
| DpMechanism.LaplaceColumnMatrix | shfl/differential_privacy/dp_mechanism.py:132-134 | an r x 1 column broadcasts to r x r: entry (i, j) is row i's value plus noise j |
| DpMechanism.LaplaceMatrixMismatch | shfl/differential_privacy/dp_mechanism.py:132-134 | a matrix of r > 1 rows whose width is neither r nor 1 cannot take the noise: ValueError |
| DpMechanism.LaplaceZeroEpsilon | shfl/differential_privacy/dp_mechanism.py:133 | a zero epsilon is a ZeroDivisionError |
| DpMechanism.Randomize | shfl/differential_privacy/dp_mechanism.py:26-134 | unrandomized returns its input; the binary property is the two-coin flip on the first two uniform draws; the binary channel succeeds exactly on an array with valid probabilities and keeps its length, and otherwise fails with ValueError on an array, with ValueError on a matrix when 1 - f2 is not a probability and IndexError when it is, and with TypeError on a scalar; the Laplace mechanism fails exactly on a zero epsilon (ZeroDivisionError), data without `len` (TypeError), a negative scale or a matrix the noise does not broadcast with (ValueError), and otherwise keeps the number of rows |
| DpSampling.CheckSampleSize | shfl/differential_privacy/dp_sampling.py:122-124 | a ValueError exactly when the sample size exceeds the data size |
| DpSampling.NewWithReplacement | shfl/differential_privacy/dp_sampling.py:70-73 | the constructor fails exactly when the size check fails, and otherwise keeps both sizes |
| DpSampling.NewWithoutReplacement | shfl/differential_privacy/dp_sampling.py:104-107 | the constructor fails exactly when the size check fails, and otherwise keeps both sizes |
| DpSampling.DeltaFactorIsProportion | shfl/differential_privacy/dp_sampling.py:79-86 | the code's binomial sum over k = 1..m equals `1 - (1 - 1/n)^m` |
| DpSampling.ProportionBounds | shfl/differential_privacy/dp_sampling.py:79 | the with-replacement proportion lies in [0, 1] |
| DpSampling.Amplify | shfl/differential_privacy/dp_sampling.py:112-119 | `exp(new_epsilon) - 1 = p (exp(epsilon) - 1)` and `new_delta = f * delta`; a non-positive logarithm argument is the ValueError `math.log` raises |
| DpSampling.EpsilonDeltaReduction | shfl/differential_privacy/dp_sampling.py:53-119 | the default sampler keeps the budget; a zero data size is a ZeroDivisionError; otherwise the budget is amplified by `m/n` without replacement and by `1-(1-1/n)^m` with it |
| DpSampling.AmplifyBounds | shfl/differential_privacy/dp_sampling.py:112-119 | amplification by proportions in [0, 1] never increases epsilon or delta and keeps them non-negative |
| DpSampling.WithoutReplacementNeverIncreases | shfl/differential_privacy/dp_sampling.py:112-119 | without replacement the new budget never exceeds the old, and is unchanged when m = n |
| DpSampling.WithReplacementNeverIncreases | shfl/differential_privacy/dp_sampling.py:78-88 | with replacement the new delta is the proportion times delta, and the new budget never exceeds the old |
| DpSampling.Sample | shfl/differential_privacy/dp_sampling.py:50-110 | the default sampler returns the data; otherwise exactly `sample_size` entries are returned, all taken from the data, and without replacement no record more often than it occurs |
| DpSampling.SampleIndices | shfl/differential_privacy/dp_sampling.py:109-110 | the positions drawn without replacement are m distinct indices below n |
| DpSampling.GatherPrefixSubMultiset | shfl/differential_privacy/dp_sampling.py:109-110 | a sample without replacement is a sub-multiset of the data |
| Binomial.BinomialTheorem | shfl/differential_privacy/dp_sampling.py:85 | `sum_k C(m,k) a^k b^(m-k) = (a+b)^m`: the identity that closes the delta sum |
| Norm.L1NonNegative | shfl/differential_privacy/norm.py:28-30 | the L1 distance is non-negative |
| Norm.L1SelfIsZero | shfl/differential_privacy/norm.py:28-30 | the distance from any numeric value to itself is zero |
| Norm.L1Symmetric | shfl/differential_privacy/norm.py:28-30 | the distance is symmetric, both in its value and in when it fails |
| Norm.L1 | shfl/differential_privacy/norm.py:28-30 | fails exactly when `x_1 - x_2` is undefined: labelled data is a TypeError; shapes that do not broadcast, or ragged matrices, are a ValueError |
| Norm.L1Scalars | shfl/differential_privacy/norm.py:28-30 | two scalars are at distance `abs(a - b)` |
| Norm.L1Arrays | shfl/differential_privacy/norm.py:28-30 | two arrays of one length are at distance `sum_i abs(a[i] - b[i])` |
| Norm.L1ScalarArray | shfl/differential_privacy/norm.py:28-30 | a scalar broadcasts against an array: `sum_i abs(a - b[i])` |
| Norm.L1SingletonArray | shfl/differential_privacy/norm.py:28-30 | a one-entry array broadcasts exactly like a scalar |
| Norm.L1Matrices | shfl/differential_privacy/norm.py:28-30 | two matrices of one shape are at the sum over rows of the entrywise distances |
| Norm.L1ArrayMatrix | shfl/differential_privacy/norm.py:28-30 | an array as wide as a matrix is subtracted from every row |
| Norm.L1ScalarMatrix | shfl/differential_privacy/norm.py:28-30 | a scalar is subtracted from every entry of a matrix |
| Norm.L1ArrayMismatch | shfl/differential_privacy/norm.py:29 | arrays of different lengths, neither of length one, are a ValueError |
| SensitivitySampler.Neighbours | shfl/differential_privacy/sensitivity_sampler.py:54-57 | both databases have n records, share the first n-1 draws, and differ only in their last record |
| SensitivitySampler.SensitivityNorm | shfl/differential_privacy/sensitivity_sampler.py:63-67 | the distance is the norm of the two query answers; it is non-negative, and a failing query passes its error on |
| SensitivitySampler.Round | shfl/differential_privacy/sensitivity_sampler.py:54-58 | a round's distance, when it exists, is non-negative |
| SensitivitySampler.DistancesFrom | shfl/differential_privacy/sensitivity_sampler.py:53-58 | one distance per round, in round order, each that round's sensitivity norm |
| SensitivitySampler.PyIndex | shfl/differential_privacy/sensitivity_sampler.py:61 | numpy indexing: non-negative and negative indices within range succeed, and anything else is an IndexError |
| SensitivitySampler.KthAndMean | shfl/differential_privacy/sensitivity_sampler.py:60-61 | the index `k-1` succeeds exactly when `-m < k <= m`, and otherwise it is an IndexError |
| SensitivitySampler.KthAndMeanIsOrderStatistic | shfl/differential_privacy/sensitivity_sampler.py:60-61 | for 1 <= k <= m the sensitivity is one of the distances, at least k are at most it, and at least m-k+1 are at least it; the mean is the arithmetic mean |
| SensitivitySampler.KthAndMeanZeroIsMax | shfl/differential_privacy/sensitivity_sampler.py:61 | k = 0 reads `gs[-1]`, the same as k = m |
| SensitivitySampler.KthAndMeanOrderIndependent | shfl/differential_privacy/sensitivity_sampler.py:60-61 | both results depend only on the multiset of distances |
| SensitivitySampler.KthAndMeanMax | shfl/differential_privacy/sensitivity_sampler.py:60-61 | with k = m the sensitivity bounds every distance and the mean |
| SensitivitySampler.Sample | shfl/differential_privacy/sensitivity_sampler.py:50-61 | m = 0 is an IndexError (reading `gs[k-1]` of an empty array); n = 0 with m > 0 is a ValueError; otherwise a failing round fails the sample, and a successful run gives the k-th order statistic and mean of the round distances |
| SensitivitySampler.SampleSensitivityGivenM | shfl/differential_privacy/sensitivity_sampler.py:13-81 | with m given and gamma absent: m = 0 is a ZeroDivisionError and a negative m a ValueError (`np.ones(m)`); with m > 0, the default `n = None` is a TypeError (`n-1`) and n <= 0 a ValueError; otherwise it succeeds exactly when every round does, and the sensitivity is one round's distance, at least every round's distance and at least the mean |
| SensitivitySampler.GivenMIsLastOrderStatistic | shfl/differential_privacy/sensitivity_sampler.py:77-81 | with n > 0 and m > 0 the entry point is the sampling loop read at k = m, which is also the loop read at k = 0 |
| SensitivitySampler.MaximumFacts | shfl/differential_privacy/sensitivity_sampler.py:60-61 | the last order statistic of a non-empty list of distances is one of them, bounds all of them and bounds their mean |
| SensitivitySampler.MaximumIsLargestRound | shfl/differential_privacy/sensitivity_sampler.py:53-61 | when every round succeeds, `gs[m-1]` of the sorted distances bounds every round's distance, equals one of them, and bounds the mean |
| SensitivitySampler.GivenMIsMaximum | shfl/differential_privacy/sensitivity_sampler.py:79-81 | with k = m the sampling succeeds exactly when every round does, and the sensitivity is the largest round distance and at least the mean |
| SensitivitySampler.DistancesOkIffRoundsOk | shfl/differential_privacy/sensitivity_sampler.py:53-58 | the sampling loop succeeds exactly when every round does |
| DataBase.ShuffleSplit | shfl/data_base/data_base.py:86-99 | rows and labels are shuffled by one permutation of the label positions, so the (row, label) pairs come out as a shuffle of the pairs; more labels than rows is an IndexError |
| DataBase.ShuffleSplitKeepsPairs | shfl/data_base/data_base.py:86-99 | a shuffled paired split keeps every row with its label and holds the same multiset of pairs |
| DataBase.SplitAt | shfl/data_base/data_base.py:22-26 | the first `dim` pairs and the rest, cut as Python slices |
| DataBase.ExtractValidationSamples | shfl/data_base/data_base.py:5-28 | `dim` validation rows and `len-dim` rest rows for 0 <= dim <= len, all paired; more labels than rows is an IndexError |
| DataBase.ExtractKeepsPairs | shfl/data_base/data_base.py:17-28 | the rest and validation parts together hold exactly the input's (row, label) pairs |
| DataBase.ShuffleStore | shfl/data_base/data_base.py:82-99 | a `LabeledDatabase` before `load_data` has no fields, since its constructor skips `DataBase.__init__`, so it is an AttributeError; a base still holding the initial empty lists is a TypeError; a stored base has each part shuffled separately |
| DataBase.ShuffleStoreKeepsPairs | shfl/data_base/data_base.py:82-99 | shuffling keeps every part's size, keeps every row with its label, and keeps each part's own multiset of pairs |
| DataBase.Train | shfl/data_base/data_base.py:59-61 | the train accessor returns the stored split unchanged |
| DataBase.Validation | shfl/data_base/data_base.py:63-65 | the validation accessor returns the stored split unchanged |
| DataBase.Test | shfl/data_base/data_base.py:67-69 | the test accessor returns the stored split unchanged |
| DataBase.Data | shfl/data_base/data_base.py:71-74 | the data accessor is the three accessors together |
| DataBase.CutDataSplits | shfl/data_base/data_base.py:118-125 | `int(N(1-t))` test rows, then `int(0.1 N)` validation rows of the whole data, capped at the M rows that remain; the three parts hold all N pairs |
| DataBase.TestSize | shfl/data_base/data_base.py:118 | for a train percentage of at most 1 the test size is `int()` of `N(1-t)`: non-negative, at most that product and more than it minus one |
| DataBase.ValidationSize | shfl/data_base/data_base.py:119 | the validation size is `int(N/10)`, between 0 and N |
| DataBase.CutData | shfl/data_base/data_base.py:118-125 | the cuts fail exactly when there are fewer rows than labels; otherwise all three parts are stored and paired |
| DataBase.LoadData | shfl/data_base/data_base.py:117-129 | loading fails exactly when there are fewer rows than labels; otherwise the base is stored |
| DataBase.LoadDataSplits | shfl/data_base/data_base.py:117-129 | after loading and the final shuffle, the sizes are as cut, and the three parts together hold exactly the N input pairs |
| DataBase.TestSizeBounds | shfl/data_base/data_base.py:118 | for a train percentage in [0, 1] the test size lies in [0, N] |
| DataDistribution.DefaultWeights | shfl/data_distribution/data_distribution_iid.py:40-41 | num_nodes weights of `1/num_nodes`, summing to one; zero nodes is a ZeroDivisionError |
| DataDistribution.Normalize | shfl/data_distribution/data_distribution_iid.py:43 | each weight times the total gives back the input weight; a zero total is a ZeroDivisionError |
| DataDistribution.NormalizeWeights | shfl/data_distribution/data_distribution_iid.py:40-43 | default weights fail only for zero nodes and otherwise give every node `1/num_nodes`; given weights fail only on a zero total and otherwise are divided by it; every failure is a ZeroDivisionError |
| DataDistribution.NormalizedSumsToOne | shfl/data_distribution/data_distribution_iid.py:43 | normalised weights sum to one |
| DataDistribution.NormalizeIdempotent | shfl/data_distribution/data_distribution_iid.py:43 | normalising twice equals normalising once |
| DataDistribution.DefaultWeightsUniform | shfl/data_distribution/data_distribution_iid.py:40-43 | the default weights give every node `1/num_nodes` |
| DataDistribution.SelectPercent | shfl/data_distribution/data_distribution_iid.py:52-53 | for a percentage in [0, 100] the selection is the first `int(percent*len/100)` entries, and at 100 all of them |
| DistributionIid.Selected | shfl/data_distribution/data_distribution_iid.py:45-53 | the percentage is cut from one shuffle of the (row, label) pairs, and rows stay paired |
| DistributionIid.MakeDataFederated | shfl/data_distribution/data_distribution_iid.py:16-71 | a weight error is passed on; otherwise too few weights are an IndexError; on success there are exactly num_nodes data chunks and num_nodes label chunks |
| DistributionIid.DistributeClosedForm | shfl/data_distribution/data_distribution_iid.py:55-66 | node i gets the selected rows and labels between the cut points `int(c_i L)` and `int(c_(i+1) L)`, where `c_i` is the cumulative weight |
| DistributionIid.DistributeFrom | shfl/data_distribution/data_distribution_iid.py:61-66 | the loop from node i on gives one row list and one label list per remaining node; it fails with IndexError exactly when there are fewer weights than nodes |
| DistributionIid.IidNodeChunks | shfl/data_distribution/data_distribution_iid.py:55-66 | whatever the weights, node i's rows and labels are cut at the same two bounds |
| DistributionIid.BoundsAreCutPoints | shfl/data_distribution/data_distribution_iid.py:55-66 | with non-negative weights summing to one, the bounds rise from 0 to L, so consecutive chunks abut without overlap |
| DistributionIid.NormalizedWeightsCover | shfl/data_distribution/data_distribution_iid.py:40-43 | default weights, or non-negative given weights with a positive sum, normalise to non-negative weights summing to one |
| DistributionIid.IidCoversSelection | shfl/data_distribution/data_distribution_iid.py:40-71 | with valid weights the node chunks concatenate to exactly the selected rows and labels |
| DistributionNonIid.NodeLabels | shfl/data_distribution/data_distribution_non_iid.py:28-39 | between 2 and total_labels labels, pairwise distinct and below total_labels |
| DistributionNonIid.NodeLabelsEveryCount | shfl/data_distribution/data_distribution_non_iid.py:28 | every count from 2 to total_labels can be drawn |
| DistributionNonIid.ChooseLabels | shfl/data_distribution/data_distribution_non_iid.py:13-42 | one label list per node, each as above; fewer than two labels with at least one node is the ValueError of `randint` |
| DistributionNonIid.Argmax | shfl/data_distribution/data_distribution_non_iid.py:77 | the first position of the row's largest entry |
| DistributionNonIid.Classes | shfl/data_distribution/data_distribution_non_iid.py:67 | the argmax of every label row; an empty row is a ValueError |
| DistributionNonIid.InChosen | shfl/data_distribution/data_distribution_non_iid.py:77 | mask entry j is set exactly when row j's class is among the node's labels |
| DistributionNonIid.FilterByClassSpec | shfl/data_distribution/data_distribution_non_iid.py:77-79 | a reference filter: the kept pairs come from the rows, each has a chosen class, and every row with a chosen class is kept |
| DistributionNonIid.KeepIsFilter | shfl/data_distribution/data_distribution_non_iid.py:77-79 | masking rows and labels with the class mask gives exactly the reference filter |
| DistributionNonIid.NodeShareSpec | shfl/data_distribution/data_distribution_non_iid.py:75-89 | a node's share keeps rows with their labels, takes rows only from the selection, has only chosen classes, and has size `min(int(w L), matching rows)` |
| DistributionNonIid.NodeShare | shfl/data_distribution/data_distribution_non_iid.py:75-89 | a node's share is paired and has at most as many rows as match the node's classes |
| DistributionNonIid.Nodes | shfl/data_distribution/data_distribution_non_iid.py:74-89 | the loop raises an `IndexError` exactly when some iteration cannot index (empty or mismatched mask, missing weight), and otherwise gives one share per node |
| DistributionNonIid.NodesAt | shfl/data_distribution/data_distribution_non_iid.py:74-89 | node i of the result is the share cut with node i's own classes, weight and draws |
| DistributionNonIid.MakeDataFederated | shfl/data_distribution/data_distribution_non_iid.py:44-94 | a weight error is passed on; a label row with no entries is a ValueError; fewer than two classes for at least one node is a ValueError; past those checks it fails exactly when some node's iteration cannot index (the selected labels are empty, the selected rows and labels differ in length, or a weight is missing), always with IndexError; on success there are exactly num_nodes outputs |
| DistributionNonIid.NonIidNodeShare | shfl/data_distribution/data_distribution_non_iid.py:58-94 | node i's rows each keep their own label, come from the selected prefix, have a class node i chose, and number `min(int(w_i L), matching rows)` |
| Aggregators.FedAvg | shfl/federated_aggregator/fedavg_aggregator.py:26-31 | fails exactly when there is no client or the clients' layer shapes differ: an IndexError when the layer counts differ and a ValueError when only the widths do; on success the output has the first client's shape, and entry (l, e) times the client count is the sum of the clients' entries |
| Aggregators.FedAvgBounds | shfl/federated_aggregator/fedavg_aggregator.py:31 | each averaged entry lies between the smallest and largest client entry |
| Aggregators.FedAvgIdentical | shfl/federated_aggregator/fedavg_aggregator.py:31 | identical clients yield their own parameters |
| Aggregators.FedAvgOrderIndependent | shfl/federated_aggregator/fedavg_aggregator.py:31 | reordering the clients does not change the result |
| Aggregators.AvgFedAsWritten | shfl/federated_aggregator/avgfed_aggregator.py:12-18 | as written: the reshape raises ValueError whenever every layer has the same width other than 1; otherwise it is FedAvg |
| Aggregators.AvgFedAsWrittenCounterexample | shfl/federated_aggregator/avgfed_aggregator.py:16 | two one-layer clients `[1,2]` and `[3,4]` fail as written, while FedAvg gives `[2,3]` |
| Aggregators.WeightedFedAvg | shfl/federated_aggregator/weighted_fedavg_aggregator.py:21-27 | a missing percentage is a TypeError; one shorter than the clients is an IndexError; on success entry (l, e) is `sum_c percentage[c] * params[c][l][e]` |
| Aggregators.WeightedOneHot | shfl/federated_aggregator/weighted_fedavg_aggregator.py:26-27 | a one-hot percentage selects that client's parameters |
| Aggregators.WeightedIdentical | shfl/federated_aggregator/weighted_fedavg_aggregator.py:26-27 | identical clients with percentages summing to one yield their own parameters |
| Aggregators.UniformWeightsAreFedAvg | shfl/federated_aggregator/weighted_fedavg_aggregator.py:26-27 | uniform percentages `1/n` give exactly FedAvg |
| Aggregators.WeightedOrderIndependent | shfl/federated_aggregator/weighted_fedavg_aggregator.py:26-27 | permuting clients together with their percentages does not change the result |
| Aggregators.WeightedAvgFedAsWritten | shfl/federated_aggregator/weighted_avgfed_aggregator.py:22-29 | as written: the reshape raises ValueError whenever every layer has the same width other than 1; otherwise it is WeightedFedAvg |
| Aggregators.WeightedAvgFedAsWrittenCounterexample | shfl/federated_aggregator/weighted_avgfed_aggregator.py:26 | percentages `[0.5, 0.5]` over `[1,2]` and `[3,4]` fail as written, while WeightedFedAvg gives `[2,3]` |
| ModelChecks.CheckWidth | shfl/model/linear_regression_model.py:133-139 | 1-D input passes exactly when the width is 1, 2-D input exactly when its column count is the width; for 1-D and 2-D input a failure is an AssertionError, and 0-D input is an IndexError |
| LinearRegression.CheckInitialization | shfl/model/linear_regression_model.py:156-170 | accepts exactly integers of at least 1; everything else is an AssertionError |
| LinearRegression.New | shfl/model/linear_regression_model.py:18-24 | succeeds exactly when both counts pass the check; the model is consistent |
| LinearRegression.NewParamsAreZeros | shfl/model/linear_regression_model.py:18-24 | a new model's params are zeros of shape `(n_targets, n_features+1)` |
| LinearRegression.SetParams | shfl/model/linear_regression_model.py:112-124 | column 0 is the intercept and the rest are coefficients; a single target reads only row 0; no columns, or no rows for one target, is an IndexError |
| LinearRegression.GetParams | shfl/model/linear_regression_model.py:98-110 | stacks the intercepts before the coefficients; mismatched heights are a ValueError |
| LinearRegression.SetGetRoundTrip | shfl/model/linear_regression_model.py:98-124 | for several targets, getting after setting returns the params set |
| LinearRegression.SetGetSingleTarget | shfl/model/linear_regression_model.py:98-124 | for one target only the first row survives the round trip, so a one-row parameter comes back unchanged |
| LinearRegression.GetSetRoundTrip | shfl/model/linear_regression_model.py:98-124 | setting what was got leaves a consistent model unchanged |
| LinearRegression.CheckData | shfl/model/linear_regression_model.py:126-139 | data passes exactly when its column count is n_features |
| LinearRegression.CheckLabels | shfl/model/linear_regression_model.py:141-154 | labels pass exactly when their column count is n_targets |
| LogisticRegression.CheckInitializationAsWritten | shfl/model/logistic_regression_model.py:105-113 | as written: a non-integer or negative n_features raises NameError; otherwise it behaves as the corrected check |
| LogisticRegression.AsWrittenRejectsSameInputs | shfl/model/logistic_regression_model.py:105-113 | the code as written and the corrected check reject the same inputs, and differ only in the exception class |
| LogisticRegression.AsWrittenCounterexample | shfl/model/logistic_regression_model.py:107 | a non-integer n_features with classes `[0, 1]` raises NameError instead of AssertionError |
| LogisticRegression.CheckInitialization | shfl/model/logistic_regression_model.py:105-113 | accepts exactly a non-negative integer with at least two distinct classes; everything else is an AssertionError |
| LogisticRegression.UniqueLength | shfl/model/logistic_regression_model.py:112 | `len(np.unique(c)) == len(c)` exactly when the classes are pairwise distinct |
| LogisticRegression.New | shfl/model/logistic_regression_model.py:15-24 | with the corrected check: succeeds exactly when the check passes, every failure an AssertionError; the classes are stored strictly ascending with the same elements |
| LogisticRegression.NewAsWritten | shfl/model/logistic_regression_model.py:15-24 | as written: succeeds exactly for a non-negative integer `n_features` and at least two distinct classes; a bad `n_features` is a NameError, any other failure an AssertionError |
| LogisticRegression.NewAsWrittenAgrees | shfl/model/logistic_regression_model.py:15-24 | the constructor as written and the corrected one fail on the same inputs and build the same model |
| LogisticRegression.NewParamsAreZeros | shfl/model/logistic_regression_model.py:21-24 | initial params are zeros with `len(classes)` rows and `n_features+1` columns |
| LogisticRegression.SetParams | shfl/model/logistic_regression_model.py:77-82 | column 0 becomes the intercepts and the rest the coefficients; no columns is an IndexError |
| LogisticRegression.GetParams | shfl/model/logistic_regression_model.py:70-75 | stacks intercepts before coefficients; mismatched heights are a ValueError |
| LogisticRegression.SetGetRoundTrip | shfl/model/logistic_regression_model.py:70-82 | getting after setting returns the params set |
| LogisticRegression.GetSetRoundTrip | shfl/model/logistic_regression_model.py:70-82 | setting what was got leaves a consistent model unchanged |
| LogisticRegression.CheckData | shfl/model/logistic_regression_model.py:84-94 | data passes exactly when its column count is n_features |
| LogisticRegression.CheckLabels | shfl/model/logistic_regression_model.py:96-103 | labels pass exactly when their sorted distinct values equal the stored classes |
| LogisticRegression.NewCheckLabels | shfl/model/logistic_regression_model.py:96-103 | on a new model, labels pass exactly when they have the same elements as the given classes |
| LegacyCore.NewNode | shfl/core/node.py:6-8 | a fresh legacy node has no data and no model |
| LegacyCore.SetPrivateData | shfl/core/node.py:24-25 | the name maps to the value, and other names and the model are unchanged |
| LegacyCore.QueryPrivateData | shfl/core/node.py:30-31 | the query is applied to the stored value with no access check; an unknown name is a KeyError |
| LegacyCore.QueryModelParams | shfl/core/node.py:33-34 | the query is applied to the model params; without a model it is an AttributeError |
| LegacyCore.SetModel | shfl/core/node.py:42-44 | the model is set and the data is unchanged |
| LegacyCore.SetModelParams | shfl/core/node.py:46-47 | without a model it is an AttributeError; otherwise only the params change |
| LegacyCore.ApplyDataTransformation | shfl/core/node.py:27-28 | a missing name is a KeyError; otherwise only that name's value is transformed |
| LegacyCore.TrainModel | shfl/core/node.py:49-51 | succeeds exactly with a model and labelled data under the key, and passes exactly its data and label; anything else is an AttributeError |
| LegacyCore.StoreThenQuery | shfl/core/node.py:24-31 | with the identity query, a stored value is returned unchanged |
| LegacyCore.OtherNamesUnaffected | shfl/core/node.py:24-31 | storing under one name does not change queries on another |
| LegacyCore.Randomize | shfl/core/dp_mechanism.py:20-58 | unrandomized is the identity; the binary property passes exactly a value whose single number is 0 or 1 (a scalar or one-element array), rejecting the rest with ValueError; it returns that number when the first draw exceeds `noise`, and otherwise answers 0 exactly when the second draw exceeds `mean` |
| LegacyCore.BinaryPropertyMatchesCurrent | shfl/core/dp_mechanism.py:42-58 | the legacy binary property is the current two-coin flip with `noise` and `mean` as its two probabilities |
| LegacyCore.BinaryPropertyExtremes | shfl/core/dp_mechanism.py:49-58 | with zero noise the bit is returned, and with noise 1 only the second coin decides |
| LegacyCore.QueryFederatedData | shfl/core/federated_operation.py:16-21 | one answer per node in node order, answer k being node k's query; it fails exactly when some node's query fails, with the error of the first such node |
| LegacyCore.QueryFederatedFrom | shfl/core/federated_operation.py:16-21 | the loop from node i on: one answer per remaining node, in node order; it fails exactly when some remaining node's query fails, with the error of the first such node |
| LegacyCore.ApplyFederatedTransformation | shfl/core/federated_operation.py:11-13 | every node's value under the identifier is transformed; it fails exactly when some node's transformation fails, with the error of the first such node |
| LegacyCore.TransformFrom | shfl/core/federated_operation.py:11-13 | the loop from node i on: every remaining node is transformed; it fails exactly when some remaining node's transformation fails, with the error of the first such node |
| LegacyCore.TransformThenQuery | shfl/core/federated_operation.py:11-21 | after a successful transformation, an identity query on every node returns the transformed values |

## Left out

- Randomness: `np.random`, `scipy.stats.bernoulli`, `random.randint`, `random.sample` and `random.shuffle` are explicit draw parameters. Shuffles are Fisher–Yates over a stream of draws. The statistical properties of the draws are not modelled.
- The `gamma`-driven branches of `_sensitivity_sampler_config` (Lambert W, `exp`, `log`, `ceil`) are not modelled: transcendental floats. Only the branch with `m` given and `gamma` absent is modelled.
- `exp` and `log` in `epsilon_delta_reduction` are not evaluated. Epsilon is carried as `exp(epsilon)`, and `new_epsilon = log(1 + p(exp(epsilon) - 1))` becomes `exp(new_epsilon) = 1 + p(exp(epsilon) - 1)`.
- DpSampling.Sample: sample sizes are natural numbers. A negative size, which numpy rejects, is not modelled.
- FederatedOperation.FederateArray and FederatedOperation.FederateMatrix: floats are exact reals, so `federate_array`'s accumulation `last = last + split_size` is exact. In floats the accumulation can move a chunk bound and can add one extra node: one element split 10 ways gives 11 nodes, because ten additions of 0.1 reach 0.9999999999999999, still below 1. The first ten nodes then hold `array[0:0]` and the eleventh holds `array[0:1]`, where the model gives 10 nodes with the element in the last. The node count `n` and the chunk bounds `floor(k * L / n)` are the exact-real results.
- DataBase.TestSize: `int(N * (1 - train_percentage))` is taken over exact reals. In floats `1 - 0.8` is slightly below 0.2, so `int(100 * (1 - 0.8))` is 19 where the model gives 20.
- FederatedAttack.SelectAdversaries: `int(percentage / 100 * n)` is taken over exact reals. In floats `int(29 / 100 * 100)` is 28 where the model gives 29.
- DistributionIid.DistributeClosedForm: the cut points `int((w_0 + ... + w_i) * len)` are taken over exact reals. Float accumulation of the normalised weights can put a cut one row lower.
- DistributionIid.MakeDataFederated and DistributionNonIid.MakeDataFederated: the result is the per-node lists. The final `np.array(federated_data)` over nodes of different sizes builds an object array in older numpy and raises ValueError in numpy 1.24 and later; that error is not modelled.
- FederatedOperation.TransformFrom, FederatedAttack.AttackFrom and LegacyCore.TransformFrom: when node k fails, the source has already transformed nodes 0 to k-1 in place before the exception propagates. The model returns only the error and keeps no trace of those partial updates.
- FederatedOperation.FederateArray: a negative node count with a non-empty array never ends in the source (`while last < len(array)` adds nodes forever), so that case is required away. With an empty array the loop does not run and no node is added, as modelled. Values are at most two-dimensional, so `federate_array` is modelled on a one-dimensional array (`FederateArray`) and on a two-dimensional one split by rows (`FederateMatrix`); arrays of rank three or more are not modelled.
- Norm.L1 and the Laplace branch of DpMechanism.Randomize: matrices are two-dimensional. A ragged matrix, which numpy rejects with ValueError, is a ValueError here as well; arrays of higher rank are not modelled.
- DpMechanism.TwoCoinFlip and LegacyCore.Randomize: an empty array has no single number and is a ValueError, as in numpy 2.2 and later. Older numpy read its truth value as False, so the check passed and the answer was a coin's bit or the TypeError of `int()` on an empty array.
- LogisticRegression.New: built on the corrected check, so a bad `n_features` is an AssertionError there. The constructor as written raises NameError instead; that is LogisticRegression.NewAsWritten, listed under Findings.
- Query.Get: `np.mean` of an empty array returns NaN with a warning. The model represents it as the error `NotANumber`, which other operations never consume.
- DataDistribution.Normalize: a zero weight total is a ZeroDivisionError, as for a Python list. Numpy-array weights would give `inf`/`nan` instead, and that path is not modelled.
- DistributionNonIid.NodeLabels: `choose_labels` redraws a label until it is new. The model picks uniformly among the unused labels by index, which gives the same set of possible outcomes and always terminates.
- `DataDistribution.get_federated_data` is not modelled. It calls `FederatedData()`, `add_data_node` and `make_data_federated` with arities those functions do not accept, so it cannot run.
- Aggregators.FedAvg: parameters are modelled as layers of flat reals. The model does not cover:
  - layers of higher rank, which would be flattened;
  - numpy's broadcasting of size-1 layers;
  - ragged clients. A different layer count is the IndexError of a 1-D object array, as with numpy before 1.24.
- The aggregators' `percentage` lives in the constructor of `shfl/federated_aggregator/federated_aggregator.py`. The model passes it as a parameter.
- The debug-printing `private_data` and `model` getters of both node classes are not modelled: output only.
- `predict`, `train`, `evaluate` and `performance` of the model wrappers are not modelled: they delegate to scikit-learn. The sklearn estimator is represented only by its intercept and coefficient fields.
- LogisticRegression.New: classes are reals. `np.sort` of other comparable class labels, such as strings, is not modelled.
- The `n_classes` computed in the logistic constructor (lines 21-23) is never used, so it is not modelled.
- The privacy-budget ledger (`DataNode(epsilon_delta=...)`, `ExceededPrivacyBudgetError`, `GaussianMechanism`) is described in the test files but is not implemented in the source. It is not modelled.
- Deep copies in `set_private_data` and `configure_*_access`, numpy aliasing, and in-place mutation by transformations are not modelled as such. Values are immutable, so a stored copy and an in-place update are both a new value.
- `shfl/core/probability_distribution.py` (random sampling), `shfl/private/reproducibility.py` (global seeding), the dataset loaders, the learning approaches and the deep-learning and k-means models are not part of this model: they are I/O, orchestration or library wrappers.
- `shfl/core/data.py`, `shfl/core/query.py` and `shfl/private_data/data.py` repeat the `shfl/private` definitions, so they are covered by the `Access`, `Query` and `Values` modules.
- `shfl/core/__init__.py` imports names that its modules do not define. Package import is not modelled.

## Findings

| source | as written | input that shows it | evidently intended | confidence | as-written member | corrected member |
|---|---|---|---|---|---|---|
| shfl/private/federated_attack.py:73 | `node.apply_data_transformation(ShuffleNode())` passes one argument; `apply_data_transformation` takes the property name and the transformation, so this raises TypeError | one node holding labelled data, attacked at 100% | apply `ShuffleNode` to each adversary node's data under the federated identifier | high; not executed | FederatedAttack.ApplyAttackAsWritten (FederatedAttack.AsWrittenCounterexample) | FederatedAttack.ApplyAttack (FederatedAttack.AttackSucceedsOnLabeledNodes) |
| shfl/federated_aggregator/avgfed_aggregator.py:16 | the stacked parameters are reshaped to `(num_clients, num_layers)`; when every layer has the same width other than 1 numpy has built a dense 3-D array, so the reshape raises ValueError | two clients with the one-layer parameters `[1,2]` and `[3,4]` | the per-layer mean over clients, as in `FedAvgAggregator` | medium; not executed | Aggregators.AvgFedAsWritten (Aggregators.AvgFedAsWrittenCounterexample) | Aggregators.FedAvg (Aggregators.FedAvgIdentical) |
| shfl/federated_aggregator/weighted_avgfed_aggregator.py:26 | the same reshape to `(num_clients, num_layers)` before the weighted sum | percentages `[0.5, 0.5]` over `[1,2]` and `[3,4]` | the weighted per-layer sum, as in `WeightedFedAvgAggregator` | medium; not executed | Aggregators.WeightedAvgFedAsWritten (Aggregators.WeightedAvgFedAsWrittenCounterexample) | Aggregators.WeightedFedAvg (Aggregators.WeightedOneHot) |
| shfl/model/logistic_regression_model.py:107,109 | the messages of the first two checks use the undefined name `n`, so they raise NameError instead of AssertionError | `n_features = 1.5` with classes `[0, 1]` | raise AssertionError for a non-integer or negative `n_features` | high; not executed | LogisticRegression.CheckInitializationAsWritten (LogisticRegression.AsWrittenCounterexample, LogisticRegression.NewAsWritten) | LogisticRegression.CheckInitialization (LogisticRegression.AsWrittenRejectsSameInputs, LogisticRegression.New) |
| shfl/private/federated_attack.py:39 | `random.shuffle` swaps with `x[i], x[j] = x[j], x[i]`; on a 2-D numpy label array the right-hand side holds row views, so row i is overwritten with row j and row j keeps its value: rows are duplicated and lost | one-hot labels `[[1,0],[0,1]]` with the draw 0 at position 1 | permute the label rows, keeping every label | high; not executed | FederatedAttack.ShuffleLabels (FederatedAttack.ShuffleLabelsDuplicatesRows) | FederatedAttack.ShuffleLabelsIntended (FederatedAttack.AttackSucceedsOnLabeledNodes) |

=== FILE: access.dfy ===
/** How private data may be read (`shfl/private/data.py`): a
    `DataAccessDefinition` pairs a query with a differential-privacy
    mechanism, and answering through it is
    `mechanism.randomize(query.get(value))`. */
module Access {
  import opened Wrappers
  import opened Values
  import opened Query
  import opened DpMechanism

  datatype AccessDefinition = AccessDefinition(query: Query, mechanism: Mechanism)

  /** The constructor: at least one of query and mechanism must be given
      (otherwise `ValueError`); a missing query becomes the identity and a
      missing mechanism the unrandomized one, and a given one is kept. */
  function MakeAccessDefinition(q: Option<Query>, m: Option<Mechanism>): (r: Result<AccessDefinition>)
    ensures r.Err? <==> q.None? && m.None?
    ensures r.Err? ==> r.error == ValueError
    ensures r.Ok? ==> r.value.query == (if q.Some? then q.value else Identity)
    ensures r.Ok? ==> r.value.mechanism == (if m.Some? then m.value else Unrandomized)
  {
    if q.None? && m.None? then Err(ValueError)
    else
      Ok(AccessDefinition(
        if q.None? then Identity else q.value,
        if m.None? then Unrandomized else m.value))
  }

  /** `UnprotectedAccess()`: the constructor given only the identity query. */
  function UnprotectedAccess(): (r: AccessDefinition)
    ensures r == AccessDefinition(Identity, Unrandomized)
  {
    MakeAccessDefinition(Some(Identity), None).value
  }

  /** The answer a policy releases for a stored value. */
  function Answer(p: AccessDefinition, v: Value, rnd: Randomness): (r: Result<Value>)
    ensures p.mechanism == Unrandomized ==> r == Get(p.query, v)
    ensures p.query == Identity ==> r == Randomize(p.mechanism, v, rnd)
  {
    var answer :- Get(p.query, v);
    Randomize(p.mechanism, answer, rnd)
  }

  /** Unprotected access releases the stored value unchanged. */
  lemma UnprotectedReleasesValue(v: Value, rnd: Randomness)
    ensures Answer(UnprotectedAccess(), v, rnd) == Ok(v)
  {
  }
}

=== FILE: aggregators.dfy ===
/** The federated aggregators (`shfl/federated_aggregator/`): the server
    combines the model parameters of its clients layer by layer and entry by
    entry, either as a plain mean or as a sum weighted by a percentage per
    client.

    A client's parameters are a list of layers and each layer is a
    one-dimensional array of reals: `clients[c][l][e]` is entry e of layer l
    of client c.  `np.array(clients_params)` stacks the clients into a
    `(clients, layers)` array of layers when the layer widths differ, and
    into a dense `(clients, layers, width)` array when every layer has the
    same width. */
module Aggregators {
  import opened Wrappers
  import opened Numeric
  import opened Permutation
  import opened Sorting

  type Params = seq<seq<real>>

  /** The width of every layer. */
  function Shape(p: Params): (r: seq<nat>)
    ensures |r| == |p|
    ensures forall l :: 0 <= l < |p| ==> r[l] == |p[l]|
  {
    seq(|p|, l requires 0 <= l < |p| => |p[l]|)
  }

  /** `np.array(clients_params).shape[1]` exists: there is a client, and
      every client has as many layers as the first. */
  predicate SameLayerCount(clients: seq<Params>) {
    |clients| > 0 && forall c :: 0 <= c < |clients| ==> |clients[c]| == |clients[0]|
  }

  /** Every client's layers have the widths of the first client's, so the
      per-layer sums broadcast. */
  predicate SameShapes(clients: seq<Params>) {
    |clients| > 0 && forall c :: 0 <= c < |clients| ==> Shape(clients[c]) == Shape(clients[0])
  }

  lemma SameShapesAt(clients: seq<Params>, c: nat)
    requires SameShapes(clients) && c < |clients|
    ensures |clients[c]| == |clients[0]|
    ensures forall l :: 0 <= l < |clients[0]| ==> |clients[c][l]| == |clients[0][l]|
  {
    assert Shape(clients[c]) == Shape(clients[0]);
    forall l | 0 <= l < |clients[0]| ensures |clients[c][l]| == |clients[0][l]| {
      assert Shape(clients[c])[l] == Shape(clients[0])[l];
    }
  }

  /** `clients_params_array[:, layer]` restricted to entry e: entry e of
      layer l of every client, in client order. */
  function Column(clients: seq<Params>, l: nat, e: nat): (r: seq<real>)
    requires SameShapes(clients) && l < |clients[0]| && e < |clients[0][l]|
    ensures |r| == |clients|
    ensures forall c :: 0 <= c < |clients| ==> |clients[c]| > l && |clients[c][l]| > e && r[c] == clients[c][l][e]
  {
    seq(|clients|, c requires 0 <= c < |clients| => SameShapesAt(clients, c); clients[c][l][e])
  }

  /** `FedAvgAggregator.aggregate_weights`: per layer, the mean over the
      clients.  With no client, or clients with differing layer counts, the
      stacked array has no second axis; layers of differing widths cannot be
      added. */
  function FedAvg(clients: seq<Params>): (r: Result<Params>)
    ensures r.Err? <==> !SameShapes(clients)
    ensures r.Err? ==> r.error == (if SameLayerCount(clients) then ValueError else IndexError)
    ensures r.Ok? ==> Shape(r.value) == Shape(clients[0])
    ensures r.Ok? ==> forall l, e :: 0 <= l < |clients[0]| && 0 <= e < |clients[0][l]| ==>
      r.value[l][e] * |clients| as real == Sum(Column(clients, l, e))
  {
    if !SameLayerCount(clients) then Err(IndexError)
    else if !SameShapes(clients) then Err(ValueError)
    else
      Ok(seq(|clients[0]|, l requires 0 <= l < |clients[0]| =>
        seq(|clients[0][l]|, e requires 0 <= e < |clients[0][l]| => Average(Column(clients, l, e)))))
  }

  /** Entry e of layer l of the aggregate is the mean of that entry over
      the clients. */
  lemma FedAvgAt(clients: seq<Params>, l: nat, e: nat)
    requires SameShapes(clients) && l < |clients[0]| && e < |clients[0][l]|
    ensures FedAvg(clients).Ok?
    ensures |FedAvg(clients).value| == |clients[0]| && |FedAvg(clients).value[l]| == |clients[0][l]|
    ensures FedAvg(clients).value[l][e] == Average(Column(clients, l, e))
  {
  }

  /** Every layer of `p` has `width` entries. */
  predicate UniformWidth(p: Params, width: nat) {
    forall l :: 0 <= l < |p| ==> |p[l]| == width
  }

  /** `clients_params_array.reshape(num_clients, num_layers)` raises: all
      layers share one width, so the stacked array is dense with
      `clients * layers * width` entries, which differs from
      `clients * layers` unless the width is 1. */
  predicate ReshapeFails(clients: seq<Params>) {
    SameShapes(clients) && |clients[0]| > 0 && |clients[0][0]| != 1 &&
    UniformWidth(clients[0], |clients[0][0]|)
  }

  /** `AvgFedAggregator.aggregate_weights` as written: FedAvg preceded by the
      reshape of line 16, which only keeps the shape of a stack of layers of
      differing widths.  When every layer has width 1 the reshape succeeds
      and the source returns a vector of L scalars where this model returns
      L one-entry layers; the values agree entry for entry. */
  function AvgFedAsWritten(clients: seq<Params>): (r: Result<Params>)
    ensures ReshapeFails(clients) ==> r == Err(ValueError)
    ensures !ReshapeFails(clients) ==> r == FedAvg(clients)
  {
    if !SameLayerCount(clients) then Err(IndexError)
    else if ReshapeFails(clients) then Err(ValueError)
    else FedAvg(clients)
  }

  /** Whenever the reshape raises, FedAvg itself would have succeeded. */
  lemma AvgFedAsWrittenFailsOnUniformWidth(clients: seq<Params>)
    requires ReshapeFails(clients)
    ensures FedAvg(clients).Ok?
    ensures AvgFedAsWritten(clients) == Err(ValueError)
  {
  }

  /** Two clients with one two-entry layer each. */
  lemma AvgFedAsWrittenCounterexample()
    ensures FedAvg([[[1.0, 2.0]], [[3.0, 4.0]]]) == Ok([[2.0, 3.0]])
    ensures AvgFedAsWritten([[[1.0, 2.0]], [[3.0, 4.0]]]) == Err(ValueError)
  {
    var clients: seq<Params> := [[[1.0, 2.0]], [[3.0, 4.0]]];
    assert SameShapes(clients);
    assert Column(clients, 0, 0) == [1.0, 3.0];
    assert Column(clients, 0, 1) == [2.0, 4.0];
    assert Sum([3.0]) == 3.0 && Sum([4.0]) == 4.0;
    assert Sum([1.0, 3.0]) == 4.0 && Sum([2.0, 4.0]) == 6.0;
    FedAvgAt(clients, 0, 0);
    FedAvgAt(clients, 0, 1);
    var r := FedAvg(clients).value;
    assert r[0] == [2.0, 3.0];
    assert r == [[2.0, 3.0]];
    assert ReshapeFails(clients);
  }

  /** `percentage[c] * col[c]` for every client. */
  function Products(pct: seq<real>, col: seq<real>): (r: seq<real>)
    requires |pct| >= |col|
    ensures |r| == |col|
    ensures forall c :: 0 <= c < |col| ==> r[c] == pct[c] * col[c]
  {
    seq(|col|, c requires 0 <= c < |col| => pct[c] * col[c])
  }

  /** `WeightedFedAvgAggregator.aggregate_weights`: per layer, the sum over
      the clients of `percentage[client]` times the client's layer.  The
      percentage defaults to `None`, which cannot be indexed; a percentage
      shorter than the client list runs out. */
  function WeightedFedAvg(percentage: Option<seq<real>>, clients: seq<Params>): (r: Result<Params>)
    ensures !SameLayerCount(clients) ==> r == Err(IndexError)
    ensures SameLayerCount(clients) && percentage.None? ==> r == Err(TypeError)
    ensures SameLayerCount(clients) && percentage.Some? && |percentage.value| < |clients| ==> r == Err(IndexError)
    ensures r.Ok? <==> SameShapes(clients) && percentage.Some? && |percentage.value| >= |clients|
    ensures r.Err? && SameLayerCount(clients) && percentage.Some? && |percentage.value| >= |clients| ==>
      r.error == ValueError
    ensures r.Ok? ==> Shape(r.value) == Shape(clients[0])
    ensures r.Ok? ==> forall l, e :: 0 <= l < |clients[0]| && 0 <= e < |clients[0][l]| ==>
      r.value[l][e] == Sum(Products(percentage.value, Column(clients, l, e)))
  {
    if !SameLayerCount(clients) then Err(IndexError)
    else if percentage.None? then Err(TypeError)
    else if |percentage.value| < |clients| then Err(IndexError)
    else if !SameShapes(clients) then Err(ValueError)
    else
      Ok(seq(|clients[0]|, l requires 0 <= l < |clients[0]| =>
        seq(|clients[0][l]|, e requires 0 <= e < |clients[0][l]| =>
          Sum(Products(percentage.value, Column(clients, l, e))))))
  }

  /** `WeightedAvgFedAggregator.aggregate_weights` as written: the weighted
      sum preceded by the same reshape.  With width-1 layers the source's
      result is a vector of L scalars and this model's L one-entry layers,
      with the same values. */
  function WeightedAvgFedAsWritten(percentage: Option<seq<real>>, clients: seq<Params>): (r: Result<Params>)
    ensures ReshapeFails(clients) ==> r == Err(ValueError)
    ensures !ReshapeFails(clients) ==> r == WeightedFedAvg(percentage, clients)
  {
    if !SameLayerCount(clients) then Err(IndexError)
    else if ReshapeFails(clients) then Err(ValueError)
    else WeightedFedAvg(percentage, clients)
  }

  /** Whenever that reshape raises, the weighted sum itself would have
      succeeded for a long enough percentage. */
  lemma WeightedAvgFedAsWrittenFailsOnUniformWidth(percentage: seq<real>, clients: seq<Params>)
    requires ReshapeFails(clients) && |percentage| >= |clients|
    ensures WeightedFedAvg(Some(percentage), clients).Ok?
    ensures WeightedAvgFedAsWritten(Some(percentage), clients) == Err(ValueError)
  {
  }

  /** The two clients of the FedAvg counterexample, weighted half and half. */
  lemma WeightedAvgFedAsWrittenCounterexample()
    ensures WeightedFedAvg(Some([0.5, 0.5]), [[[1.0, 2.0]], [[3.0, 4.0]]]) == Ok([[2.0, 3.0]])
    ensures WeightedAvgFedAsWritten(Some([0.5, 0.5]), [[[1.0, 2.0]], [[3.0, 4.0]]]) == Err(ValueError)
  {
    var clients: seq<Params> := [[[1.0, 2.0]], [[3.0, 4.0]]];
    assert SameShapes(clients);
    assert Products([0.5, 0.5], Column(clients, 0, 0)) == [0.5, 1.5];
    assert Products([0.5, 0.5], Column(clients, 0, 1)) == [1.0, 2.0];
    assert Sum([1.5]) == 1.5 && Sum([2.0]) == 2.0;
    assert Sum([0.5, 1.5]) == 2.0 && Sum([1.0, 2.0]) == 3.0;
    var r := WeightedFedAvg(Some([0.5, 0.5]), clients).value;
    assert r[0] == [2.0, 3.0];
    assert r == [[2.0, 3.0]];
    assert ReshapeFails(clients);
  }

  /** The mean lies between any bounds of the clients' entries. */
  lemma FedAvgBounds(clients: seq<Params>, l: nat, e: nat, lo: real, hi: real)
    requires SameShapes(clients) && l < |clients[0]| && e < |clients[0][l]|
    requires forall c :: 0 <= c < |clients| ==> |clients[c]| > l && |clients[c][l]| > e && lo <= clients[c][l][e] <= hi
    ensures FedAvg(clients).Ok?
    ensures lo <= FedAvg(clients).value[l][e] <= hi
  {
    AverageBounds(Column(clients, l, e), lo, hi);
  }

  /** Clients that all submit `p` get `p` back. */
  lemma FedAvgIdentical(clients: seq<Params>, p: Params)
    requires |clients| > 0
    requires forall c :: 0 <= c < |clients| ==> clients[c] == p
    ensures FedAvg(clients) == Ok(p)
  {
    assert SameShapes(clients);
    var r := FedAvg(clients).value;
    forall l | 0 <= l < |p| ensures r[l] == p[l] {
      forall e | 0 <= e < |p[l]| ensures r[l][e] == p[l][e] {
        FedAvgAt(clients, l, e);
        AverageConstant(Column(clients, l, e), p[l][e]);
      }
    }
    assert r == p;
  }

  /** Among clients with the same multiset, one has a given layer count iff
      all of the others do. */
  lemma PermutedLayerCount(a: seq<Params>, b: seq<Params>)
    requires multiset(a) == multiset(b) && SameLayerCount(a)
    ensures SameLayerCount(b) && |b[0]| == |a[0]|
  {
    assert |b| == |multiset(b)| == |a|;
    forall c | 0 <= c < |b| ensures |b[c]| == |a[0]| {
      assert b[c] in multiset(a);
    }
  }

  lemma PermutedShapes(a: seq<Params>, b: seq<Params>)
    requires multiset(a) == multiset(b) && SameShapes(a)
    ensures SameShapes(b) && Shape(b[0]) == Shape(a[0])
  {
    assert |b| == |multiset(b)| == |a|;
    forall c | 0 <= c < |b| ensures Shape(b[c]) == Shape(a[0]) {
      assert b[c] in multiset(a);
    }
  }

  /** Shuffling the clients shuffles every column the same way. */
  lemma ColumnShuffle(clients: seq<Params>, l: nat, e: nat, draws: nat -> nat)
    requires SameShapes(clients) && l < |clients[0]| && e < |clients[0][l]|
    ensures SameShapes(Shuffle(clients, draws)) && Shape(Shuffle(clients, draws)[0]) == Shape(clients[0])
    ensures Column(Shuffle(clients, draws), l, e) == Shuffle(Column(clients, l, e), draws)
  {
    var s := Shuffle(clients, draws);
    ShuffleMultiset(clients, draws);
    PermutedShapes(clients, s);
    SameShapesAt(s, 0);
    var col := Column(clients, l, e);
    GatherShuffle(clients, draws);
    GatherShuffle(col, draws);
    var p := Shuffle(Range(|clients|), draws);
    forall c | 0 <= c < |clients| ensures Column(s, l, e)[c] == Shuffle(col, draws)[c] {
      assert s[c] == clients[p[c]];
      assert Shuffle(col, draws)[c] == col[p[c]];
    }
  }

  /** A sum does not depend on the order of its terms. */
  lemma SumShuffle(s: seq<real>, draws: nat -> nat)
    ensures Sum(Shuffle(s, draws)) == Sum(s)
  {
    ShuffleMultiset(s, draws);
    SortPermutationInvariant(Shuffle(s, draws), s);
    SumSort(Shuffle(s, draws));
    SumSort(s);
  }

  /** The mean does not depend on the order in which the clients report. */
  lemma FedAvgOrderIndependent(clients: seq<Params>, draws: nat -> nat)
    ensures FedAvg(Shuffle(clients, draws)) == FedAvg(clients)
  {
    var s := Shuffle(clients, draws);
    ShuffleMultiset(clients, draws);
    if SameLayerCount(clients) {
      PermutedLayerCount(clients, s);
    }
    if SameLayerCount(s) {
      PermutedLayerCount(s, clients);
    }
    if SameShapes(s) {
      PermutedShapes(s, clients);
    }
    if SameShapes(clients) {
      PermutedShapes(clients, s);
      var a := FedAvg(clients).value;
      var b := FedAvg(s).value;
      forall l | 0 <= l < |a| ensures b[l] == a[l] {
        forall e | 0 <= e < |a[l]| ensures b[l][e] == a[l][e] {
          ColumnShuffle(clients, l, e, draws);
          SumShuffle(Column(clients, l, e), draws);
          FedAvgAt(clients, l, e);
          FedAvgAt(s, l, e);
        }
      }
      assert a == b;
    }
  }

  /** A sum whose terms vanish outside position k is its k-th term. */
  lemma {:induction false} SumOneHot(s: seq<real>, k: nat)
    requires k < |s|
    requires forall i :: 0 <= i < |s| && i != k ==> s[i] == 0.0
    ensures Sum(s) == s[k]
  {
    if k == 0 {
      SumConstant(s[1..], 0.0);
    } else {
      SumOneHot(s[1..], k - 1);
    }
  }

  /** A one-hot percentage selects its client's parameters. */
  lemma WeightedOneHot(percentage: seq<real>, clients: seq<Params>, k: nat)
    requires SameShapes(clients) && |percentage| >= |clients| && k < |clients|
    requires forall c :: 0 <= c < |clients| ==> percentage[c] == (if c == k then 1.0 else 0.0)
    ensures WeightedFedAvg(Some(percentage), clients) == Ok(clients[k])
  {
    var r := WeightedFedAvg(Some(percentage), clients).value;
    SameShapesAt(clients, k);
    forall l | 0 <= l < |r| ensures r[l] == clients[k][l] {
      forall e | 0 <= e < |r[l]| ensures r[l][e] == clients[k][l][e] {
        SumOneHot(Products(percentage, Column(clients, l, e)), k);
      }
    }
    assert r == clients[k];
  }

  /** With percentages summing to one, clients that all submit `p` get `p`
      back. */
  lemma WeightedIdentical(percentage: seq<real>, clients: seq<Params>, p: Params)
    requires |clients| > 0 && |percentage| >= |clients|
    requires Sum(percentage[..|clients|]) == 1.0
    requires forall c :: 0 <= c < |clients| ==> clients[c] == p
    ensures WeightedFedAvg(Some(percentage), clients) == Ok(p)
  {
    assert SameShapes(clients);
    var r := WeightedFedAvg(Some(percentage), clients).value;
    assert clients[0] == p;
    assert Shape(r) == Shape(p);
    forall l | 0 <= l < |p| ensures r[l] == p[l] {
      assert |r[l]| == Shape(p)[l];
      forall e | 0 <= e < |p[l]| ensures r[l][e] == p[l][e] {
        WeightedEntryIdentical(percentage, Column(clients, l, e), p[l][e]);
      }
    }
    assert r == p;
  }

  /** A weighted entry whose column is constant, with weights summing to
      one, is that constant. */
  lemma WeightedEntryIdentical(percentage: seq<real>, col: seq<real>, x: real)
    requires 0 < |col| <= |percentage|
    requires Sum(percentage[..|col|]) == 1.0
    requires forall c :: 0 <= c < |col| ==> col[c] == x
    ensures Sum(Products(percentage, col)) == x
  {
    var prods := Products(percentage, col);
    var scaled := Scale(x, percentage[..|col|]);
    forall c | 0 <= c < |col| ensures prods[c] == scaled[c] {
      assert prods[c] == percentage[c] * x;
    }
    assert prods == scaled;
    SumScale(x, percentage[..|col|]);
  }

  /** With the percentage `1/clients` for every client, one weighted entry
      is the mean of its column. */
  lemma UniformEntry(percentage: seq<real>, col: seq<real>)
    requires 0 < |col| <= |percentage|
    requires forall c :: 0 <= c < |col| ==> percentage[c] * |col| as real == 1.0
    ensures Sum(Products(percentage, col)) == Average(col)
  {
    var n := |col| as real;
    var w := 1.0 / n;
    var prods := Products(percentage, col);
    var scaled := Scale(w, col);
    forall c | 0 <= c < |col| ensures prods[c] == scaled[c] {
      Reciprocal(percentage[c], n);
    }
    assert prods == scaled;
    SumScale(w, col);
    var total := Sum(col);
    assert w * total == total / n;
  }

  lemma Reciprocal(x: real, n: real)
    requires n > 0.0 && x * n == 1.0
    ensures x == 1.0 / n
  {
  }

  /** Equal percentages `1/clients` turn the weighted sum into the mean:
      the two aggregators agree on every input, failures included. */
  lemma UniformWeightsAreFedAvg(percentage: seq<real>, clients: seq<Params>)
    requires |percentage| >= |clients|
    requires forall c :: 0 <= c < |clients| ==> percentage[c] * |clients| as real == 1.0
    ensures WeightedFedAvg(Some(percentage), clients) == FedAvg(clients)
  {
    if SameShapes(clients) {
      var a := FedAvg(clients).value;
      var b := WeightedFedAvg(Some(percentage), clients).value;
      forall l | 0 <= l < |a| ensures b[l] == a[l] {
        forall e | 0 <= e < |a[l]| ensures b[l][e] == a[l][e] {
          UniformEntry(percentage, Column(clients, l, e));
          FedAvgAt(clients, l, e);
        }
      }
      assert a == b;
    }
  }

  /** Shuffling the clients and their percentages together shuffles the
      products of one column. */
  lemma ProductsShuffle(percentage: seq<real>, clients: seq<Params>, l: nat, e: nat, draws: nat -> nat)
    requires SameShapes(clients) && l < |clients[0]| && e < |clients[0][l]|
    requires |percentage| == |clients|
    ensures SameShapes(Shuffle(clients, draws)) && Shape(Shuffle(clients, draws)[0]) == Shape(clients[0])
    ensures Sum(Products(Shuffle(percentage, draws), Column(Shuffle(clients, draws), l, e)))
      == Sum(Products(percentage, Column(clients, l, e)))
  {
    var s := Shuffle(clients, draws);
    var q := Shuffle(percentage, draws);
    var p := Shuffle(Range(|clients|), draws);
    var col := Column(clients, l, e);
    var prods := Products(percentage, col);
    ColumnShuffle(clients, l, e, draws);
    GatherShuffle(percentage, draws);
    GatherShuffle(col, draws);
    GatherShuffle(prods, draws);
    var shuffled := Products(q, Column(s, l, e));
    forall c | 0 <= c < |clients| ensures shuffled[c] == Shuffle(prods, draws)[c] {
      assert q[c] == percentage[p[c]];
      assert Column(s, l, e)[c] == col[p[c]];
      assert Shuffle(prods, draws)[c] == prods[p[c]];
    }
    assert shuffled == Shuffle(prods, draws);
    SumShuffle(prods, draws);
  }

  /** Reordering the clients together with their percentages does not change
      the weighted sum. */
  lemma WeightedOrderIndependent(percentage: seq<real>, clients: seq<Params>, draws: nat -> nat)
    requires |percentage| == |clients|
    ensures WeightedFedAvg(Some(Shuffle(percentage, draws)), Shuffle(clients, draws))
      == WeightedFedAvg(Some(percentage), clients)
  {
    var s := Shuffle(clients, draws);
    var q := Shuffle(percentage, draws);
    ShuffleMultiset(clients, draws);
    if SameLayerCount(clients) {
      PermutedLayerCount(clients, s);
    }
    if SameLayerCount(s) {
      PermutedLayerCount(s, clients);
    }
    if SameShapes(s) {
      PermutedShapes(s, clients);
    }
    if SameShapes(clients) {
      PermutedShapes(clients, s);
      var a := WeightedFedAvg(Some(percentage), clients).value;
      var b := WeightedFedAvg(Some(q), s).value;
      forall l | 0 <= l < |a| ensures b[l] == a[l] {
        forall e | 0 <= e < |a[l]| ensures b[l][e] == a[l][e] {
          ProductsShuffle(percentage, clients, l, e, draws);
        }
      }
      assert a == b;
    }
  }
}

=== FILE: binomial.dfy ===
/** Binomial coefficients and the binomial theorem, used to close the delta
    sum of sampling with replacement in closed form. */
module Binomial {
  import opened Numeric

  /** `C(m, k)` by Pascal's rule; zero when `k > m`. */
  function Choose(m: nat, k: nat): nat
    decreases m
  {
    if k == 0 then 1
    else if m == 0 then 0
    else Choose(m - 1, k - 1) + Choose(m - 1, k)
  }

  /** The k-th term `C(m,k) a^k b^(m-k)` of `(a+b)^m`. */
  function Term(m: nat, k: nat, a: real, b: real): real {
    if k <= m then Choose(m, k) as real * Pow(a, k) * Pow(b, m - k) else 0.0
  }

  /** `Σ_{lo <= k < hi} Term(m, k)`. */
  function TermSum(m: nat, lo: nat, hi: nat, a: real, b: real): real
    decreases hi
  {
    if hi <= lo then 0.0 else TermSum(m, lo, hi - 1, a, b) + Term(m, hi - 1, a, b)
  }

  lemma ChooseAbove(m: nat, k: nat)
    requires k > m
    ensures Choose(m, k) == 0
  {
  }

  /** Pascal's rule on terms: `Term(m, k) = a Term(m-1, k-1) + b Term(m-1, k)`. */
  lemma TermPascal(m: nat, k: nat, a: real, b: real)
    requires 1 <= k <= m
    ensures Term(m, k, a, b) == PascalStep(a, Term(m - 1, k - 1, a, b), b, Term(m - 1, k, a, b))
  {
    var c1: real := Choose(m - 1, k - 1) as real;
    var c2: real := Choose(m - 1, k) as real;
    var pa := Pow(a, k - 1);
    assert Choose(m, k) as real == c1 + c2;
    assert Pow(a, k) == a * pa;
    if k < m {
      var q := Pow(b, m - 1 - k);
      assert Pow(b, m - k) == b * q;
      assert Term(m, k, a, b) == (c1 + c2) * (a * pa) * (b * q);
      assert Term(m - 1, k - 1, a, b) == c1 * pa * (b * q);
      assert Term(m - 1, k, a, b) == c2 * (a * pa) * q;
      PascalProducts(c1, c2, a, pa, b, q);
    } else {
      ChooseAbove(m - 1, k);
      assert Pow(b, 0) == 1.0;
      assert Term(m, k, a, b) == (c1 + 0.0) * (a * pa) * 1.0;
      assert Term(m - 1, k - 1, a, b) == c1 * pa * 1.0;
      assert Term(m - 1, k, a, b) == 0.0;
      PascalLastProducts(c1, a, pa, b);
    }
  }

  /** The ring identity behind one inner step of Pascal's rule. */
  lemma PascalProducts(c1: real, c2: real, a: real, pa: real, b: real, q: real)
    ensures (c1 + c2) * (a * pa) * (b * q) == a * (c1 * pa * (b * q)) + b * (c2 * (a * pa) * q)
  {
  }

  /** The ring identity behind the last step of Pascal's rule. */
  lemma PascalLastProducts(c1: real, a: real, pa: real, b: real)
    ensures (c1 + 0.0) * (a * pa) * 1.0 == a * (c1 * pa * 1.0) + b * 0.0
  {
  }

  /** One application of Pascal's rule: `a x + b y`. */
  function PascalStep(a: real, x: real, b: real, y: real): real {
    a * x + b * y
  }

  /** The terms of row `m` built by Pascal's rule alone, with no binomial
      coefficient or power in sight: `Row(m+1, k) = a Row(m, k-1) + b Row(m, k)`. */
  function Row(m: nat, k: nat, a: real, b: real): real
    decreases m
  {
    if m == 0 then (if k == 0 then 1.0 else 0.0)
    else if k == 0 then b * Row(m - 1, 0, a, b)
    else PascalStep(a, Row(m - 1, k - 1, a, b), b, Row(m - 1, k, a, b))
  }

  /** `Σ_{0 <= k < hi} Row(m, k)`. */
  function RowSum(m: nat, hi: nat, a: real, b: real): real
    decreases hi
  {
    if hi == 0 then 0.0 else RowSum(m, hi - 1, a, b) + Row(m, hi - 1, a, b)
  }

  /** The Pascal row and the closed-form terms agree everywhere. */
  lemma {:induction false} TermIsRow(m: nat, k: nat, a: real, b: real)
    ensures Term(m, k, a, b) == Row(m, k, a, b)
    decreases m
  {
    if m == 0 {
      if k > 0 {
        ChooseAbove(0, k);
      }
    } else if k == 0 {
      TermIsRow(m - 1, 0, a, b);
      assert Term(m, 0, a, b) == b * Term(m - 1, 0, a, b) by {
        RowFirstProducts(b, Pow(b, m - 1));
      }
    } else if k > m {
      RowAbove(m, k, a, b);
    } else {
      TermIsRow(m - 1, k - 1, a, b);
      TermIsRow(m - 1, k, a, b);
      TermPascal(m, k, a, b);
    }
  }

  /** The ring identity behind the first term of a row. */
  lemma RowFirstProducts(b: real, q: real)
    ensures 1 as real * 1.0 * (b * q) == b * (1 as real * 1.0 * q)
  {
  }

  /** A row has no term beyond its length. */
  lemma {:induction false} RowAbove(m: nat, k: nat, a: real, b: real)
    requires k > m
    ensures Row(m, k, a, b) == 0.0
    decreases m
  {
    if m > 0 {
      RowAbove(m - 1, k - 1, a, b);
      RowAbove(m - 1, k, a, b);
    }
  }

  /** Summing the closed-form terms is summing the row. */
  lemma {:induction false} TermSumIsRowSum(m: nat, hi: nat, a: real, b: real)
    ensures TermSum(m, 0, hi, a, b) == RowSum(m, hi, a, b)
  {
    if hi > 0 {
      TermSumIsRowSum(m, hi - 1, a, b);
      TermIsRow(m, hi - 1, a, b);
    }
  }

  /** The partial sums of row `m + 1` follow from those of row `m`. */
  lemma {:induction false} PartialPascal(m: nat, j: nat, a: real, b: real)
    ensures RowSum(m + 1, j + 1, a, b) == PascalStep(a, RowSum(m, j, a, b), b, RowSum(m, j + 1, a, b))
  {
    if j == 0 {
      FirstPartial(a, b, Row(m, 0, a, b), RowSum(m, 0, a, b));
    } else {
      PartialPascal(m, j - 1, a, b);
      NextPartial(a, b, RowSum(m, j - 1, a, b), Row(m, j - 1, a, b), Row(m, j, a, b),
        RowSum(m, j, a, b), RowSum(m, j + 1, a, b), RowSum(m + 1, j, a, b), Row(m + 1, j, a, b),
        RowSum(m + 1, j + 1, a, b));
    }
  }

  /** The first partial sum, with its terms written as variables. */
  lemma FirstPartial(a: real, b: real, q: real, zero: real)
    requires zero == 0.0
    ensures 0.0 + b * q == PascalStep(a, zero, b, zero + q)
  {
  }

  /** One step of the partial sums, with its terms written as variables. */
  lemma NextPartial(a: real, b: real, s0: real, t0: real, t1: real, u: real, v: real, p: real, t: real, w: real)
    requires p == PascalStep(a, s0, b, u) && t == PascalStep(a, t0, b, t1)
    requires u == s0 + t0 && v == u + t1 && w == p + t
    ensures w == PascalStep(a, u, b, v)
  {
  }

  /** Row `m` sums to `(a + b)^m`: each row is `(a + b)` times the one before. */
  lemma {:induction false} RowSumPower(m: nat, a: real, b: real)
    ensures RowSum(m, m + 1, a, b) == Pow(a + b, m)
  {
    if m > 0 {
      RowSumPower(m - 1, a, b);
      PartialPascal(m - 1, m, a, b);
      RowAbove(m - 1, m, a, b);
      LastPartial(a, b, Pow(a + b, m - 1), RowSum(m - 1, m + 1, a, b), RowSum(m, m + 1, a, b));
    }
  }

  /** The last step of the row sums, with its terms written as variables. */
  lemma LastPartial(a: real, b: real, q: real, v: real, w: real)
    requires v == q && w == PascalStep(a, q, b, v)
    ensures w == (a + b) * q
  {
  }

  /** The binomial theorem: `Σ_{k=0..m} C(m,k) a^k b^(m-k) = (a+b)^m`. */
  lemma BinomialTheorem(m: nat, a: real, b: real)
    ensures TermSum(m, 0, m + 1, a, b) == Pow(a + b, m)
  {
    TermSumIsRowSum(m, m + 1, a, b);
    RowSumPower(m, a, b);
  }

  /** Dropping the first term of a sum that starts at zero. */
  lemma {:induction false} TermSumSplit(m: nat, hi: nat, a: real, b: real)
    requires hi >= 1
    ensures TermSum(m, 0, hi, a, b) == Term(m, 0, a, b) + TermSum(m, 1, hi, a, b)
  {
    if hi > 1 {
      TermSumSplit(m, hi - 1, a, b);
    }
  }

  lemma {:induction false} PowOne(k: nat)
    ensures Pow(1.0, k) == 1.0
  {
    if k > 0 {
      PowOne(k - 1);
    }
  }
}

=== FILE: data_base.dfy ===
/** Data bases and their train/validation/test splits
    (`shfl/data_base/data_base.py`).

    A split is a sequence of rows and a sequence of labels; `np.arange` +
    `np.random.shuffle` + fancy indexing is a gather by a Fisher-Yates
    permutation of the label positions, driven by an explicit draw stream. */
module DataBase {
  import opened Wrappers
  import opened Numeric
  import opened Permutation

  datatype Split<R, L> = Split(data: seq<R>, labels: seq<L>)

  /** Every row has exactly one label. */
  predicate Paired<R, L>(sp: Split<R, L>) {
    |sp.data| == |sp.labels|
  }

  /** The (row, label) pairs of a paired split. */
  function Rows<R, L>(sp: Split<R, L>): seq<(R, L)>
    requires Paired(sp)
  {
    Zip(sp.data, sp.labels)
  }

  /** A data base before `load_data`.  `LabeledDatabase.__init__` skips
      `DataBase.__init__` (it calls `super(DataBase, self)`), so its split
      attributes do not exist yet (`Unset`); a base built by
      `DataBase.__init__` holds empty Python lists (`Empty`). */
  datatype Store<R, L> =
    | Unset
    | Empty
    | Stored(train: Split<R, L>, validation: Split<R, L>, test: Split<R, L>)

  lemma IndicesBelowWiden(idx: seq<nat>, n: nat, m: nat)
    requires IndicesBelow(idx, n) && n <= m
    ensures IndicesBelow(idx, m)
  {
  }

  /** Shuffles the rows and labels of a split with the same permutation of
      `arange(len(labels))`; fewer rows than labels is an `IndexError`, and
      rows beyond the number of labels are dropped. */
  function ShuffleSplit<R, L>(sp: Split<R, L>, draws: nat -> nat): (r: Result<Split<R, L>>)
    ensures r.Err? <==> |sp.data| < |sp.labels|
    ensures r.Err? ==> r.error == IndexError
    ensures r.Ok? ==> Paired(r.value) && |r.value.labels| == |sp.labels|
    ensures r.Ok? ==> Rows(r.value) == Shuffle(Zip(sp.data[..|sp.labels|], sp.labels), draws)
  {
    if |sp.data| < |sp.labels| then Err(IndexError)
    else
      var p := Shuffle(Range(|sp.labels|), draws);
      ShuffleRangeIsPermutation(|sp.labels|, draws);
      IndicesBelowWiden(p, |sp.labels|, |sp.data|);
      var r := Split(Gather(sp.data, p), Gather(sp.labels, p));
      ShuffledRows(sp, draws);
      Ok(r)
  }

  lemma ShuffledRows<R, L>(sp: Split<R, L>, draws: nat -> nat)
    requires |sp.data| >= |sp.labels|
    ensures IndicesBelow(Shuffle(Range(|sp.labels|), draws), |sp.labels|)
    ensures IndicesBelow(Shuffle(Range(|sp.labels|), draws), |sp.data|)
    ensures Zip(Gather(sp.data, Shuffle(Range(|sp.labels|), draws)), Gather(sp.labels, Shuffle(Range(|sp.labels|), draws)))
      == Shuffle(Zip(sp.data[..|sp.labels|], sp.labels), draws)
  {
    var n := |sp.labels|;
    var p := Shuffle(Range(n), draws);
    var d := sp.data[..n];
    ShuffleRangeIsPermutation(n, draws);
    assert Gather(sp.data, p) == Gather(d, p);
    GatherZip(d, sp.labels, p);
    GatherShuffle(Zip(d, sp.labels), draws);
  }

  /** A shuffled split keeps every row with its label and holds the same
      (row, label) pairs as before. */
  lemma ShuffleSplitKeepsPairs<R, L>(sp: Split<R, L>, draws: nat -> nat)
    requires Paired(sp)
    ensures ShuffleSplit(sp, draws).Ok?
    ensures multiset(Rows(ShuffleSplit(sp, draws).value)) == multiset(Rows(sp))
  {
    assert sp.data[..|sp.labels|] == sp.data;
    ShuffleMultiset(Rows(sp), draws);
  }

  lemma PairedPrefix<R, L>(sp: Split<R, L>)
    ensures Paired(sp) ==> sp.data[..|sp.labels|] == sp.data
  {
  }

  /** The first `dim` rows and the rest, sliced the Python way. */
  function SplitAt<R, L>(sp: Split<R, L>, dim: int): (r: (Split<R, L>, Split<R, L>))
    requires Paired(sp)
    ensures Paired(r.0) && Paired(r.1)
    ensures Rows(r.0) == Slice(Rows(sp), 0, dim) && Rows(r.1) == Slice(Rows(sp), dim, |sp.data|)
  {
    var n := |sp.data|;
    (Split(Slice(sp.data, 0, dim), Slice(sp.labels, 0, dim)),
     Split(Slice(sp.data, dim, n), Slice(sp.labels, dim, n)))
  }

  /** A Python slice at any bound cuts a sequence into two parts that put
      back together give it. */
  lemma SliceHalves<T>(s: seq<T>, x: int)
    ensures Slice(s, 0, x) + Slice(s, x, |s|) == s
  {
    var b := SliceBound(x, |s|);
    assert Slice(s, 0, x) == s[..b];
    assert Slice(s, x, |s|) == s[b..];
  }

  /** `extract_validation_samples(data, labels, dim)`: shuffles rows and
      labels together, then returns the rest `[dim:]` and the validation
      part `[0:dim]`. */
  function ExtractValidationSamples<R, L>(data: seq<R>, labels: seq<L>, dim: int, draws: nat -> nat)
    : (r: Result<(Split<R, L>, Split<R, L>)>)
    ensures r.Err? <==> |data| < |labels|
    ensures r.Err? ==> r.error == IndexError
    ensures r.Ok? ==> Paired(r.value.0) && Paired(r.value.1)
    ensures r.Ok? ==> |r.value.0.data| + |r.value.1.data| == |labels|
    ensures r.Ok? && 0 <= dim <= |labels| ==>
      |r.value.1.data| == dim && |r.value.0.data| == |labels| - dim
    ensures r.Ok? && dim > |labels| ==> |r.value.1.data| == |labels| && |r.value.0.data| == 0
    ensures r.Ok? ==>
      Rows(r.value.1) + Rows(r.value.0) == Shuffle(Zip(data[..|labels|], labels), draws)
  {
    var sh :- ShuffleSplit(Split(data, labels), draws);
    var (validation, rest) := SplitAt(sh, dim);
    SliceHalves(Rows(sh), dim);
    Ok((rest, validation))
  }

  /** The validation part and the rest hold, between them, exactly the
      (row, label) pairs given. */
  lemma ExtractKeepsPairs<R, L>(data: seq<R>, labels: seq<L>, dim: int, draws: nat -> nat)
    requires |data| == |labels|
    ensures ExtractValidationSamples(data, labels, dim, draws).Ok?
    ensures var r := ExtractValidationSamples(data, labels, dim, draws).value;
      multiset(Rows(r.1)) + multiset(Rows(r.0)) == multiset(Zip(data, labels))
  {
    var r := ExtractValidationSamples(data, labels, dim, draws).value;
    assert data[..|labels|] == data;
    ShuffleMultiset(Zip(data, labels), draws);
    assert multiset(Rows(r.1) + Rows(r.0)) == multiset(Rows(r.1)) + multiset(Rows(r.0));
  }

  /** `DataBase.shuffle()`: train, test and validation, in that order, are
      each shuffled with their own draws.  Without split attributes it is an
      `AttributeError`; on the initial empty lists fancy indexing is a
      `TypeError`. */
  function ShuffleStore<R, L>(db: Store<R, L>, trainDraws: nat -> nat, testDraws: nat -> nat,
                              validationDraws: nat -> nat): (r: Result<Store<R, L>>)
    ensures db.Unset? ==> r == Err(AttributeError)
    ensures db.Empty? ==> r == Err(TypeError)
    ensures db.Stored? && Paired(db.train) && Paired(db.validation) && Paired(db.test) ==>
      r.Ok? && r.value.Stored? &&
      Paired(r.value.train) && Rows(r.value.train) == Shuffle(Rows(db.train), trainDraws) &&
      Paired(r.value.test) && Rows(r.value.test) == Shuffle(Rows(db.test), testDraws) &&
      Paired(r.value.validation) && Rows(r.value.validation) == Shuffle(Rows(db.validation), validationDraws)
  {
    match db
    case Unset => Err(AttributeError)
    case Empty => Err(TypeError)
    case Stored(train, validation, test) =>
      PairedPrefix(train);
      PairedPrefix(test);
      PairedPrefix(validation);
      var train' :- ShuffleSplit(train, trainDraws);
      var test' :- ShuffleSplit(test, testDraws);
      var validation' :- ShuffleSplit(validation, validationDraws);
      Ok(Stored(train', validation', test'))
  }

  /** The `train` property. */
  function Train<R, L>(db: Store<R, L>): (r: Result<Split<R, L>>)
    ensures db.Unset? ==> r == Err(AttributeError)
    ensures db.Empty? ==> r == Ok(Split([], []))
    ensures db.Stored? ==> r == Ok(db.train)
  {
    match db
    case Unset => Err(AttributeError)
    case Empty => Ok(Split([], []))
    case Stored(train, _, _) => Ok(train)
  }

  /** The `validation` property. */
  function Validation<R, L>(db: Store<R, L>): (r: Result<Split<R, L>>)
    ensures db.Unset? ==> r == Err(AttributeError)
    ensures db.Empty? ==> r == Ok(Split([], []))
    ensures db.Stored? ==> r == Ok(db.validation)
  {
    match db
    case Unset => Err(AttributeError)
    case Empty => Ok(Split([], []))
    case Stored(_, validation, _) => Ok(validation)
  }

  /** The `test` property. */
  function Test<R, L>(db: Store<R, L>): (r: Result<Split<R, L>>)
    ensures db.Unset? ==> r == Err(AttributeError)
    ensures db.Empty? ==> r == Ok(Split([], []))
    ensures db.Stored? ==> r == Ok(db.test)
  {
    match db
    case Unset => Err(AttributeError)
    case Empty => Ok(Split([], []))
    case Stored(_, _, test) => Ok(test)
  }

  /** The `data` property: train, validation and test together. */
  function Data<R, L>(db: Store<R, L>): (r: Result<(Split<R, L>, Split<R, L>, Split<R, L>)>)
    ensures r.Ok? <==> !db.Unset?
    ensures r.Ok? ==> Train(db) == Ok(r.value.0) && Validation(db) == Ok(r.value.1) && Test(db) == Ok(r.value.2)
  {
    match db
    case Unset => Err(AttributeError)
    case Empty => Ok((Split([], []), Split([], []), Split([], [])))
    case Stored(train, validation, test) => Ok((train, validation, test))
  }

  /** `int(len(data) * (1 - train_percentage))`. */
  function TestSize(n: nat, trainPercentage: real): (r: int)
    ensures trainPercentage <= 1.0 ==>
      0 <= r && r as real <= n as real * (1.0 - trainPercentage) < r as real + 1.0
  {
    Trunc(n as real * (1.0 - trainPercentage))
  }

  /** `int(len(data) * 0.1)`. */
  function ValidationSize(n: nat): (r: int)
    ensures 0 <= r <= n
    ensures r as real <= n as real / 10.0 < r as real + 1.0
  {
    Trunc(n as real * 0.1)
  }

  /** The two cuts of `load_data`, before the final shuffle: the test part
      is cut from the whole data, the validation part from what is left. */
  function CutData<R, L>(data: seq<R>, labels: seq<L>, trainPercentage: real,
                         testCut: nat -> nat, validationCut: nat -> nat)
    : (r: Result<Store<R, L>>)
    ensures r.Err? <==> |data| < |labels|
    ensures r.Ok? ==> r.value.Stored? && Paired(r.value.train) && Paired(r.value.validation) && Paired(r.value.test)
  {
    var e1 :- ExtractValidationSamples(data, labels, TestSize(|data|, trainPercentage), testCut);
    var e2 := ExtractValidationSamples(e1.0.data, e1.0.labels, ValidationSize(|data|), validationCut).value;
    Ok(Stored(e2.0, e2.1, e1.1))
  }

  /** `LabeledDatabase(data, labels, train_percentage).load_data()`: the two
      cuts, then `shuffle()`. */
  function LoadData<R, L>(data: seq<R>, labels: seq<L>, trainPercentage: real,
                          testCut: nat -> nat, validationCut: nat -> nat,
                          trainDraws: nat -> nat, testDraws: nat -> nat, validationDraws: nat -> nat)
    : (r: Result<Store<R, L>>)
    ensures r.Err? <==> |data| < |labels|
    ensures r.Ok? ==> r.value.Stored?
  {
    var cut :- CutData(data, labels, trainPercentage, testCut, validationCut);
    ShuffleStore(cut, trainDraws, testDraws, validationDraws)
  }

  /** The (row, label) pairs of all three parts of a stored base. */
  ghost function AllRows<R, L>(db: Store<R, L>): multiset<(R, L)>
    requires db.Stored? && Paired(db.train) && Paired(db.validation) && Paired(db.test)
  {
    multiset(Rows(db.train)) + multiset(Rows(db.validation)) + multiset(Rows(db.test))
  }

  /** For `N` paired rows and a train percentage in [0, 1] the cuts give a
      test part of `int(N (1 - p))` rows and a validation part of `int(N/10)`
      rows or all that is left; together the parts hold exactly the given
      (row, label) pairs. */
  lemma CutDataSplits<R, L>(data: seq<R>, labels: seq<L>, trainPercentage: real,
                            testCut: nat -> nat, validationCut: nat -> nat)
    requires |data| == |labels|
    requires 0.0 <= trainPercentage <= 1.0
    ensures var r := CutData(data, labels, trainPercentage, testCut, validationCut);
      r.Ok? &&
      |r.value.test.data| == TestSize(|data|, trainPercentage) &&
      |r.value.validation.data| == Min(ValidationSize(|data|), |data| - TestSize(|data|, trainPercentage)) &&
      AllRows(r.value) == multiset(Zip(data, labels))
  {
    CutDataSizes(data, labels, trainPercentage, testCut, validationCut);
    CutDataPairs(data, labels, trainPercentage, testCut, validationCut);
  }

  /** The sizes half of `CutDataSplits`. */
  lemma CutDataSizes<R, L>(data: seq<R>, labels: seq<L>, trainPercentage: real,
                           testCut: nat -> nat, validationCut: nat -> nat)
    requires |data| == |labels|
    requires 0.0 <= trainPercentage <= 1.0
    ensures var r := CutData(data, labels, trainPercentage, testCut, validationCut);
      r.Ok? &&
      |r.value.test.data| == TestSize(|data|, trainPercentage) &&
      |r.value.validation.data| == Min(ValidationSize(|data|), |data| - TestSize(|data|, trainPercentage))
  {
    var n := |data|;
    var t := TestSize(n, trainPercentage);
    TestSizeBounds(n, trainPercentage);
    var e1 := ExtractValidationSamples(data, labels, t, testCut).value;
    assert |e1.1.data| == t && |e1.0.data| == n - t;
    var e2 := ExtractValidationSamples(e1.0.data, e1.0.labels, ValidationSize(n), validationCut).value;
    assert |e2.1.data| == Min(ValidationSize(n), n - t);
  }

  /** The pairs half of `CutDataSplits`. */
  lemma CutDataPairs<R, L>(data: seq<R>, labels: seq<L>, trainPercentage: real,
                           testCut: nat -> nat, validationCut: nat -> nat)
    requires |data| == |labels|
    ensures var r := CutData(data, labels, trainPercentage, testCut, validationCut);
      r.Ok? && AllRows(r.value) == multiset(Zip(data, labels))
  {
    var testDim, validationDim := TestSize(|data|, trainPercentage), ValidationSize(|data|);
    ExtractKeepsPairs(data, labels, testDim, testCut);
    var e1 := ExtractValidationSamples(data, labels, testDim, testCut).value;
    ExtractKeepsPairs(e1.0.data, e1.0.labels, validationDim, validationCut);
    var e2 := ExtractValidationSamples(e1.0.data, e1.0.labels, validationDim, validationCut).value;
    var r := Stored(e2.0, e2.1, e1.1);
    assert CutData(data, labels, trainPercentage, testCut, validationCut) == Ok(r);
    var train, validation, test := multiset(Rows(e2.0)), multiset(Rows(e2.1)), multiset(Rows(e1.1));
    assert validation + train == multiset(Rows(e1.0));
    assert test + multiset(Rows(e1.0)) == multiset(Zip(data, labels));
    assert AllRows(r) == train + validation + test;
  }

  lemma TestSizeBounds(n: nat, trainPercentage: real)
    requires 0.0 <= trainPercentage <= 1.0
    ensures 0 <= TestSize(n, trainPercentage) <= n
  {
    var x := n as real * (1.0 - trainPercentage);
    assert 0.0 <= x <= n as real * 1.0;
  }

  /** Shuffling a stored base keeps the size of every part, and each part
      keeps its own multiset of (row, label) pairs. */
  lemma ShuffleStoreKeepsPairs<R, L>(db: Store<R, L>, trainDraws: nat -> nat, testDraws: nat -> nat,
                                     validationDraws: nat -> nat)
    requires db.Stored? && Paired(db.train) && Paired(db.validation) && Paired(db.test)
    ensures var r := ShuffleStore(db, trainDraws, testDraws, validationDraws);
      r.Ok? && r.value.Stored? &&
      Paired(r.value.train) && Paired(r.value.validation) && Paired(r.value.test) &&
      |r.value.train.data| == |db.train.data| && |r.value.validation.data| == |db.validation.data| &&
      |r.value.test.data| == |db.test.data| &&
      multiset(Rows(r.value.train)) == multiset(Rows(db.train)) &&
      multiset(Rows(r.value.validation)) == multiset(Rows(db.validation)) &&
      multiset(Rows(r.value.test)) == multiset(Rows(db.test)) &&
      AllRows(r.value) == AllRows(db)
  {
    ShuffleMultiset(Rows(db.train), trainDraws);
    ShuffleMultiset(Rows(db.test), testDraws);
    ShuffleMultiset(Rows(db.validation), validationDraws);
  }

  /** `load_data` on N paired rows with a train percentage in [0, 1]: the
      three sizes are as cut and sum to N, and the loaded base holds exactly
      the given (row, label) pairs. */
  lemma LoadDataSplits<R, L>(data: seq<R>, labels: seq<L>, trainPercentage: real,
                             testCut: nat -> nat, validationCut: nat -> nat,
                             trainDraws: nat -> nat, testDraws: nat -> nat, validationDraws: nat -> nat)
    requires |data| == |labels|
    requires 0.0 <= trainPercentage <= 1.0
    ensures var r := LoadData(data, labels, trainPercentage, testCut, validationCut, trainDraws, testDraws, validationDraws);
      r.Ok? &&
      Paired(r.value.train) && Paired(r.value.validation) && Paired(r.value.test) &&
      |r.value.test.data| == TestSize(|data|, trainPercentage) &&
      |r.value.validation.data| == Min(ValidationSize(|data|), |data| - TestSize(|data|, trainPercentage)) &&
      |r.value.train.data| + |r.value.validation.data| + |r.value.test.data| == |data| &&
      AllRows(r.value) == multiset(Zip(data, labels))
  {
    CutDataSplits(data, labels, trainPercentage, testCut, validationCut);
    var cut := CutData(data, labels, trainPercentage, testCut, validationCut).value;
    ShuffleStoreKeepsPairs(cut, trainDraws, testDraws, validationDraws);
    var r := LoadData(data, labels, trainPercentage, testCut, validationCut, trainDraws, testDraws, validationDraws);
    assert r == ShuffleStore(cut, trainDraws, testDraws, validationDraws);
    assert |AllRows(r.value)| == |r.value.train.data| + |r.value.validation.data| + |r.value.test.data|;
    assert |multiset(Zip(data, labels))| == |data|;
  }
}

=== FILE: data_distribution.dfy ===
/** What the IID and non-IID distributions share
    (`shfl/data_distribution/data_distribution_iid.py`,
    `shfl/data_distribution/data_distribution_non_iid.py`): the weights are
    defaulted and normalised, a leading share of the rows is selected, and
    the result is one list of rows and one list of labels per node. */
module DataDistribution {
  import opened Wrappers
  import opened Numeric

  /** `federated_data, federated_label`: the rows and the labels of every
      node, node by node. */
  datatype Federated<R, L> = Federated(data: seq<seq<R>>, labels: seq<seq<L>>)

  /** `np.full(num_nodes, 1/num_nodes)`; with no nodes `1/0` raises. */
  function DefaultWeights(numNodes: nat): (r: Result<seq<real>>)
    ensures r.Err? <==> numNodes == 0
    ensures r.Err? ==> r.error == ZeroDivisionError
    ensures r.Ok? ==> |r.value| == numNodes && Sum(r.value) == 1.0
    ensures r.Ok? ==> forall i :: 0 <= i < numNodes ==> r.value[i] * numNodes as real == 1.0
  {
    if numNodes == 0 then Err(ZeroDivisionError)
    else
      var w := seq(numNodes, _ => 1.0 / numNodes as real);
      SumConstant(w, 1.0 / numNodes as real);
      Ok(w)
  }

  /** `[float(i) / sum(weights) for i in weights]`: an empty list needs no
      division, a non-empty one with a zero sum raises. */
  function Normalize(w: seq<real>): (r: Result<seq<real>>)
    ensures r.Err? <==> |w| > 0 && Sum(w) == 0.0
    ensures r.Err? ==> r.error == ZeroDivisionError
    ensures r.Ok? ==> |r.value| == |w|
    ensures r.Ok? ==> forall i :: 0 <= i < |w| ==> r.value[i] * Sum(w) == w[i]
  {
    if |w| > 0 && Sum(w) == 0.0 then Err(ZeroDivisionError)
    else Ok(seq(|w|, i requires 0 <= i < |w| => w[i] / Sum(w)))
  }

  /** Lines 40-43 of the IID file (58-61 of the non-IID one): default, then
      normalise. */
  function NormalizeWeights(numNodes: nat, weights: Option<seq<real>>): (r: Result<seq<real>>)
    ensures r.Err? <==> match weights
      case None => numNodes == 0
      case Some(w) => |w| > 0 && Sum(w) == 0.0
    ensures r.Err? ==> r.error == ZeroDivisionError
    ensures r.Ok? && weights.None? ==>
      |r.value| == numNodes && forall i :: 0 <= i < numNodes ==> r.value[i] * numNodes as real == 1.0
    ensures r.Ok? && weights.Some? ==>
      |r.value| == |weights.value| &&
      forall i :: 0 <= i < |weights.value| ==> r.value[i] * Sum(weights.value) == weights.value[i]
  {
    match weights
    case None => (if numNodes == 0 then Err(ZeroDivisionError) else Normalize(DefaultWeights(numNodes).value))
    case Some(w) => Normalize(w)
  }

  /** Normalised weights sum to one. */
  lemma NormalizedSumsToOne(w: seq<real>)
    requires |w| > 0 && Normalize(w).Ok?
    ensures Sum(Normalize(w).value) == 1.0
  {
    var s := Sum(w);
    var n := Normalize(w).value;
    assert n == Scale(1.0 / s, w) by {
      forall i | 0 <= i < |w| ensures n[i] == Scale(1.0 / s, w)[i] {
        assert n[i] * s == w[i];
      }
    }
    SumScale(1.0 / s, w);
  }

  /** Normalising is idempotent: weights that already sum to one are kept. */
  lemma NormalizeIdempotent(w: seq<real>)
    requires |w| > 0 && Normalize(w).Ok?
    ensures Normalize(Normalize(w).value) == Normalize(w)
  {
    NormalizedSumsToOne(w);
    var n := Normalize(w).value;
    assert Normalize(n).value == n;
  }

  /** The default weights give every node the share `1/num_nodes`. */
  lemma DefaultWeightsUniform(numNodes: nat)
    requires numNodes > 0
    ensures NormalizeWeights(numNodes, None).Ok?
    ensures |NormalizeWeights(numNodes, None).value| == numNodes
    ensures forall i :: 0 <= i < numNodes ==> NormalizeWeights(numNodes, None).value[i] == 1.0 / numNodes as real
  {
    var w := DefaultWeights(numNodes).value;
    forall i | 0 <= i < numNodes ensures Normalize(w).value[i] == w[i] {
      assert Normalize(w).value[i] * 1.0 == w[i];
    }
    assert Normalize(w).value == w;
  }

  /** `int(percent * len(s) / 100)`. */
  function Cut(len: nat, percent: real): int {
    Trunc(percent * len as real / 100.0)
  }

  lemma CutBounds(len: nat, percent: real)
    requires 0.0 <= percent <= 100.0
    ensures 0 <= Cut(len, percent) <= len
  {
    var x := percent * len as real;
    assert 0.0 <= x <= 100.0 * len as real;
    var y := x / 100.0;
    assert 0.0 <= y <= len as real;
    assert Cut(len, percent) == Trunc(y);
  }

  /** `s[0:int(percent * len(s) / 100)]`: for a percentage in [0, 100] the
      leading `Cut` entries, all of them at 100. */
  function SelectPercent<T>(s: seq<T>, percent: real): (r: seq<T>)
    ensures 0.0 <= percent <= 100.0 ==> |r| == Cut(|s|, percent) && r == s[..|r|]
    ensures percent == 100.0 ==> r == s
  {
    if 0.0 <= percent <= 100.0 then CutBounds(|s|, percent); Slice(s, 0, Cut(|s|, percent))
    else Slice(s, 0, Cut(|s|, percent))
  }
}

=== FILE: distribution_iid.dfy ===
/** The IID distribution (`IidDataDistribution.make_data_federated` in
    `shfl/data_distribution/data_distribution_iid.py`): rows and labels are
    shuffled together, a leading percentage is kept, and node i receives the
    rows between the cumulative weights before and after it. */
module DistributionIid {
  import opened Wrappers
  import opened Numeric
  import opened Permutation
  import opened DataBase
  import opened DataDistribution

  /** `percentage_used` before node i: `w[0] + ... + w[i-1]`, accumulated
      left to right. */
  function CumWeight(w: seq<real>, i: nat): real
    requires i <= |w|
  {
    if i == 0 then 0.0 else CumWeight(w, i - 1) + w[i - 1]
  }

  /** `int(percentage_used * len)` once i nodes are served: where node i's
      rows start and node i-1's end. */
  function Bound(w: seq<real>, i: nat, len: nat): int
    requires i <= |w|
  {
    Scaled(CumWeight(w, i), len)
  }

  /** Lines 45-53: one permutation of the label positions applied to rows and
      labels, then the leading `int(percent * len / 100)` of each. */
  function Selected<R, L>(sp: Split<R, L>, percent: real, draws: nat -> nat): (r: Result<Split<R, L>>)
    ensures r.Err? <==> |sp.data| < |sp.labels|
    ensures r.Err? ==> r.error == IndexError
    ensures r.Ok? ==> Paired(r.value)
    ensures r.Ok? && 0.0 <= percent <= 100.0 ==>
      |r.value.data| == Cut(|sp.labels|, percent) &&
      Rows(r.value) <= Shuffle(Zip(sp.data[..|sp.labels|], sp.labels), draws)
  {
    var shuffled :- ShuffleSplit(sp, draws);
    SelectPercentRows(shuffled, percent);
    Ok(Split(SelectPercent(shuffled.data, percent), SelectPercent(shuffled.labels, percent)))
  }

  /** Rows and labels of equal length are cut at the same place. */
  lemma SelectPercentRows<R, L>(sp: Split<R, L>, percent: real)
    requires Paired(sp)
    ensures Paired(Split(SelectPercent(sp.data, percent), SelectPercent(sp.labels, percent)))
    ensures 0.0 <= percent <= 100.0 ==>
      Rows(Split(SelectPercent(sp.data, percent), SelectPercent(sp.labels, percent))) == Rows(sp)[..Cut(|sp.data|, percent)]
  {
    var c := Cut(|sp.data|, percent);
    var b := SliceBound(c, |sp.data|);
    assert SelectPercent(sp.data, percent) == Slice(sp.data, 0, c);
    assert SelectPercent(sp.labels, percent) == Slice(sp.labels, 0, c);
    assert Slice(sp.data, 0, c) == sp.data[..b];
    assert Slice(sp.labels, 0, c) == sp.labels[..b];
  }

  /** The loop at lines 55-66 from node `client` on, with `sum_used` and
      `percentage_used` as the earlier nodes left them.  Rows and labels are
      cut at the same start; each end is `int(percentage_used * len)` of its
      own array.  Fewer weights than nodes is an `IndexError`. */
  function DistributeFrom<R, L>(sel: Split<R, L>, w: seq<real>, numNodes: nat, client: nat,
                                sumUsed: int, used: real): (r: Result<Federated<R, L>>)
    requires client <= numNodes
    ensures r.Err? <==> client < numNodes && |w| < numNodes
    ensures r.Err? ==> r.error == IndexError
    ensures r.Ok? ==> |r.value.data| == numNodes - client && |r.value.labels| == numNodes - client
    decreases numNodes - client
  {
    if client == numNodes then Ok(Federated([], []))
    else if client >= |w| then Err(IndexError)
    else
      var upto := used + w[client];
      var hi := Scaled(upto, |sel.data|);
      var rest :- DistributeFrom(sel, w, numNodes, client + 1, hi, upto);
      Ok(Federated([Slice(sel.data, sumUsed, hi)] + rest.data,
                   [Slice(sel.labels, sumUsed, Scaled(upto, |sel.labels|))] + rest.labels))
  }

  /** `make_data_federated(data, labels, num_nodes, percent, weights)`. */
  function MakeDataFederated<R, L>(sp: Split<R, L>, numNodes: nat, percent: real,
                                   weights: Option<seq<real>>, draws: nat -> nat): (r: Result<Federated<R, L>>)
    ensures NormalizeWeights(numNodes, weights).Err? ==> r == Err(NormalizeWeights(numNodes, weights).error)
    ensures NormalizeWeights(numNodes, weights).Ok? ==>
      (r.Err? <==> |sp.data| < |sp.labels| || |NormalizeWeights(numNodes, weights).value| < numNodes)
    ensures NormalizeWeights(numNodes, weights).Ok? && r.Err? ==> r.error == IndexError
    ensures r.Ok? ==> |r.value.data| == numNodes && |r.value.labels| == numNodes
  {
    var w :- NormalizeWeights(numNodes, weights);
    var sel :- Selected(sp, percent, draws);
    DistributeFrom(sel, w, numNodes, 0, 0, 0.0)
  }

  /** The loop in closed form: node `client + k` gets the rows and labels
      between the bounds of its cumulative weights. */
  lemma DistributeClosedForm<R, L>(sel: Split<R, L>, w: seq<real>, numNodes: nat, client: nat)
    requires client <= numNodes <= |w|
    ensures DistributeFrom(sel, w, numNodes, client, Bound(w, client, |sel.data|), CumWeight(w, client)).Ok?
    ensures forall k :: 0 <= k < numNodes - client ==> DistributeAt(sel, w, numNodes, client, k)
  {
    DistributeStepOk(sel, w, numNodes, client);
    forall k | 0 <= k < numNodes - client
      ensures DistributeAt(sel, w, numNodes, client, k)
    {
      DistributeNode(sel, w, numNodes, client, k);
    }
  }

  /** Node `client + k` of the loop from `client` gets the rows and labels
      between the bounds of its cumulative weights. */
  ghost predicate DistributeAt<R, L>(sel: Split<R, L>, w: seq<real>, numNodes: nat, client: nat, k: nat)
    requires client + k < numNodes <= |w|
  {
    var f := DistributeFrom(sel, w, numNodes, client, Bound(w, client, |sel.data|), CumWeight(w, client)).value;
    f.data[k] == Slice(sel.data, Bound(w, client + k, |sel.data|), Bound(w, client + k + 1, |sel.data|)) &&
    f.labels[k] == Slice(sel.labels, Bound(w, client + k, |sel.data|), Bound(w, client + k + 1, |sel.labels|))
  }

  lemma {:induction false} DistributeNode<R, L>(sel: Split<R, L>, w: seq<real>, numNodes: nat, client: nat, k: nat)
    requires client + k < numNodes <= |w|
    ensures DistributeAt(sel, w, numNodes, client, k)
    decreases k
  {
    if k == 0 {
      DistributeFirst(sel, w, numNodes, client);
    } else {
      DistributeNode(sel, w, numNodes, client + 1, k - 1);
      DistributeShift(sel, w, numNodes, client, k);
    }
  }

  /** The first node of the loop from `client`. */
  lemma DistributeFirst<R, L>(sel: Split<R, L>, w: seq<real>, numNodes: nat, client: nat)
    requires client < numNodes <= |w|
    ensures DistributeAt(sel, w, numNodes, client, 0)
  {
    DistributeStep(sel, w, numNodes, client);
  }

  /** A later node of the loop from `client` is a node of the loop from
      `client + 1`. */
  lemma DistributeShift<R, L>(sel: Split<R, L>, w: seq<real>, numNodes: nat, client: nat, k: nat)
    requires 0 < k && client + k < numNodes <= |w|
    requires DistributeAt(sel, w, numNodes, client + 1, k - 1)
    ensures DistributeAt(sel, w, numNodes, client, k)
  {
    DistributeStep(sel, w, numNodes, client);
    assert client + 1 + (k - 1) == client + k;
  }

  /** From a node on, the loop succeeds when every node has a weight. */
  lemma DistributeStepOk<R, L>(sel: Split<R, L>, w: seq<real>, numNodes: nat, client: nat)
    requires client <= numNodes <= |w|
    ensures DistributeFrom(sel, w, numNodes, client, Bound(w, client, |sel.data|), CumWeight(w, client)).Ok?
  {
  }

  /** One turn of the loop, with the running values written as bounds. */
  lemma DistributeStep<R, L>(sel: Split<R, L>, w: seq<real>, numNodes: nat, client: nat)
    requires client < numNodes <= |w|
    ensures var f := DistributeFrom(sel, w, numNodes, client, Bound(w, client, |sel.data|), CumWeight(w, client));
      var rest := DistributeFrom(sel, w, numNodes, client + 1, Bound(w, client + 1, |sel.data|), CumWeight(w, client + 1));
      f.Ok? && rest.Ok? &&
      f.value.data == [Slice(sel.data, Bound(w, client, |sel.data|), Bound(w, client + 1, |sel.data|))] + rest.value.data &&
      f.value.labels == [Slice(sel.labels, Bound(w, client, |sel.data|), Bound(w, client + 1, |sel.labels|))] + rest.value.labels
  {
    var upto := CumWeight(w, client) + w[client];
    assert upto == CumWeight(w, client + 1);
  }

  /** Whatever the weights, node i's rows and labels are cut at the same two
      bounds of the selected rows, so every row keeps its label. */
  lemma IidNodeChunks<R, L>(sp: Split<R, L>, numNodes: nat, percent: real,
                            weights: Option<seq<real>>, draws: nat -> nat, i: nat)
    requires MakeDataFederated(sp, numNodes, percent, weights, draws).Ok? && i < numNodes
    ensures NormalizeWeights(numNodes, weights).Ok? && Selected(sp, percent, draws).Ok?
    ensures var w := NormalizeWeights(numNodes, weights).value;
      var sel := Selected(sp, percent, draws).value;
      var f := MakeDataFederated(sp, numNodes, percent, weights, draws).value;
      i < |w| &&
      f.data[i] == Slice(sel.data, Bound(w, i, |sel.data|), Bound(w, i + 1, |sel.data|)) &&
      f.labels[i] == Slice(sel.labels, Bound(w, i, |sel.data|), Bound(w, i + 1, |sel.data|)) &&
      |f.data[i]| == |f.labels[i]|
  {
    var w := NormalizeWeights(numNodes, weights).value;
    var sel := Selected(sp, percent, draws).value;
    DistributeClosedForm(sel, w, numNodes, 0);
    assert DistributeAt(sel, w, numNodes, 0, i);
    assert Bound(w, 0, |sel.data|) == 0;
  }

  /** `CumWeight` is the sum of the weights before i. */
  lemma {:induction false} CumWeightIsSum(w: seq<real>, i: nat)
    requires i <= |w|
    ensures CumWeight(w, i) == Sum(w[..i])
  {
    if i > 0 {
      CumWeightIsSum(w, i - 1);
      assert w[..i] == w[..i - 1] + [w[i - 1]];
      SumConcat(w[..i - 1], [w[i - 1]]);
    }
  }

  /** With non-negative weights the running weight only grows. */
  lemma {:induction false} CumWeightMonotone(w: seq<real>, i: nat, j: nat)
    requires forall k :: 0 <= k < |w| ==> w[k] >= 0.0
    requires i <= j <= |w|
    ensures 0.0 <= CumWeight(w, i) <= CumWeight(w, j)
    decreases j
  {
    if i < j {
      CumWeightMonotone(w, i, j - 1);
    } else if i > 0 {
      CumWeightMonotone(w, i - 1, i - 1);
    }
  }

  lemma MulMonotone(a: real, b: real, n: nat)
    requires 0.0 <= a <= b
    ensures 0.0 <= a * n as real <= b * n as real
  {
    assert b * n as real - a * n as real == (b - a) * n as real;
  }

  /** Non-negative weights summing to one give cut points running from 0 to
      `len`. */
  lemma BoundsAreCutPoints(w: seq<real>, len: nat)
    requires forall k :: 0 <= k < |w| ==> w[k] >= 0.0
    requires CumWeight(w, |w|) == 1.0
    ensures CutPoints(seq(|w| + 1, i requires 0 <= i <= |w| => Bound(w, i, len)), len)
  {
    var b := seq(|w| + 1, i requires 0 <= i <= |w| => Bound(w, i, len));
    forall i, j | 0 <= i <= j < |b| ensures 0 <= b[i] <= b[j] <= len {
      BoundMonotone(w, i, j, len);
    }
    assert b[0] == 0;
    assert b[|w|] == len;
  }

  lemma BoundMonotone(w: seq<real>, i: nat, j: nat, len: nat)
    requires forall k :: 0 <= k < |w| ==> w[k] >= 0.0
    requires CumWeight(w, |w|) == 1.0
    requires i <= j <= |w|
    ensures 0 <= Bound(w, i, len) <= Bound(w, j, len) <= len
  {
    CumWeightMonotone(w, i, j);
    CumWeightMonotone(w, j, |w|);
    ScaledMonotone(CumWeight(w, i), CumWeight(w, j), len);
    ScaledMonotone(CumWeight(w, j), 1.0, len);
    ScaledOne(len);
  }

  lemma ScaledMonotone(x: real, y: real, len: nat)
    requires 0.0 <= x <= y
    ensures 0 <= Scaled(x, len) <= Scaled(y, len)
  {
    MulMonotone(x, y, len);
    TruncMonotone(x * len as real, y * len as real);
  }

  lemma ScaledOne(len: nat)
    ensures Scaled(1.0, len) == len
  {
    assert 1.0 * len as real == len as real;
  }

  /** The normalised weights are non-negative and sum to one when the given
      weights are non-negative with a positive sum, or absent. */
  lemma NormalizedWeightsCover(numNodes: nat, weights: Option<seq<real>>)
    requires numNodes > 0
    requires weights.Some? ==> Sum(weights.value) > 0.0 && forall k :: 0 <= k < |weights.value| ==> weights.value[k] >= 0.0
    ensures NormalizeWeights(numNodes, weights).Ok?
    ensures var w := NormalizeWeights(numNodes, weights).value;
      (forall k :: 0 <= k < |w| ==> w[k] >= 0.0) && CumWeight(w, |w|) == 1.0
  {
    var v := if weights.Some? then weights.value else DefaultWeights(numNodes).value;
    if weights.None? {
      forall k | 0 <= k < |v| ensures v[k] >= 0.0 {
        assert v[k] * numNodes as real == 1.0;
      }
    }
    NormalizedCover(v);
    var w := Normalize(v).value;
    CumWeightIsSum(w, |w|);
    assert w[..|w|] == w;
  }

  /** Non-negative weights with a positive sum normalise to non-negative
      weights summing to one. */
  lemma NormalizedCover(v: seq<real>)
    requires Sum(v) > 0.0 && forall k :: 0 <= k < |v| ==> v[k] >= 0.0
    ensures Normalize(v).Ok?
    ensures forall k :: 0 <= k < |Normalize(v).value| ==> Normalize(v).value[k] >= 0.0
    ensures Sum(Normalize(v).value) == 1.0
  {
    var w := Normalize(v).value;
    forall k | 0 <= k < |w| ensures w[k] >= 0.0 {
      assert w[k] * Sum(v) == v[k];
    }
    NormalizedSumsToOne(v);
  }

  /** With one non-negative weight per node summing to a positive value (or
      no weights), the node chunks abut: joined in node order they give back
      exactly the selected rows and the selected labels. */
  lemma IidCoversSelection<R, L>(sp: Split<R, L>, numNodes: nat, percent: real,
                                 weights: Option<seq<real>>, draws: nat -> nat)
    requires |sp.data| >= |sp.labels| && numNodes > 0
    requires weights.Some? ==> (|weights.value| == numNodes && Sum(weights.value) > 0.0 &&
      forall k :: 0 <= k < |weights.value| ==> weights.value[k] >= 0.0)
    ensures MakeDataFederated(sp, numNodes, percent, weights, draws).Ok?
    ensures Selected(sp, percent, draws).Ok?
    ensures Concat(MakeDataFederated(sp, numNodes, percent, weights, draws).value.data) == Selected(sp, percent, draws).value.data
    ensures Concat(MakeDataFederated(sp, numNodes, percent, weights, draws).value.labels) == Selected(sp, percent, draws).value.labels
  {
    NormalizedWeightsCover(numNodes, weights);
    var w := NormalizeWeights(numNodes, weights).value;
    var sel := Selected(sp, percent, draws).value;
    var len := |sel.data|;
    var f := MakeDataFederated(sp, numNodes, percent, weights, draws).value;
    BoundsAreCutPoints(w, len);
    var b := seq(|w| + 1, i requires 0 <= i <= |w| => Bound(w, i, len));
    forall i | 0 <= i < numNodes
      ensures f.data[i] == Pieces(sel.data, b)[i] && f.labels[i] == Pieces(sel.labels, b)[i]
    {
      IidNodeChunks(sp, numNodes, percent, weights, draws, i);
      assert 0 <= b[i] <= b[i + 1] <= len;
    }
    assert f.data == Pieces(sel.data, b);
    assert f.labels == Pieces(sel.labels, b);
    ConcatPieces(sel.data, b);
    ConcatPieces(sel.labels, b);
  }
}

=== FILE: distribution_non_iid.dfy ===
/** The non-IID distribution (`NonIidDataDistribution` in
    `shfl/data_distribution/data_distribution_non_iid.py`): every node is
    given a random set of classes and receives, shuffled, a weighted share of
    the selected rows whose class is in its set.

    Labels are one-hot rows; a row's class is its `argmax`.  `random.randint`
    and `np.random.shuffle` become explicit draw streams. */
module DistributionNonIid {
  import opened Wrappers
  import opened Numeric
  import opened Permutation
  import opened DataBase
  import opened DataDistribution

  /** Lines 28-38 for one node: `random.randint(2, total_labels)` labels,
      drawn until each is new.  The rejection loop yields distinct labels in
      uniformly random order; it is modelled as the first `num_labels`
      entries of a Fisher-Yates permutation of `range(total_labels)`, and the
      count draw picks one of the `total_labels - 1` possible counts. */
  function NodeLabels(total: nat, countDraw: nat, draws: nat -> nat): (r: seq<nat>)
    requires total >= 2
    ensures |r| == 2 + countDraw % (total - 1)
    ensures 2 <= |r| <= total && Distinct(r) && IndicesBelow(r, total)
  {
    ShuffleRangeIsPermutation(total, draws);
    Shuffle(Range(total), draws)[..2 + countDraw % (total - 1)]
  }

  /** Every admissible count occurs: count draw `k - 2` gives k labels. */
  lemma NodeLabelsEveryCount(total: nat, k: nat, draws: nat -> nat)
    requires 2 <= k <= total
    ensures |NodeLabels(total, k - 2, draws)| == k
  {
    assert (k - 2) % (total - 1) == k - 2;
  }

  /** `choose_labels(num_nodes, total_labels)`: with fewer than two labels
      `randint(2, total_labels)` has an empty range and raises at the first
      node. */
  function ChooseLabels(numNodes: nat, total: nat, countDraws: nat -> nat, labelDraws: nat -> nat -> nat)
    : (r: Result<seq<seq<nat>>>)
    ensures r.Err? <==> numNodes > 0 && total < 2
    ensures r.Err? ==> r.error == ValueError
    ensures r.Ok? ==> |r.value| == numNodes
    ensures r.Ok? ==> forall i :: 0 <= i < numNodes ==>
      2 <= |r.value[i]| <= total && Distinct(r.value[i]) && IndicesBelow(r.value[i], total)
  {
    if numNodes > 0 && total < 2 then Err(ValueError)
    else
      var r := seq(numNodes, i requires 0 <= i < numNodes => NodeLabels(total, countDraws(i), labelDraws(i)));
      assert forall i :: 0 <= i < numNodes ==> r[i] == NodeLabels(total, countDraws(i), labelDraws(i));
      Ok(r)
  }

  /** numpy's `argmax` of a row: the first position of its largest entry. */
  function Argmax(row: seq<real>): (r: nat)
    requires |row| > 0
    ensures r < |row|
    ensures forall j :: 0 <= j < |row| ==> row[j] <= row[r]
    ensures forall j :: 0 <= j < r ==> row[j] < row[r]
  {
    if |row| == 1 then 0
    else
      var t := Argmax(row[..|row| - 1]);
      if row[|row| - 1] > row[t] then |row| - 1 else t
  }

  /** The first position of the largest entry is unique. */
  lemma ArgmaxUnique(row: seq<real>, p: nat)
    requires p < |row|
    requires forall j :: 0 <= j < |row| ==> row[j] <= row[p]
    requires forall j :: 0 <= j < p ==> row[j] < row[p]
    ensures Argmax(row) == p
  {
    var a := Argmax(row);
    assert row[a] == row[p];
  }

  predicate NonEmptyRows(labels: seq<seq<real>>) {
    forall j :: 0 <= j < |labels| ==> |labels[j]| > 0
  }

  /** `labels.argmax(axis=-1)`: the class of every row; a row with no entries
      is a `ValueError`. */
  function Classes(labels: seq<seq<real>>): (r: Result<seq<nat>>)
    ensures r.Err? <==> !NonEmptyRows(labels)
    ensures r.Err? ==> r.error == ValueError
    ensures r.Ok? ==> |r.value| == |labels| && forall j :: 0 <= j < |labels| ==> r.value[j] == Argmax(labels[j])
  {
    if !NonEmptyRows(labels) then Err(ValueError)
    else Ok(seq(|labels|, j requires 0 <= j < |labels| => Argmax(labels[j])))
  }

  /** `len(np.unique(classes))`. */
  function CountDistinct(classes: seq<nat>): nat {
    |set c | c in classes|
  }

  /** Line 77: whether each row's class is one of the node's labels. */
  function InChosen(labels: seq<seq<real>>, chosen: seq<nat>): (r: seq<bool>)
    requires NonEmptyRows(labels)
    ensures |r| == |labels|
    ensures forall j :: 0 <= j < |labels| ==> (r[j] <==> Argmax(labels[j]) in chosen)
  {
    seq(|labels|, j requires 0 <= j < |labels| => Argmax(labels[j]) in chosen)
  }

  function CountTrue(m: seq<bool>): nat {
    if |m| == 0 then 0 else (if m[0] then 1 else 0) + CountTrue(m[1..])
  }

  /** numpy boolean indexing `s[mask]` with a mask of the same length. */
  function Keep<T>(s: seq<T>, m: seq<bool>): (r: seq<T>)
    requires |m| == |s|
    ensures |r| == CountTrue(m)
  {
    if |s| == 0 then [] else (if m[0] then [s[0]] else []) + Keep(s[1..], m[1..])
  }

  /** The reference selection: the rows whose class is in `chosen`, in order. */
  function FilterByClass<R>(rows: seq<(R, seq<real>)>, chosen: seq<nat>): seq<(R, seq<real>)>
    requires forall j :: 0 <= j < |rows| ==> |rows[j].1| > 0
  {
    if |rows| == 0 then []
    else (if Argmax(rows[0].1) in chosen then [rows[0]] else []) + FilterByClass(rows[1..], chosen)
  }

  /** The reference filter keeps pairs of the rows only, each with a chosen
      class, and keeps every row whose class is chosen. */
  lemma {:induction false} FilterByClassSpec<R>(rows: seq<(R, seq<real>)>, chosen: seq<nat>)
    requires forall j :: 0 <= j < |rows| ==> |rows[j].1| > 0
    ensures var r := FilterByClass(rows, chosen);
      multiset(r) <= multiset(rows) &&
      (forall k :: 0 <= k < |r| ==> |r[k].1| > 0 && Argmax(r[k].1) in chosen) &&
      (forall j :: 0 <= j < |rows| && Argmax(rows[j].1) in chosen ==> rows[j] in r)
  {
    FilterSubset(rows, chosen);
    FilterChosen(rows, chosen);
    FilterComplete(rows, chosen);
  }

  /** The first step of the reference filter. */
  lemma FilterStep<R>(rows: seq<(R, seq<real>)>, chosen: seq<nat>)
    requires |rows| > 0 && forall j :: 0 <= j < |rows| ==> |rows[j].1| > 0
    ensures FilterByClass(rows, chosen)
      == (if Argmax(rows[0].1) in chosen then [rows[0]] else []) + FilterByClass(rows[1..], chosen)
  {
  }

  lemma {:induction false} FilterSubset<R>(rows: seq<(R, seq<real>)>, chosen: seq<nat>)
    requires forall j :: 0 <= j < |rows| ==> |rows[j].1| > 0
    ensures multiset(FilterByClass(rows, chosen)) <= multiset(rows)
  {
    if |rows| > 0 {
      FilterSubset(rows[1..], chosen);
      FilterStep(rows, chosen);
      assert rows == [rows[0]] + rows[1..];
    }
  }

  lemma {:induction false} FilterChosen<R>(rows: seq<(R, seq<real>)>, chosen: seq<nat>)
    requires forall j :: 0 <= j < |rows| ==> |rows[j].1| > 0
    ensures var r := FilterByClass(rows, chosen);
      forall k :: 0 <= k < |r| ==> |r[k].1| > 0 && Argmax(r[k].1) in chosen
  {
    if |rows| > 0 {
      FilterChosen(rows[1..], chosen);
      FilterStep(rows, chosen);
    }
  }

  lemma {:induction false} FilterComplete<R>(rows: seq<(R, seq<real>)>, chosen: seq<nat>)
    requires forall j :: 0 <= j < |rows| ==> |rows[j].1| > 0
    ensures forall j :: 0 <= j < |rows| && Argmax(rows[j].1) in chosen ==> rows[j] in FilterByClass(rows, chosen)
  {
    if |rows| > 0 {
      var tail := rows[1..];
      FilterComplete(tail, chosen);
      FilterStep(rows, chosen);
      forall j | 1 <= j < |rows| && Argmax(rows[j].1) in chosen ensures rows[j] in FilterByClass(rows, chosen) {
        assert rows[j] == tail[j - 1];
      }
    }
  }

  /** Masking a pairing is pairing the masked sides. */
  lemma {:induction false} KeepZip<A, B>(a: seq<A>, b: seq<B>, m: seq<bool>)
    requires |a| == |b| == |m|
    ensures Zip(Keep(a, m), Keep(b, m)) == Keep(Zip(a, b), m)
  {
    if |a| > 0 {
      KeepZip(a[1..], b[1..], m[1..]);
      assert Zip(a, b)[1..] == Zip(a[1..], b[1..]);
      var x, y := Keep(a[1..], m[1..]), Keep(b[1..], m[1..]);
      if m[0] {
        assert Zip([a[0]] + x, [b[0]] + y) == [(a[0], b[0])] + Zip(x, y);
      } else {
        assert Keep(a, m) == x;
      }
    }
  }

  /** Masking rows with their class mask is the reference filter. */
  lemma {:induction false} KeepByClass<R>(rows: seq<(R, seq<real>)>, m: seq<bool>, chosen: seq<nat>)
    requires |m| == |rows| && forall j :: 0 <= j < |rows| ==> |rows[j].1| > 0
    requires forall j :: 0 <= j < |rows| ==> (m[j] <==> Argmax(rows[j].1) in chosen)
    ensures Keep(rows, m) == FilterByClass(rows, chosen)
  {
    if |rows| > 0 {
      KeepByClass(rows[1..], m[1..], chosen);
    }
  }

  /** Masking rows and labels with the class mask keeps the rows of the
      reference selection, each with its own label. */
  lemma KeepIsFilter<R>(data: seq<R>, labels: seq<seq<real>>, chosen: seq<nat>)
    requires |data| == |labels| && NonEmptyRows(labels)
    ensures Zip(Keep(data, InChosen(labels, chosen)), Keep(labels, InChosen(labels, chosen)))
      == FilterByClass(Zip(data, labels), chosen)
  {
    var m := InChosen(labels, chosen);
    KeepZip(data, labels, m);
    KeepByClass(Zip(data, labels), m, chosen);
  }

  /** Cutting rows and labels at the same Python slice bound keeps them
      paired, and gives a leading part of the rows. */
  lemma PrefixRows<R, L>(sp: Split<R, L>, c: int)
    requires Paired(sp)
    ensures |Slice(sp.data, 0, c)| == |Slice(sp.labels, 0, c)|
    ensures Zip(Slice(sp.data, 0, c), Slice(sp.labels, 0, c)) <= Rows(sp)
  {
    var b := SliceBound(c, |sp.data|);
    assert Slice(sp.data, 0, c) == sp.data[..b];
    assert Slice(sp.labels, 0, c) == sp.labels[..b];
  }

  lemma PrefixMultiset<T>(s: seq<T>, t: seq<T>)
    requires s <= t
    ensures multiset(s) <= multiset(t)
  {
    assert t == s + t[|s|..];
  }

  /** Lines 75-89 for one node: mask the selected rows by the node's classes,
      shuffle the survivors with `draws`, and keep the first
      `min(int(weight * len(data)), len(data_aux))`. */
  function NodeShare<R>(sel: Split<R, seq<real>>, chosen: seq<nat>, weight: real, draws: nat -> nat)
    : (r: Split<R, seq<real>>)
    requires Paired(sel) && NonEmptyRows(sel.labels)
    ensures Paired(r) && |r.data| <= CountTrue(InChosen(sel.labels, chosen))
  {
    var mask := InChosen(sel.labels, chosen);
    var aux := Split(Keep(sel.data, mask), Keep(sel.labels, mask));
    NodeShareRows(sel, chosen, draws, Min(Scaled(weight, |sel.data|), |ShuffleSplit(aux, draws).value.data|));
    var sh := ShuffleSplit(aux, draws).value;
    var n := Min(Scaled(weight, |sel.data|), |sh.data|);
    Split(Slice(sh.data, 0, n), Slice(sh.labels, 0, n))
  }

  /** A node's share keeps every row with its label, takes rows only from the
      selection and only of the node's classes, and with a non-negative weight
      has `min(int(weight * len(data)), #matching rows)` rows. */
  lemma NodeShareSpec<R>(sel: Split<R, seq<real>>, chosen: seq<nat>, weight: real, draws: nat -> nat)
    requires Paired(sel) && NonEmptyRows(sel.labels)
    ensures var r := NodeShare(sel, chosen, weight, draws);
      Paired(r) &&
      multiset(Rows(r)) <= multiset(Rows(sel)) &&
      (forall k :: 0 <= k < |r.labels| ==> |r.labels[k]| > 0 && Argmax(r.labels[k]) in chosen) &&
      (weight >= 0.0 ==> |r.data| == Min(Scaled(weight, |sel.data|), CountTrue(InChosen(sel.labels, chosen))))
  {
    var mask := InChosen(sel.labels, chosen);
    var aux := Split(Keep(sel.data, mask), Keep(sel.labels, mask));
    var sh := ShuffleSplit(aux, draws).value;
    var t := Scaled(weight, |sel.data|);
    ScaledNonNegative(weight, |sel.data|);
    var n := Min(t, |sh.data|);
    NodeShareRows(sel, chosen, draws, n);
    assert NodeShare(sel, chosen, weight, draws) == Split(Slice(sh.data, 0, n), Slice(sh.labels, 0, n));
  }

  lemma ScaledNonNegative(weight: real, len: nat)
    ensures weight >= 0.0 ==> Scaled(weight, len) >= 0
  {
    if weight >= 0.0 {
      assert weight * len as real >= 0.0;
    }
  }

  /** The proof behind `NodeShare`: every stage keeps rows with their labels
      and only rows of the node's classes. */
  lemma NodeShareRows<R>(sel: Split<R, seq<real>>, chosen: seq<nat>, draws: nat -> nat, n: int)
    requires Paired(sel) && NonEmptyRows(sel.labels)
    ensures var mask := InChosen(sel.labels, chosen);
      var aux := Split(Keep(sel.data, mask), Keep(sel.labels, mask));
      ShuffleSplit(aux, draws).Ok? &&
      var sh := ShuffleSplit(aux, draws).value;
      var r := Split(Slice(sh.data, 0, n), Slice(sh.labels, 0, n));
      |sh.data| == CountTrue(mask) && Paired(r) &&
      multiset(Rows(r)) <= multiset(Rows(sel)) &&
      forall k :: 0 <= k < |r.labels| ==> |r.labels[k]| > 0 && Argmax(r.labels[k]) in chosen
  {
    var mask := InChosen(sel.labels, chosen);
    var aux := Split(Keep(sel.data, mask), Keep(sel.labels, mask));
    KeepIsFilter(sel.data, sel.labels, chosen);
    var filtered := FilterByClass(Rows(sel), chosen);
    FilterByClassSpec(Rows(sel), chosen);
    assert Rows(aux) == filtered;
    ShuffleSplitKeepsPairs(aux, draws);
    var sh := ShuffleSplit(aux, draws).value;
    PrefixRows(sh, n);
    var r := Split(Slice(sh.data, 0, n), Slice(sh.labels, 0, n));
    PrefixMultiset(Rows(r), Rows(sh));
    forall k | 0 <= k < |r.labels|
      ensures |r.labels[k]| > 0 && Argmax(r.labels[k]) in chosen
    {
      assert Rows(r)[k] == Rows(sh)[k];
      assert Rows(r)[k] in multiset(Rows(sh));
      assert Rows(r)[k] in filtered;
    }
  }

  /** The loop at lines 74-89: node `i` gets its share of the selection
      with its own classes, weight and draws, and the shares are collected in
      node order.  An empty mask is a float array and cannot index (an
      `IndexError`), as is a mask whose length differs from the data's; a
      missing weight is an `IndexError` too.  Every node meets the same
      conditions except the weight lookup, so the loop fails as soon as it
      starts if it fails at all, and then with an `IndexError`. */
  function Nodes<R>(sel: Split<R, seq<real>>, w: seq<real>, chosen: seq<seq<nat>>,
                    draws: nat -> nat -> nat): (r: Result<Federated<R, seq<real>>>)
    requires NonEmptyRows(sel.labels)
    ensures r.Err? <==> exists i :: 0 <= i < |chosen| && NodeFails(sel, w, i)
    ensures r.Err? ==> r.error == IndexError
    ensures r.Ok? ==> |r.value.data| == |chosen| && |r.value.labels| == |chosen|
  {
    if |chosen| > 0 && (|sel.labels| == 0 || !Paired(sel) || |w| < |chosen|) then
      assert NodeFails(sel, w, if |w| < |chosen| then |w| else 0);
      Err(IndexError)
    else
      Ok(Federated(seq(|chosen|, i requires 0 <= i < |chosen| => NodeShare(sel, chosen[i], w[i], draws(i)).data),
                   seq(|chosen|, i requires 0 <= i < |chosen| => NodeShare(sel, chosen[i], w[i], draws(i)).labels)))
  }

  /** Iteration `i` of the loop raises: the mask cannot index the data or
      there is no weight `i`. */
  predicate NodeFails<R>(sel: Split<R, seq<real>>, w: seq<real>, i: nat) {
    |sel.labels| == 0 || !Paired(sel) || i >= |w|
  }

  /** Node `i` gets its own share. */
  lemma NodesAt<R>(sel: Split<R, seq<real>>, w: seq<real>, chosen: seq<seq<nat>>, draws: nat -> nat -> nat, i: nat)
    requires i < |chosen| && NonEmptyRows(sel.labels)
    requires Nodes(sel, w, chosen, draws).Ok?
    ensures Paired(sel) && i < |w|
    ensures Nodes(sel, w, chosen, draws).value.data[i] == NodeShare(sel, chosen[i], w[i], draws(i)).data
    ensures Nodes(sel, w, chosen, draws).value.labels[i] == NodeShare(sel, chosen[i], w[i], draws(i)).labels
  {
    assert !NodeFails(sel, w, i);
  }

  /** The selected rows keep the non-empty label rows they were cut from. */
  lemma SelectKeepsRows(labels: seq<seq<real>>, percent: real)
    requires NonEmptyRows(labels)
    ensures NonEmptyRows(SelectPercent(labels, percent))
  {
    var c := Cut(|labels|, percent);
    var b := SliceBound(c, |labels|);
    assert SelectPercent(labels, percent) == Slice(labels, 0, c);
    assert Slice(labels, 0, c) == labels[..b];
  }

  /** `make_data_federated(data, labels, num_nodes, percent, weights)`.  The
      classes are counted over all labels (line 67); the rows are selected
      with their own length and the labels with theirs (lines 71-72). */
  function MakeDataFederated<R>(sp: Split<R, seq<real>>, numNodes: nat, percent: real, weights: Option<seq<real>>,
                                countDraws: nat -> nat, labelDraws: nat -> nat -> nat, shuffleDraws: nat -> nat -> nat)
    : (r: Result<Federated<R, seq<real>>>)
    ensures NormalizeWeights(numNodes, weights).Err? ==> r == Err(NormalizeWeights(numNodes, weights).error)
    ensures NormalizeWeights(numNodes, weights).Ok? && !NonEmptyRows(sp.labels) ==> r == Err(ValueError)
    ensures NormalizeWeights(numNodes, weights).Ok? && NonEmptyRows(sp.labels) ==>
      (numNodes > 0 && CountDistinct(Classes(sp.labels).value) < 2 ==> r == Err(ValueError))
    ensures (NormalizeWeights(numNodes, weights).Ok? && NonEmptyRows(sp.labels) &&
             !(numNodes > 0 && CountDistinct(Classes(sp.labels).value) < 2)) ==>
      (r.Err? <==> (exists i :: (0 <= i < numNodes &&
                                 NodeFails(Split(SelectPercent(sp.data, percent), SelectPercent(sp.labels, percent)),
                                           NormalizeWeights(numNodes, weights).value, i))))
    ensures (NormalizeWeights(numNodes, weights).Ok? && NonEmptyRows(sp.labels) &&
             !(numNodes > 0 && CountDistinct(Classes(sp.labels).value) < 2) && r.Err?) ==>
      r.error == IndexError
    ensures r.Ok? ==> |r.value.data| == numNodes && |r.value.labels| == numNodes
  {
    var w :- NormalizeWeights(numNodes, weights);
    var classes :- Classes(sp.labels);
    var chosen :- ChooseLabels(numNodes, CountDistinct(classes), countDraws, labelDraws);
    var sel := Split(SelectPercent(sp.data, percent), SelectPercent(sp.labels, percent));
    SelectKeepsRows(sp.labels, percent);
    Nodes(sel, w, chosen, shuffleDraws)
  }

  /** Node i's rows: each keeps its own label, comes from the selected
      rows, and has a class among the node's chosen labels; with a
      non-negative weight the node gets `min(int(w_i * len), #matching)`
      rows. */
  lemma NonIidNodeShare<R>(sp: Split<R, seq<real>>, numNodes: nat, percent: real, weights: Option<seq<real>>,
                           countDraws: nat -> nat, labelDraws: nat -> nat -> nat, shuffleDraws: nat -> nat -> nat, i: nat)
    requires MakeDataFederated(sp, numNodes, percent, weights, countDraws, labelDraws, shuffleDraws).Ok?
    requires i < numNodes
    ensures NonEmptyRows(sp.labels) && NormalizeWeights(numNodes, weights).Ok?
    ensures var classes := Classes(sp.labels).value;
      var chosen := ChooseLabels(numNodes, CountDistinct(classes), countDraws, labelDraws);
      var w := NormalizeWeights(numNodes, weights).value;
      var sel := Split(SelectPercent(sp.data, percent), SelectPercent(sp.labels, percent));
      var f := MakeDataFederated(sp, numNodes, percent, weights, countDraws, labelDraws, shuffleDraws).value;
      var node := Split(f.data[i], f.labels[i]);
      chosen.Ok? && i < |w| && Paired(sel) && NonEmptyRows(sel.labels) && Paired(node) &&
      multiset(Rows(node)) <= multiset(Rows(sel)) &&
      (forall k :: 0 <= k < |node.labels| ==> |node.labels[k]| > 0 && Argmax(node.labels[k]) in chosen.value[i]) &&
      (w[i] >= 0.0 ==> |node.data| == Min(Scaled(w[i], |sel.data|), CountTrue(InChosen(sel.labels, chosen.value[i]))))
  {
    SelectKeepsRows(sp.labels, percent);
    var chosen := ChooseLabels(numNodes, CountDistinct(Classes(sp.labels).value), countDraws, labelDraws);
    var w := NormalizeWeights(numNodes, weights).value;
    var sel := Split(SelectPercent(sp.data, percent), SelectPercent(sp.labels, percent));
    NodesAt(sel, w, chosen.value, shuffleDraws, i);
    NodeShareSpec(sel, chosen.value[i], w[i], shuffleDraws(i));
  }
}

=== FILE: dp_mechanism.dfy ===
/** Differential-privacy mechanisms (`shfl/differential_privacy/dp_mechanism.py`)
    as pure functions of explicit random draws.

    `rnd.uniform(i)` is the i-th `np.random.rand()` draw (a real in [0, 1));
    a Bernoulli(p) draw is 1 exactly when its uniform draw is below `p`, as
    scipy computes it.  `rnd.laplace(i)` is the i-th standard Laplace(0, 1)
    draw, so `b * rnd.laplace(i)` is a Laplace(0, b) draw. */
module DpMechanism {
  import opened Wrappers
  import opened Numeric
  import opened Values

  datatype Randomness = Randomness(uniform: nat -> real, laplace: nat -> real)

  /** Every uniform draw lies in [0, 1), as `np.random.rand` promises. */
  ghost predicate UniformDraws(rnd: Randomness) {
    forall i: nat :: 0.0 <= rnd.uniform(i) < 1.0
  }

  datatype Mechanism =
    | Unrandomized
      /** Two-coin randomized response (`RandomizeBinaryProperty`). */
    | BinaryProperty(probHeadFirst: real, probHeadSecond: real)
      /** General binary channel: P(1|1) = f1, P(0|0) = f2 (`RandomizedResponseBinary`). */
    | ResponseBinary(f1: real, f2: real)
    | Laplace(sensitivity: real, epsilon: real)

  /** `bernoulli.rvs(p)` from a uniform draw `u` in [0, 1): one with
      probability `p`, zero otherwise. */
  function Bernoulli(p: real, u: real): (r: real)
    ensures IsBit(r)
    ensures r == 1.0 <==> u < p
  {
    if u < p then 1.0 else 0.0
  }

  predicate IsBit(x: real) {
    x == 0.0 || x == 1.0
  }

  /** The two-coin flip: `data != 0 and data != 1` reads the value's single
      number (`SoleEntry`), so a scalar or a one-element array or matrix
      holding 0 or 1 passes; anything else is a `ValueError` (a non-bit, an
      array whose truth value is ambiguous, labelled data).  If the first
      draw exceeds `probHeadFirst` the answer is `int(data)`, otherwise 0 if
      the second draw exceeds `probHeadSecond` and 1 if not. */
  function TwoCoinFlip(pFirst: real, pSecond: real, v: Value, u0: real, u1: real): (r: Result<Value>)
    ensures r.Err? <==> !(SoleEntry(v).Some? && IsBit(SoleEntry(v).value))
    ensures r.Err? ==> r.error == ValueError
    ensures r.Ok? ==> r.value.Scalar? && IsBit(r.value.x)
    ensures r.Ok? && u0 > pFirst ==> r.value == Scalar(SoleEntry(v).value)
    ensures r.Ok? && u0 <= pFirst ==> (r.value.x == 0.0 <==> u1 > pSecond)
  {
    match SoleEntry(v)
    case None => Err(ValueError)
    case Some(x) =>
      if x != 0.0 && x != 1.0 then Err(ValueError)
      else if u0 > pFirst then Ok(Scalar(x))
      else if u1 > pSecond then Ok(Scalar(0.0))
      else Ok(Scalar(1.0))
  }

  /** A binary scalar answered truthfully is returned as it was; a
      one-element array is answered as its entry. */
  lemma TwoCoinFlipTruthful(pFirst: real, pSecond: real, x: real, u0: real, u1: real)
    requires IsBit(x) && u0 > pFirst
    ensures TwoCoinFlip(pFirst, pSecond, Scalar(x), u0, u1) == Ok(Scalar(x))
    ensures TwoCoinFlip(pFirst, pSecond, Array([x]), u0, u1) == Ok(Scalar(x))
  {
  }

  /** Arrays of two or more entries have no truth value. */
  lemma TwoCoinFlipRejectsLongArrays(pFirst: real, pSecond: real, xs: seq<real>, u0: real, u1: real)
    requires |xs| >= 2
    ensures TwoCoinFlip(pFirst, pSecond, Array(xs), u0, u1) == Err(ValueError)
  {
  }

  /** Per-position draws of the binary channel: positions holding 0 answer
      Bernoulli(1 - f2), every other position Bernoulli(f1). */
  function ResponseBits(f1: real, f2: real, xs: seq<real>, rnd: Randomness): (r: seq<real>)
    ensures |r| == |xs|
    ensures forall i :: 0 <= i < |xs| ==> IsBit(r[i])
  {
    var r := seq(|xs|, i requires 0 <= i < |xs| =>
      if xs[i] == 0.0 then Bernoulli(1.0 - f2, rnd.uniform(i)) else Bernoulli(f1, rnd.uniform(i)));
    assert forall i :: 0 <= i < |xs| ==> IsBit(r[i]) by {
      forall i | 0 <= i < |xs| ensures IsBit(r[i]) {
        var p := if xs[i] == 0.0 then 1.0 - f2 else f1;
        assert r[i] == Bernoulli(p, rnd.uniform(i));
      }
    }
    r
  }

  predicate Probability(p: real) {
    0.0 <= p <= 1.0
  }

  /** `data + np.random.laplace(scale=b, size=len(data))` for a matrix of r
      rows: the r noise values lie along the last axis, so they broadcast
      when the width is r or 1 (or r is 1), and column j receives noise
      `Pick(j, r)`. */
  predicate NoiseBroadcasts(rows: seq<seq<real>>) {
    Rectangular(rows) && Broadcasts(Width(Matrix(rows)), |rows|)
  }

  function LaplaceRows(rows: seq<seq<real>>, b: real, rnd: Randomness): (r: seq<seq<real>>)
    requires NoiseBroadcasts(rows)
    ensures |r| == |rows|
    ensures forall i :: 0 <= i < |r| ==> |r[i]| == Joint(Width(Matrix(rows)), |rows|)
  {
    var c := Width(Matrix(rows));
    var w := Joint(c, |rows|);
    seq(|rows|, i requires 0 <= i < |rows| =>
      seq(w, j requires 0 <= j < w => rows[i][Pick(j, c)] + b * rnd.laplace(Pick(j, |rows|))))
  }

  /** The Laplace mechanism fails exactly when: epsilon is 0 (the scale
      divides by it), the data has no `len` (a scalar or labelled data), the
      scale is negative (numpy's check), or a matrix does not broadcast
      with its noise. */
  predicate LaplaceFails(sensitivity: real, epsilon: real, v: Value) {
    epsilon == 0.0 || !(v.Array? || v.Matrix?) || sensitivity / epsilon < 0.0 ||
    (v.Matrix? && !NoiseBroadcasts(v.rows))
  }

  /** `randomize(data)` of each mechanism. */
  function Randomize(m: Mechanism, v: Value, rnd: Randomness): (r: Result<Value>)
    ensures m == Unrandomized ==> r == Ok(v)
    ensures m.BinaryProperty? ==>
      r == TwoCoinFlip(m.probHeadFirst, m.probHeadSecond, v, rnd.uniform(0), rnd.uniform(1))
    ensures m.ResponseBinary? ==> (r.Ok? <==> v.Array? && Probability(m.f1) && Probability(m.f2))
    ensures m.ResponseBinary? && r.Ok? ==> r.value.Array? && |r.value.xs| == |v.xs|
    ensures m.ResponseBinary? && r.Err? ==>
      r.error == (if v.Array? || (v.Matrix? && !Probability(1.0 - m.f2)) then ValueError
                  else if v.Matrix? then IndexError else TypeError)
    ensures m.Laplace? ==> (r.Err? <==> LaplaceFails(m.sensitivity, m.epsilon, v))
    ensures m.Laplace? && r.Err? ==>
      r.error == (if m.epsilon == 0.0 then ZeroDivisionError else if !(v.Array? || v.Matrix?) then TypeError else ValueError)
    ensures m.Laplace? && r.Ok? ==> Height(r.value) == Height(v)
  {
    match m
    case Unrandomized => Ok(v)
    case BinaryProperty(p1, p2) => TwoCoinFlip(p1, p2, v, rnd.uniform(0), rnd.uniform(1))
    case ResponseBinary(f1, f2) =>
      (match v
       case Array(xs) =>
         if !Probability(1.0 - f2) || !Probability(f1) then Err(ValueError)
         else Ok(Array(ResponseBits(f1, f2, xs, rnd)))
       case Matrix(_) => if !Probability(1.0 - f2) then Err(ValueError) else Err(IndexError)
       case _ => Err(TypeError))
    case Laplace(sensitivity, epsilon) =>
      if epsilon == 0.0 then Err(ZeroDivisionError)
      else
        var b := sensitivity / epsilon;
        match v
        case Array(xs) =>
          if b < 0.0 then Err(ValueError)
          else Ok(Array(seq(|xs|, i requires 0 <= i < |xs| => xs[i] + b * rnd.laplace(i))))
        case Matrix(rows) =>
          if b < 0.0 || !NoiseBroadcasts(rows) then Err(ValueError)
          else Ok(Matrix(LaplaceRows(rows, b, rnd)))
        case _ => Err(TypeError)
  }

  /** Randomized response answers one bit per input position, whatever the input. */
  lemma ResponseBinaryShape(f1: real, f2: real, xs: seq<real>, rnd: Randomness)
    requires Probability(f1) && Probability(f2)
    ensures Randomize(ResponseBinary(f1, f2), Array(xs), rnd).Ok?
    ensures Randomize(ResponseBinary(f1, f2), Array(xs), rnd).value.Array?
    ensures |Randomize(ResponseBinary(f1, f2), Array(xs), rnd).value.xs| == |xs|
    ensures forall i :: 0 <= i < |xs| ==> IsBit(Randomize(ResponseBinary(f1, f2), Array(xs), rnd).value.xs[i])
  {
  }

  /** Invalid probabilities are rejected by scipy's argument check. */
  lemma ResponseBinaryRejects(f1: real, f2: real, v: Value, rnd: Randomness)
    ensures Randomize(ResponseBinary(f1, f2), v, rnd).Ok? <==> v.Array? && Probability(f1) && Probability(f2)
  {
  }

  /** On a matrix the first Bernoulli draw is evaluated before its two-dimensional
      mask is assigned into the one-dimensional response: an invalid `1 - f2`
      is scipy's `ValueError`, and a valid one reaches numpy's `IndexError`. */
  lemma ResponseBinaryMatrixErrors(f1: real, f2: real, rows: seq<seq<real>>, rnd: Randomness)
    ensures Randomize(ResponseBinary(f1, f2), Matrix(rows), rnd)
      == Err(if Probability(1.0 - f2) then IndexError else ValueError)
  {
  }

  /** With f1 = f2 = 1 the channel is deterministic and reproduces a binary input. */
  lemma ResponseBinaryTruthful(xs: seq<real>, rnd: Randomness)
    requires UniformDraws(rnd)
    requires forall i :: 0 <= i < |xs| ==> IsBit(xs[i])
    ensures Randomize(ResponseBinary(1.0, 1.0), Array(xs), rnd) == Ok(Array(xs))
  {
    var r := ResponseBits(1.0, 1.0, xs, rnd);
    forall i | 0 <= i < |xs| ensures r[i] == xs[i] {
      assert 0.0 <= rnd.uniform(i) < 1.0;
    }
    assert r == xs;
  }

  /** With f1 = f2 = 0 the channel flips every bit. */
  lemma ResponseBinaryFlips(xs: seq<real>, rnd: Randomness)
    requires UniformDraws(rnd)
    requires forall i :: 0 <= i < |xs| ==> IsBit(xs[i])
    ensures Randomize(ResponseBinary(0.0, 0.0), Array(xs), rnd).Ok?
    ensures forall i :: 0 <= i < |xs| ==>
      Randomize(ResponseBinary(0.0, 0.0), Array(xs), rnd).value.xs[i] == 1.0 - xs[i]
  {
    var r := ResponseBits(0.0, 0.0, xs, rnd);
    forall i | 0 <= i < |xs| ensures r[i] == 1.0 - xs[i] {
      assert 0.0 <= rnd.uniform(i) < 1.0;
    }
  }

  /** On an array the Laplace mechanism adds `b * laplace(i)` to entry i,
      with scale `b = sensitivity/epsilon`; a negative scale is numpy's
      `ValueError`.  Each entry moves by `b` times its draw's magnitude. */
  lemma LaplaceNoise(sensitivity: real, epsilon: real, xs: seq<real>, rnd: Randomness)
    requires epsilon != 0.0
    ensures Randomize(Laplace(sensitivity, epsilon), Array(xs), rnd).Ok? <==> sensitivity / epsilon >= 0.0
    ensures sensitivity / epsilon < 0.0 ==> Randomize(Laplace(sensitivity, epsilon), Array(xs), rnd) == Err(ValueError)
    ensures sensitivity / epsilon >= 0.0 ==>
      var r := Randomize(Laplace(sensitivity, epsilon), Array(xs), rnd).value;
      r.Array? && |r.xs| == |xs| &&
      (forall i :: 0 <= i < |xs| ==> r.xs[i] == xs[i] + sensitivity / epsilon * rnd.laplace(i)) &&
      (forall i :: 0 <= i < |xs| ==> Abs(r.xs[i] - xs[i]) == sensitivity / epsilon * Abs(rnd.laplace(i)))
  {
    var b := sensitivity / epsilon;
    var noisy := seq(|xs|, i requires 0 <= i < |xs| => xs[i] + b * rnd.laplace(i));
    assert Randomize(Laplace(sensitivity, epsilon), Array(xs), rnd)
      == if b < 0.0 then Err(ValueError) else Ok(Array(noisy));
    if b >= 0.0 {
      var r := noisy;
      forall i | 0 <= i < |xs| ensures Abs(r[i] - xs[i]) == b * Abs(rnd.laplace(i)) {
        var z := rnd.laplace(i);
        assert r[i] - xs[i] == b * z;
        if z < 0.0 {
          assert b * z <= 0.0;
        }
      }
    }
  }

  /** On a square matrix, column j of every row receives the j-th noise
      value. */
  lemma LaplaceSquareMatrix(sensitivity: real, epsilon: real, rows: seq<seq<real>>, rnd: Randomness)
    requires epsilon != 0.0 && sensitivity / epsilon >= 0.0
    requires forall i :: 0 <= i < |rows| ==> |rows[i]| == |rows|
    ensures Randomize(Laplace(sensitivity, epsilon), Matrix(rows), rnd).Ok?
    ensures var r := Randomize(Laplace(sensitivity, epsilon), Matrix(rows), rnd).value;
      r.Matrix? && |r.rows| == |rows| &&
      forall i, j :: 0 <= i < |rows| && 0 <= j < |rows| ==>
        |r.rows[i]| == |rows| && r.rows[i][j] == rows[i][j] + sensitivity / epsilon * rnd.laplace(j)
  {
    var r := Randomize(Laplace(sensitivity, epsilon), Matrix(rows), rnd).value;
    forall i, j | 0 <= i < |rows| && 0 <= j < |rows|
      ensures |r.rows[i]| == |rows| && r.rows[i][j] == rows[i][j] + sensitivity / epsilon * rnd.laplace(j)
    {
      assert Width(Matrix(rows)) == |rows|;
      assert Pick(j, |rows|) == j;
    }
  }

  /** A column of r entries against r noise values broadcasts to r x r:
      entry (i, j) is row i's value plus noise j. */
  lemma LaplaceColumnMatrix(sensitivity: real, epsilon: real, rows: seq<seq<real>>, rnd: Randomness)
    requires epsilon != 0.0 && sensitivity / epsilon >= 0.0
    requires forall i :: 0 <= i < |rows| ==> |rows[i]| == 1
    ensures Randomize(Laplace(sensitivity, epsilon), Matrix(rows), rnd).Ok?
    ensures var r := Randomize(Laplace(sensitivity, epsilon), Matrix(rows), rnd).value;
      r.Matrix? && |r.rows| == |rows| &&
      forall i, j :: 0 <= i < |rows| && 0 <= j < |rows| ==>
        |r.rows[i]| == |rows| && r.rows[i][j] == rows[i][0] + sensitivity / epsilon * rnd.laplace(j)
  {
    var r := Randomize(Laplace(sensitivity, epsilon), Matrix(rows), rnd).value;
    forall i, j | 0 <= i < |rows| && 0 <= j < |rows|
      ensures |r.rows[i]| == |rows| && r.rows[i][j] == rows[i][0] + sensitivity / epsilon * rnd.laplace(j)
    {
      assert Width(Matrix(rows)) == 1;
      assert Pick(j, |rows|) == j;
    }
  }

  /** A matrix of r > 1 rows whose width is neither r nor 1 cannot take the
      noise. */
  lemma LaplaceMatrixMismatch(sensitivity: real, epsilon: real, rows: seq<seq<real>>, rnd: Randomness)
    requires epsilon != 0.0 && |rows| > 1 && |rows[0]| != |rows| && |rows[0]| != 1
    ensures Randomize(Laplace(sensitivity, epsilon), Matrix(rows), rnd) == Err(ValueError)
  {
  }

  /** A zero epsilon makes the scale a division by zero. */
  lemma LaplaceZeroEpsilon(sensitivity: real, v: Value, rnd: Randomness)
    ensures Randomize(Laplace(sensitivity, 0.0), v, rnd) == Err(ZeroDivisionError)
  {
  }
}

=== FILE: dp_sampling.dfy ===
/** Privacy amplification by subsampling
    (`shfl/differential_privacy/dp_sampling.py`).

    A budget `(epsilon, delta)` is carried as `(e^epsilon, delta)`: the code
    computes `new_epsilon = log(1 + p (exp(epsilon) - 1))`, so in exponential
    form the update is the affine map `e' = 1 + p (e - 1)` and no
    transcendental function is needed.  Sampling draws are explicit streams. */
module DpSampling {
  import opened Wrappers
  import opened Numeric
  import opened Permutation
  import opened Binomial

  datatype Sampler =
    | DefaultSampler
    | WithReplacement(sampleSize: nat, dataSize: nat)
    | WithoutReplacement(sampleSize: nat, dataSize: nat)

  /** A privacy budget with epsilon in exponential form. */
  datatype Budget = Budget(expEpsilon: real, delta: real)

  /** `check_sample_size(sample_size, data_size)`. */
  function CheckSampleSize(sampleSize: nat, dataSize: nat): (r: Result<()>)
    ensures r.Err? <==> sampleSize > dataSize
    ensures r.Err? ==> r.error == ValueError
  {
    if sampleSize > dataSize then Err(ValueError) else Ok(())
  }

  /** `SampleWithReplacement(sample_size, data_size)`: the size check runs
      before any field is stored. */
  function NewWithReplacement(sampleSize: nat, dataSize: nat): (r: Result<Sampler>)
    ensures r.Err? <==> sampleSize > dataSize
    ensures r.Ok? ==> r.value == WithReplacement(sampleSize, dataSize)
  {
    var _ :- CheckSampleSize(sampleSize, dataSize);
    Ok(WithReplacement(sampleSize, dataSize))
  }

  /** `SampleWithoutReplacement(sample_size, data_size)`. */
  function NewWithoutReplacement(sampleSize: nat, dataSize: nat): (r: Result<Sampler>)
    ensures r.Err? <==> sampleSize > dataSize
    ensures r.Ok? ==> r.value == WithoutReplacement(sampleSize, dataSize)
  {
    var _ :- CheckSampleSize(sampleSize, dataSize);
    Ok(WithoutReplacement(sampleSize, dataSize))
  }

  /** `proportion = 1 - (1 - 1/n)**m`, the probability that a given record
      appears in a sample of `m` drawn with replacement from `n`. */
  function ReplacementProportion(m: nat, n: nat): real
    requires n > 0
  {
    1.0 - Pow(1.0 - 1.0 / n as real, m)
  }

  /** The delta factor exactly as the code sums it:
      `Σ_{k=1..m} comb(m,k) (1/n)^k (1-1/n)^(m-k)`. */
  function ReplacementDeltaFactor(m: nat, n: nat): real
    requires n > 0
  {
    TermSum(m, 1, m + 1, 1.0 / n as real, 1.0 - 1.0 / n as real)
  }

  /** The binomial sum is the proportion: the probability that a record is
      drawn at least once. */
  lemma DeltaFactorIsProportion(m: nat, n: nat)
    requires n > 0
    ensures ReplacementDeltaFactor(m, n) == ReplacementProportion(m, n)
  {
    var a := 1.0 / n as real;
    var b := 1.0 - a;
    BinomialTheorem(m, a, b);
    TermSumSplit(m, m + 1, a, b);
    PowOne(m);
    assert a + b == 1.0;
    assert Term(m, 0, a, b) == Pow(b, m);
  }

  lemma ProportionBounds(m: nat, n: nat)
    requires n > 0
    ensures 0.0 <= ReplacementProportion(m, n) <= 1.0
  {
    PowBounds(1.0 - 1.0 / n as real, m);
  }

  /** The amplified budget `(1 + p (e - 1), f delta)`; a non-positive
      argument of `log` is a `ValueError`. */
  function Amplify(p: real, f: real, b: Budget): (r: Result<Budget>)
    ensures r.Err? <==> 1.0 + p * (b.expEpsilon - 1.0) <= 0.0
    ensures r.Err? ==> r.error == ValueError
    ensures r.Ok? ==> r.value.expEpsilon - 1.0 == p * (b.expEpsilon - 1.0) && r.value.delta == f * b.delta
  {
    var e := 1.0 + p * (b.expEpsilon - 1.0);
    if e <= 0.0 then Err(ValueError) else Ok(Budget(e, f * b.delta))
  }

  /** `epsilon_delta_reduction(epsilon_delta)`.  The default sampler returns
      the budget unchanged; the others divide by the data size (a
      `ZeroDivisionError` when it is zero), amplify epsilon with their
      proportion, and scale delta by the binomial sum (with replacement) or
      by `m/n` (without). */
  function EpsilonDeltaReduction(s: Sampler, b: Budget): (r: Result<Budget>)
    ensures s.DefaultSampler? ==> r == Ok(b)
    ensures !s.DefaultSampler? && s.dataSize == 0 ==> r == Err(ZeroDivisionError)
    ensures s.WithReplacement? && s.dataSize > 0 ==>
      r == Amplify(ReplacementProportion(s.sampleSize, s.dataSize), ReplacementDeltaFactor(s.sampleSize, s.dataSize), b)
    ensures s.WithoutReplacement? && s.dataSize > 0 ==>
      r == Amplify(s.sampleSize as real / s.dataSize as real, s.sampleSize as real / s.dataSize as real, b)
  {
    match s
    case DefaultSampler => Ok(b)
    case WithReplacement(m, n) =>
      if n == 0 then Err(ZeroDivisionError)
      else Amplify(ReplacementProportion(m, n), ReplacementDeltaFactor(m, n), b)
    case WithoutReplacement(m, n) =>
      if n == 0 then Err(ZeroDivisionError)
      else Amplify(m as real / n as real, m as real / n as real, b)
  }

  /** Amplifying with proportions in [0, 1] never increases a budget with
      `e >= 1` and `delta >= 0`. */
  lemma AmplifyBounds(p: real, f: real, b: Budget)
    requires 0.0 <= p <= 1.0 && 0.0 <= f <= 1.0
    requires b.expEpsilon >= 1.0 && b.delta >= 0.0
    ensures Amplify(p, f, b).Ok?
    ensures 1.0 <= Amplify(p, f, b).value.expEpsilon <= b.expEpsilon
    ensures 0.0 <= Amplify(p, f, b).value.delta <= b.delta
  {
    var d := b.expEpsilon - 1.0;
    MulBetween(p, d);
    MulBetween(f, b.delta);
    var x := p * d;
    assert 0.0 <= x <= d;
    var r := Amplify(p, f, b);
    assert r.Ok?;
    assert r.value.expEpsilon == 1.0 + x;
  }

  lemma DivSelf(x: real)
    requires x > 0.0
    ensures x / x == 1.0
  {
  }

  lemma MulBetween(p: real, x: real)
    requires 0.0 <= p <= 1.0 && x >= 0.0
    ensures 0.0 <= p * x <= x
  {
    assert p * x <= 1.0 * x;
  }

  /** Sampling without replacement, once the constructor check has passed,
      never increases a budget with `epsilon >= 0` (`e^epsilon >= 1`) and
      `delta >= 0`, and a sample of the whole data (`m = n`) leaves it as it
      was. */
  lemma WithoutReplacementNeverIncreases(m: nat, n: nat, b: Budget)
    requires NewWithoutReplacement(m, n).Ok? && n > 0
    requires b.expEpsilon >= 1.0 && b.delta >= 0.0
    ensures EpsilonDeltaReduction(WithoutReplacement(m, n), b).Ok?
    ensures 1.0 <= EpsilonDeltaReduction(WithoutReplacement(m, n), b).value.expEpsilon <= b.expEpsilon
    ensures 0.0 <= EpsilonDeltaReduction(WithoutReplacement(m, n), b).value.delta <= b.delta
    ensures m == n ==> EpsilonDeltaReduction(WithoutReplacement(m, n), b) == Ok(b)
  {
    var p := m as real / n as real;
    assert p <= 1.0;
    AmplifyBounds(p, p, b);
    if m == n {
      DivSelf(n as real);
      assert Amplify(1.0, 1.0, b) == Ok(b);
    }
  }

  /** Sampling with replacement, once the constructor check has passed, never
      increases such a budget, and scales delta by the probability
      `1 - (1-1/n)^m` that a record is drawn at all. */
  lemma WithReplacementNeverIncreases(m: nat, n: nat, b: Budget)
    requires NewWithReplacement(m, n).Ok? && n > 0
    requires b.expEpsilon >= 1.0 && b.delta >= 0.0
    ensures EpsilonDeltaReduction(WithReplacement(m, n), b).Ok?
    ensures 1.0 <= EpsilonDeltaReduction(WithReplacement(m, n), b).value.expEpsilon <= b.expEpsilon
    ensures EpsilonDeltaReduction(WithReplacement(m, n), b).value.delta == ReplacementProportion(m, n) * b.delta
    ensures 0.0 <= EpsilonDeltaReduction(WithReplacement(m, n), b).value.delta <= b.delta
  {
    var p := ReplacementProportion(m, n);
    ProportionBounds(m, n);
    DeltaFactorIsProportion(m, n);
    AmplifyBounds(p, p, b);
  }

  /** `sample(data)`.  The default sampler returns the data.  With
      replacement (`np.random.choice(data, m, replace=True)`) position i is
      `data[pick(i) mod len(data)]`; drawing from empty data is a
      `ValueError` unless nothing is drawn.  Without replacement
      (`replace=False`) the sample is the first `m` entries of a permutation
      of the data, and asking for more than `len(data)` is a `ValueError`.
      The size of the data is that of the argument, not the stored
      `data_size`. */
  function Sample(s: Sampler, data: seq<real>, pick: nat -> nat, draws: nat -> nat): (r: Result<seq<real>>)
    ensures s.DefaultSampler? ==> r == Ok(data)
    ensures s.WithReplacement? ==> (r.Err? <==> |data| == 0 && s.sampleSize > 0)
    ensures s.WithoutReplacement? ==> (r.Err? <==> s.sampleSize > |data|)
    ensures r.Err? ==> r.error == ValueError
    ensures r.Ok? && !s.DefaultSampler? ==> |r.value| == s.sampleSize
    ensures r.Ok? && s.WithReplacement? ==> forall i :: 0 <= i < |r.value| ==> r.value[i] in data
    ensures r.Ok? && s.WithoutReplacement? ==> multiset(r.value) <= multiset(data)
  {
    match s
    case DefaultSampler => Ok(data)
    case WithReplacement(m, _) =>
      if |data| == 0 && m > 0 then Err(ValueError)
      else if |data| == 0 then Ok([])
      else Ok(seq(m, i requires 0 <= i < m => data[pick(i) % |data|]))
    case WithoutReplacement(m, _) =>
      if m > |data| then Err(ValueError)
      else
        var idx := SampleIndices(|data|, m, draws);
        GatherPrefixSubMultiset(data, m, draws);
        Ok(Gather(data, idx))
  }

  /** `m` distinct positions below `n`: a prefix of a shuffled `arange(n)`. */
  function SampleIndices(n: nat, m: nat, draws: nat -> nat): (r: seq<nat>)
    requires m <= n
    ensures |r| == m && Distinct(r) && IndicesBelow(r, n)
  {
    ShuffleRangeIsPermutation(n, draws);
    Shuffle(Range(n), draws)[..m]
  }

  /** A sample without replacement takes each record at most as often as the
      data holds it. */
  lemma GatherPrefixSubMultiset(data: seq<real>, m: nat, draws: nat -> nat)
    requires m <= |data|
    ensures multiset(Gather(data, SampleIndices(|data|, m, draws))) <= multiset(data)
  {
    var p := Shuffle(Range(|data|), draws);
    GatherShuffledMultiset(data, draws);
    var all := Gather(data, p);
    assert Gather(data, SampleIndices(|data|, m, draws)) == all[..m];
    assert all == all[..m] + all[m..];
    assert multiset(all) == multiset(all[..m]) + multiset(all[m..]);
  }
}

=== FILE: federated_attack.dfy ===
/** The data-poisoning attack (`shfl/private/federated_attack.py`): a share of
    the nodes is chosen as adversaries and each adversary's labels are
    shuffled.

    `random.sample` becomes a prefix of a Fisher-Yates permutation of the node
    indices driven by `selectDraws`, and `random.shuffle` a Fisher-Yates
    shuffle driven by `shuffleDraws`.  Every `ShuffleNode()` constructor
    re-seeds the global generator with the same seed, so every adversary
    shuffles with the same draws. */
module FederatedAttack {
  import opened Wrappers
  import opened Numeric
  import opened Values
  import opened Permutation
  import opened Node
  import opened FederatedOperation

  /** `x[i], x[j] = x[j], x[i]` on the rows of a two-dimensional numpy
      array: the right-hand side holds views of the two rows, so row i is
      overwritten with row j, and row j is then written with the updated
      row i, which is its own value.  Row i becomes a copy of row j. */
  function ViewSwap<T>(s: seq<T>, i: nat, j: nat): (r: seq<T>)
    requires i < |s| && j < |s|
    ensures |r| == |s|
  {
    s[i := s[j]]
  }

  /** `random.shuffle` over the rows of a two-dimensional array: the
      Fisher-Yates loop of `ShufflePrefix` with `ViewSwap` in place of the
      swap. */
  function ViewShufflePrefix<T>(s: seq<T>, i: nat, draws: nat -> nat): (r: seq<T>)
    requires i <= |s|
    ensures |r| == |s|
    decreases i
  {
    if i <= 1 then s
    else ViewShufflePrefix(ViewSwap(s, i - 1, draws(i - 1) % i), i - 1, draws)
  }

  function ViewShuffle<T>(s: seq<T>, draws: nat -> nat): (r: seq<T>)
    ensures |r| == |s|
  {
    ViewShufflePrefix(s, |s|, draws)
  }

  /** Every row after the view-swapping shuffle is one of the original
      rows. */
  lemma {:induction false} ViewShufflePrefixRows<T>(s: seq<T>, i: nat, draws: nat -> nat)
    requires i <= |s|
    ensures forall k :: 0 <= k < |s| ==> ViewShufflePrefix(s, i, draws)[k] in s
    decreases i
  {
    if i > 1 {
      var t := ViewSwap(s, i - 1, draws(i - 1) % i);
      ViewShufflePrefixRows(t, i - 1, draws);
      forall k | 0 <= k < |s| ensures ViewShufflePrefix(s, i, draws)[k] in s {
        var x := ViewShufflePrefix(t, i - 1, draws)[k];
        assert x in t;
        var m :| 0 <= m < |t| && t[m] == x;
        assert t[m] == s[m] || t[m] == s[draws(i - 1) % i];
      }
    }
  }

  /** `ShuffleNode.apply(labeled_data)`: `random.shuffle` of the labels in
      place, keeping the data.  A value without a `label` attribute is an
      `AttributeError`; labels that `random.shuffle` cannot index (a scalar,
      nested labelled data) are a `TypeError`.  A one-dimensional array of
      labels is permuted; the rows of a two-dimensional one are view-swapped,
      so each resulting row is one of the original rows but rows can be
      duplicated and lost. */
  function ShuffleLabels(draws: nat -> nat, v: Value): (r: Result<Value>)
    ensures !v.Labeled? ==> r == Err(AttributeError)
    ensures v.Labeled? ==> (r.Ok? <==> v.ld.labels.Array? || v.ld.labels.Matrix?)
    ensures r.Err? && v.Labeled? ==> r.error == TypeError
    ensures r.Ok? ==> r.value.Labeled? && r.value.ld.data == v.ld.data
    ensures r.Ok? && v.ld.labels.Array? ==>
      r.value.ld.labels.Array? && multiset(r.value.ld.labels.xs) == multiset(v.ld.labels.xs)
    ensures r.Ok? && v.ld.labels.Matrix? ==>
      r.value.ld.labels.Matrix? && |r.value.ld.labels.rows| == |v.ld.labels.rows| &&
      forall k :: 0 <= k < |v.ld.labels.rows| ==> r.value.ld.labels.rows[k] in v.ld.labels.rows
  {
    match v
    case Labeled(ld) =>
      (match ld.labels
       case Array(xs) =>
         ShuffleMultiset(xs, draws);
         Ok(Labeled(SetLabel(ld, Array(Shuffle(xs, draws)))))
       case Matrix(rows) =>
         ViewShufflePrefixRows(rows, |rows|, draws);
         Ok(Labeled(SetLabel(ld, Matrix(ViewShuffle(rows, draws)))))
       case _ => Err(TypeError))
    case _ => Err(AttributeError)
  }

  /** The shuffle `ShuffleNode` is meant to perform: the labels, or the rows
      of a two-dimensional label array, are permuted. */
  function ShuffleLabelsIntended(draws: nat -> nat, v: Value): (r: Result<Value>)
    ensures !v.Labeled? ==> r == Err(AttributeError)
    ensures v.Labeled? ==> (r.Ok? <==> v.ld.labels.Array? || v.ld.labels.Matrix?)
    ensures r.Err? && v.Labeled? ==> r.error == TypeError
    ensures r.Ok? ==> r.value.Labeled? && r.value.ld.data == v.ld.data
    ensures r.Ok? && v.ld.labels.Array? ==>
      r.value.ld.labels.Array? && multiset(r.value.ld.labels.xs) == multiset(v.ld.labels.xs)
    ensures r.Ok? && v.ld.labels.Matrix? ==>
      r.value.ld.labels.Matrix? && multiset(r.value.ld.labels.rows) == multiset(v.ld.labels.rows)
  {
    match v
    case Labeled(ld) =>
      (match ld.labels
       case Array(xs) =>
         ShuffleMultiset(xs, draws);
         Ok(Labeled(SetLabel(ld, Array(Shuffle(xs, draws)))))
       case Matrix(rows) =>
         ShuffleMultiset(rows, draws);
         Ok(Labeled(SetLabel(ld, Matrix(Shuffle(rows, draws)))))
       case _ => Err(TypeError))
    case _ => Err(AttributeError)
  }

  /** Both agree on one-dimensional labels. */
  lemma ShuffleLabelsAgreeOnArrays(draws: nat -> nat, d: Value, xs: seq<real>)
    ensures ShuffleLabels(draws, Labeled(LabeledData(d, Array(xs))))
      == ShuffleLabelsIntended(draws, Labeled(LabeledData(d, Array(xs))))
  {
  }

  /** One-hot labels `[[1, 0], [0, 1]]` with the draw 0 at position 1: as
      written the first row is copied over the second, while the intended
      shuffle swaps them. */
  lemma ShuffleLabelsDuplicatesRows(draws: nat -> nat, d: Value)
    requires draws(1) % 2 == 0
    ensures var v := Labeled(LabeledData(d, Matrix([[1.0, 0.0], [0.0, 1.0]])));
      ShuffleLabels(draws, v) == Ok(Labeled(LabeledData(d, Matrix([[1.0, 0.0], [1.0, 0.0]])))) &&
      ShuffleLabelsIntended(draws, v) == Ok(Labeled(LabeledData(d, Matrix([[0.0, 1.0], [1.0, 0.0]]))))
  {
    var rows := [[1.0, 0.0], [0.0, 1.0]];
    assert ViewShufflePrefix(rows, 2, draws) == ViewShufflePrefix(ViewSwap(rows, 1, 0), 1, draws);
    assert ViewSwap(rows, 1, 0) == [[1.0, 0.0], [1.0, 0.0]];
    assert ShufflePrefix(rows, 2, draws) == ShufflePrefix(Swap(rows, 1, 0), 1, draws);
    assert Swap(rows, 1, 0) == [[0.0, 1.0], [1.0, 0.0]];
  }

  /** `FederatedPoisoningDataAttack(percentage)`; `adversaries` is the last
      selection made. */
  datatype PoisoningAttack = PoisoningAttack(percentage: real, adversaries: seq<nat>)

  function NewPoisoningAttack(percentage: real): (a: PoisoningAttack)
    ensures a.percentage == percentage && a.adversaries == []
  {
    PoisoningAttack(percentage, [])
  }

  /** `int(percentage / 100 * num_nodes)`. */
  function AdversaryCount(percentage: real, n: nat): int {
    Trunc(percentage / 100.0 * n as real)
  }

  /** `random.sample(range(n), k)`: a negative `k` or one larger than the
      population is a `ValueError`; otherwise `k` distinct node indices. */
  function SelectAdversaries(percentage: real, n: nat, selectDraws: nat -> nat): (r: Result<seq<nat>>)
    ensures r.Err? <==> AdversaryCount(percentage, n) < 0 || AdversaryCount(percentage, n) > n
    ensures r.Err? ==> r.error == ValueError
    ensures r.Ok? ==> |r.value| == AdversaryCount(percentage, n)
    ensures r.Ok? ==> Distinct(r.value) && IndicesBelow(r.value, n)
  {
    var k := AdversaryCount(percentage, n);
    if k < 0 || k > n then Err(ValueError)
    else
      ShuffleRangeIsPermutation(n, selectDraws);
      Ok(Shuffle(Range(n), selectDraws)[..k])
  }

  /** Applies `t` under `identifier` to the nodes `nodes[i..]` whose index is
      in `adversaries` and keeps the others; the first failure is raised. */
  function AttackFrom(nodes: seq<Node>, identifier: string, adversaries: seq<nat>,
                      t: Value -> Result<Value>, i: nat): (r: Result<seq<Node>>)
    requires i <= |nodes|
    ensures r.Ok? ==> |r.value| == |nodes| - i
    ensures r.Ok? ==> forall k :: i <= k < |nodes| && k in adversaries ==>
      ApplyDataTransformation(nodes[k], identifier, t) == Ok(r.value[k - i])
    ensures r.Ok? ==> forall k :: i <= k < |nodes| && k !in adversaries ==> r.value[k - i] == nodes[k]
    ensures r.Err? <==>
      (exists k :: i <= k < |nodes| && k in adversaries && ApplyDataTransformation(nodes[k], identifier, t).Err?)
    decreases |nodes| - i
  {
    if i == |nodes| then Ok([])
    else
      var head :- (if i in adversaries then ApplyDataTransformation(nodes[i], identifier, t) else Ok(nodes[i]));
      var tail :- AttackFrom(nodes, identifier, adversaries, t, i + 1);
      Ok([head] + tail)
  }

  /** `apply_attack(federated_data)` as intended: the adversaries are
      recorded, then each adversary node's value under the identifier has its
      labels permuted (`ShuffleLabelsIntended`) and every other node is left
      as it was. */
  function ApplyAttack(a: PoisoningAttack, fd: FederatedData, selectDraws: nat -> nat, shuffleDraws: nat -> nat)
    : (r: (PoisoningAttack, Result<FederatedData>))
    ensures r.0.percentage == a.percentage
    ensures SelectAdversaries(a.percentage, NumNodes(fd), selectDraws).Err? ==>
      r == (a, Err(ValueError))
    ensures SelectAdversaries(a.percentage, NumNodes(fd), selectDraws).Ok? ==>
      r.0.adversaries == SelectAdversaries(a.percentage, NumNodes(fd), selectDraws).value
    ensures r.1.Ok? ==> r.1.value.identifier == fd.identifier && NumNodes(r.1.value) == NumNodes(fd)
    ensures r.1.Ok? ==> forall k :: 0 <= k < NumNodes(fd) && k in r.0.adversaries ==>
      ApplyDataTransformation(fd.nodes[k], fd.identifier, v => ShuffleLabelsIntended(shuffleDraws, v)) == Ok(r.1.value.nodes[k])
    ensures r.1.Ok? ==> forall k :: 0 <= k < NumNodes(fd) && k !in r.0.adversaries ==>
      r.1.value.nodes[k] == fd.nodes[k]
  {
    match SelectAdversaries(a.percentage, NumNodes(fd), selectDraws)
    case Err(e) => (a, Err(e))
    case Ok(adversaries) =>
      var nodes := AttackFrom(fd.nodes, fd.identifier, adversaries, v => ShuffleLabelsIntended(shuffleDraws, v), 0);
      (a.(adversaries := adversaries), if nodes.Ok? then Ok(fd.(nodes := nodes.value)) else Err(nodes.error))
  }

  /** `apply_attack` as written: line 73 calls `apply_data_transformation`
      with the transformation only, while the node's method also takes the
      property name, so the first adversary raises `TypeError`.  The
      adversaries are recorded before the loop. */
  function ApplyAttackAsWritten(a: PoisoningAttack, fd: FederatedData, selectDraws: nat -> nat)
    : (r: (PoisoningAttack, Result<FederatedData>))
    ensures SelectAdversaries(a.percentage, NumNodes(fd), selectDraws).Err? ==> r == (a, Err(ValueError))
    ensures SelectAdversaries(a.percentage, NumNodes(fd), selectDraws).Ok? ==>
      r.0.adversaries == SelectAdversaries(a.percentage, NumNodes(fd), selectDraws).value
    ensures r.1.Ok? ==> r.1.value == fd
  {
    match SelectAdversaries(a.percentage, NumNodes(fd), selectDraws)
    case Err(e) => (a, Err(e))
    case Ok(adversaries) =>
      (a.(adversaries := adversaries), if |adversaries| > 0 then Err(TypeError) else Ok(fd))
  }

  /** As written, any attack that selects at least one adversary fails. */
  lemma AsWrittenFailsWithAdversaries(a: PoisoningAttack, fd: FederatedData, selectDraws: nat -> nat)
    requires 1 <= AdversaryCount(a.percentage, NumNodes(fd)) <= NumNodes(fd)
    ensures ApplyAttackAsWritten(a, fd, selectDraws).1 == Err(TypeError)
  {
  }

  /** The concrete case: 100% of a single node whose value is labelled data. */
  lemma AsWrittenCounterexample(selectDraws: nat -> nat, shuffleDraws: nat -> nat)
    ensures var fd := FederatedData("id", [SetPrivateData(NewNode(), "id",
                        Labeled(LabeledData(Array([1.0]), Array([0.0, 1.0]))))]);
            ApplyAttackAsWritten(NewPoisoningAttack(100.0), fd, selectDraws).1 == Err(TypeError) &&
            ApplyAttack(NewPoisoningAttack(100.0), fd, selectDraws, shuffleDraws).1.Ok?
  {
    var fd := FederatedData("id", [SetPrivateData(NewNode(), "id",
                Labeled(LabeledData(Array([1.0]), Array([0.0, 1.0]))))]);
    assert AdversaryCount(100.0, 1) == 1;
    AttackSucceedsOnLabeledNodes(NewPoisoningAttack(100.0), fd, selectDraws, shuffleDraws);
  }

  /** When every node holds labelled data with an array of labels under the
      identifier, the intended attack succeeds, and the adversaries' labels are
      permuted while their data is kept. */
  lemma AttackSucceedsOnLabeledNodes(a: PoisoningAttack, fd: FederatedData, selectDraws: nat -> nat, shuffleDraws: nat -> nat)
    requires 0 <= AdversaryCount(a.percentage, NumNodes(fd)) <= NumNodes(fd)
    requires forall k :: 0 <= k < |fd.nodes| ==>
      fd.identifier in fd.nodes[k].privateData &&
      fd.nodes[k].privateData[fd.identifier].Labeled? &&
      fd.nodes[k].privateData[fd.identifier].ld.labels.Array?
    ensures ApplyAttack(a, fd, selectDraws, shuffleDraws).1.Ok?
    ensures var r := ApplyAttack(a, fd, selectDraws, shuffleDraws);
      forall k :: 0 <= k < NumNodes(fd) && k in r.0.adversaries ==>
        var before := fd.nodes[k].privateData[fd.identifier];
        var after := r.1.value.nodes[k].privateData[fd.identifier];
        after.Labeled? && after.ld.data == before.ld.data && after.ld.labels.Array? &&
        multiset(after.ld.labels.xs) == multiset(before.ld.labels.xs)
  {
    var t := v => ShuffleLabelsIntended(shuffleDraws, v);
    var r := ApplyAttack(a, fd, selectDraws, shuffleDraws);
    forall k | 0 <= k < |fd.nodes|
      ensures ApplyDataTransformation(fd.nodes[k], fd.identifier, t).Ok?
    {
      assert t(fd.nodes[k].privateData[fd.identifier]).Ok?;
    }
    var nodes := AttackFrom(fd.nodes, fd.identifier, r.0.adversaries, t, 0);
    assert nodes.Ok?;
  }
}

=== FILE: federated_operation.dfy ===
/** Data spread over several nodes (`shfl/private/federated_operation.py`).

    The class-level set of identifiers in use becomes an explicit `Registry`
    value that construction and deletion thread through. */
module FederatedOperation {
  import opened Wrappers
  import opened Numeric
  import opened Values
  import opened DpMechanism
  import opened Access
  import opened Node

  datatype Registry = Registry(used: set<string>)

  datatype FederatedData = FederatedData(identifier: string, nodes: seq<Node>)

  /** `FederatedData(identifier)`: an identifier already in use is a
      `ValueError`; otherwise an empty federated data and the identifier
      registered. */
  function NewFederatedData(reg: Registry, identifier: string): (r: Result<(Registry, FederatedData)>)
    ensures r.Err? <==> identifier in reg.used
    ensures r.Err? ==> r.error == ValueError
    ensures r.Ok? ==> r.value.0.used == reg.used + {identifier}
    ensures r.Ok? ==> r.value.1.identifier == identifier && NumNodes(r.value.1) == 0
  {
    if identifier in reg.used then Err(ValueError)
    else Ok((Registry(reg.used + {identifier}), FederatedData(identifier, [])))
  }

  /** `__del__`: the identifier is released for reuse. */
  function Release(reg: Registry, fd: FederatedData): (r: Registry)
    ensures fd.identifier !in r.used
    ensures r.used == reg.used - {fd.identifier}
  {
    Registry(reg.used - {fd.identifier})
  }

  function NumNodes(fd: FederatedData): nat {
    |fd.nodes|
  }

  /** `add_data_node(node, data)`: stores `data` in `node` under the
      identifier and appends the node. */
  function AddDataNode(fd: FederatedData, node: Node, data: Value): (r: FederatedData)
    ensures NumNodes(r) == NumNodes(fd) + 1
    ensures r.identifier == fd.identifier
    ensures r.nodes[..NumNodes(fd)] == fd.nodes
    ensures r.nodes[NumNodes(fd)] == SetPrivateData(node, fd.identifier, data)
  {
    fd.(nodes := fd.nodes + [SetPrivateData(node, fd.identifier, data)])
  }

  /** `configure_data_access(policy)`: the same policy under the identifier
      on every node. */
  function ConfigureDataAccess(fd: FederatedData, p: AccessDefinition): (r: FederatedData)
    ensures r.identifier == fd.identifier && NumNodes(r) == NumNodes(fd)
    ensures forall i :: 0 <= i < |fd.nodes| ==>
      r.nodes[i] == ConfigurePrivateDataAccess(fd.nodes[i], fd.identifier, p)
  {
    fd.(nodes := seq(|fd.nodes|, i requires 0 <= i < |fd.nodes| =>
      ConfigurePrivateDataAccess(fd.nodes[i], fd.identifier, p)))
  }

  /** Queries `nodes[i..]` in order; the first node that raises ends the query
      with its error. */
  function QueryFrom(nodes: seq<Node>, identifier: string, i: nat, rnds: nat -> Randomness): (r: Result<seq<Value>>)
    requires i <= |nodes|
    ensures r.Ok? ==> |r.value| == |nodes| - i
    ensures r.Ok? ==> forall k :: i <= k < |nodes| ==>
      QueryPrivateData(nodes[k], identifier, rnds(k)) == Ok(r.value[k - i])
    ensures r.Err? ==> exists k :: (i <= k < |nodes| && QueryPrivateData(nodes[k], identifier, rnds(k)) == Err(r.error) &&
      forall j :: i <= j < k ==> QueryPrivateData(nodes[j], identifier, rnds(j)).Ok?)
    decreases |nodes| - i
  {
    if i == |nodes| then Ok([])
    else
      var head := QueryPrivateData(nodes[i], identifier, rnds(i));
      if head.Err? then Err(head.error)
      else
        var tail := QueryFrom(nodes, identifier, i + 1, rnds);
        if tail.Err? then Err(tail.error)
        else Ok([head.value] + tail.value)
  }

  /** `query()`: node i answers `query_private_data(identifier)` with its own
      draws `rnds(i)`; the list has one answer per node, in node order. */
  function QueryAll(fd: FederatedData, rnds: nat -> Randomness): (r: Result<seq<Value>>)
    ensures r.Ok? ==> |r.value| == NumNodes(fd)
    ensures r.Ok? ==> forall k :: 0 <= k < |fd.nodes| ==>
      QueryPrivateData(fd.nodes[k], fd.identifier, rnds(k)) == Ok(r.value[k])
    ensures r.Err? ==> exists k :: (0 <= k < |fd.nodes| && QueryPrivateData(fd.nodes[k], fd.identifier, rnds(k)) == Err(r.error) &&
      forall j :: 0 <= j < k ==> QueryPrivateData(fd.nodes[j], fd.identifier, rnds(j)).Ok?)
  {
    QueryFrom(fd.nodes, fd.identifier, 0, rnds)
  }

  /** Each node's exclusive chunk `array[floor(i*L/n) : floor((i+1)*L/n)]`. */
  function ChunkStart(i: nat, len: nat, n: nat): nat
    requires n > 0
  {
    (i * len) / n
  }

  lemma ChunkStartMonotone(i: nat, j: nat, len: nat, n: nat)
    requires n > 0 && i <= j
    ensures ChunkStart(i, len, n) <= ChunkStart(j, len, n)
  {
    MulLe(i, j, len);
    DivLe(i * len, j * len, n);
  }

  lemma ChunkStartLast(len: nat, n: nat)
    requires n > 0
    ensures ChunkStart(n, len, n) == len
  {
    DivUnique(n * len, n, len, 0);
  }

  /** Node k's chunk `s[floor(k*L/n) : floor((k+1)*L/n)]`. */
  function Chunk<T>(s: seq<T>, n: nat, k: nat): (r: seq<T>)
    requires k < n
    ensures ChunkStart(k, |s|, n) <= ChunkStart(k + 1, |s|, n) <= |s|
    ensures r == s[ChunkStart(k, |s|, n)..ChunkStart(k + 1, |s|, n)]
  {
    ChunkStartMonotone(k, k + 1, |s|, n);
    ChunkStartMonotone(k + 1, n, |s|, n);
    ChunkStartLast(|s|, n);
    s[ChunkStart(k, |s|, n)..ChunkStart(k + 1, |s|, n)]
  }

  /** The chunks `federate_array` cuts, over exact reals: the loop
      `while last < len(array)` with `last` advancing by `len/n` runs n times
      when the array is non-empty and never when it is empty.  In floats the
      accumulated `last` can fall short, which moves a chunk bound or adds a
      node: one element split 10 ways gives 11 nodes. */
  function Chunks<T>(s: seq<T>, n: nat): (r: seq<seq<T>>)
    requires n > 0
    ensures |s| > 0 ==> |r| == n
    ensures |s| == 0 ==> r == []
    ensures forall k :: 0 <= k < |r| ==> r[k] == Chunk(s, n, k)
  {
    if |s| == 0 then [] else seq(n, k requires 0 <= k < n => Chunk(s, n, k))
  }

  /** The cut points `floor(i*L/n)` for `i = 0..n`. */
  function ChunkBounds(len: nat, n: nat): (r: seq<int>)
    requires n > 0
    ensures |r| == n + 1
    ensures forall i :: 0 <= i <= n ==> r[i] == ChunkStart(i, len, n)
  {
    seq(n + 1, i requires 0 <= i <= n => ChunkStart(i, len, n))
  }

  /** They run non-decreasing from 0 to the length. */
  lemma ChunkBoundsCut(len: nat, n: nat)
    requires n > 0
    ensures CutPoints(ChunkBounds(len, n), len)
  {
    var r := ChunkBounds(len, n);
    ChunkStartLast(len, n);
    forall i, j | 0 <= i <= j < |r| ensures r[i] <= r[j] {
      ChunkStartMonotone(i, j, len, n);
    }
    forall i | 0 <= i < |r| ensures 0 <= r[i] <= len {
      ChunkStartMonotone(i, n, len, n);
    }
  }

  /** The chunks put back together give the array. */
  lemma ChunksConcat<T>(s: seq<T>, n: nat)
    requires n > 0
    ensures Concat(Chunks(s, n)) == s
  {
    if |s| > 0 {
      var bounds := ChunkBounds(|s|, n);
      ChunkBoundsCut(|s|, n);
      assert Chunks(s, n) == Pieces(s, bounds);
      ConcatPieces(s, bounds);
    }
  }

  /** When n divides the length, every chunk has length L/n. */
  lemma ChunksEqualSize<T>(s: seq<T>, n: nat)
    requires n > 0 && |s| % n == 0
    ensures forall k :: 0 <= k < |Chunks(s, n)| ==> |Chunks(s, n)[k]| == |s| / n
  {
    var q := |s| / n;
    assert |s| == q * n;
    forall i: nat | i <= n ensures ChunkStart(i, |s|, n) == i * q {
      assert i * |s| == (i * q) * n by {
        assert i * (q * n) == (i * q) * n;
      }
      DivUnique(i * |s|, n, i * q, 0);
    }
    forall i: nat | i < n ensures ChunkStart(i + 1, |s|, n) - ChunkStart(i, |s|, n) == q {
      assert (i + 1) * q == i * q + q;
    }
  }

  /** Nodes built from the chunks, one fresh node per chunk. */
  function NodesFor(chunks: seq<seq<real>>, identifier: string): (r: seq<Node>)
    ensures |r| == |chunks|
    ensures forall k :: 0 <= k < |chunks| ==>
      r[k] == SetPrivateData(NewNode(), identifier, Array(chunks[k]))
  {
    seq(|chunks|, k requires 0 <= k < |chunks| => SetPrivateData(NewNode(), identifier, Array(chunks[k])))
  }

  /** `federate_array(identifier, array, n)`: zero nodes is a division by zero
      (raised before the identifier is checked); otherwise a new federated
      data whose node i holds `array[floor(i*L/n) : floor((i+1)*L/n)]`.  A
      negative `n` makes the step negative: an empty array gets no node, and
      a non-empty one never leaves the loop, so callers must not ask for
      that. */
  function FederateArray(reg: Registry, identifier: string, arr: seq<real>, n: int)
    : (r: Result<(Registry, FederatedData)>)
    requires n >= 0 || |arr| == 0
    ensures n == 0 ==> r == Err(ZeroDivisionError)
    ensures n != 0 ==> (r.Err? <==> identifier in reg.used)
    ensures r.Ok? ==> r.value.0.used == reg.used + {identifier}
    ensures r.Ok? ==> r.value.1.identifier == identifier
    ensures r.Ok? ==> NumNodes(r.value.1) == (if |arr| == 0 then 0 else n)
    ensures r.Ok? && n > 0 ==> forall k :: 0 <= k < NumNodes(r.value.1) ==>
      r.value.1.nodes[k].privateData == map[identifier := Array(Chunks(arr, n)[k])]
  {
    if n == 0 then Err(ZeroDivisionError)
    else
      var (reg', fd) :- NewFederatedData(reg, identifier);
      if n < 0 then Ok((reg', fd))
      else Ok((reg', fd.(nodes := NodesFor(Chunks(arr, n), identifier))))
  }

  /** `federate_array` on a two-dimensional array: the rows are split along
      the first dimension exactly as the entries of a one-dimensional one,
      so node k holds the block of rows `rows[floor(k*L/n) : floor((k+1)*L/n)]`
      as a matrix. */
  function FederateMatrix(reg: Registry, identifier: string, rows: seq<seq<real>>, n: int)
    : (r: Result<(Registry, FederatedData)>)
    requires n >= 0 || |rows| == 0
    ensures n == 0 ==> r == Err(ZeroDivisionError)
    ensures n != 0 ==> (r.Err? <==> identifier in reg.used)
    ensures r.Ok? ==> r.value.0.used == reg.used + {identifier}
    ensures r.Ok? ==> r.value.1.identifier == identifier
    ensures r.Ok? ==> NumNodes(r.value.1) == (if |rows| == 0 then 0 else n)
    ensures r.Ok? && n > 0 ==> forall k :: 0 <= k < NumNodes(r.value.1) ==>
      r.value.1.nodes[k].privateData == map[identifier := Matrix(Chunks(rows, n)[k])]
  {
    if n == 0 then Err(ZeroDivisionError)
    else
      var (reg', fd) :- NewFederatedData(reg, identifier);
      if n < 0 then Ok((reg', fd))
      else
        var chunks := Chunks(rows, n);
        var nodes := seq(|chunks|, k requires 0 <= k < |chunks| =>
          SetPrivateData(NewNode(), identifier, Matrix(chunks[k])));
        Ok((reg', fd.(nodes := nodes)))
  }

  /** The row blocks of a federated matrix, read back under unprotected
      access and put together, are the matrix's rows. */
  lemma FederatedMatrixRows(reg: Registry, identifier: string, rows: seq<seq<real>>, n: nat, rnds: nat -> Randomness)
    requires n > 0 && identifier !in reg.used
    ensures FederateMatrix(reg, identifier, rows, n).Ok?
    ensures QueryAll(ConfigureDataAccess(FederateMatrix(reg, identifier, rows, n).value.1, UnprotectedAccess()), rnds).Ok?
    ensures QueryAll(ConfigureDataAccess(FederateMatrix(reg, identifier, rows, n).value.1, UnprotectedAccess()), rnds).value
      == seq(|Chunks(rows, n)|, k requires 0 <= k < |Chunks(rows, n)| => Matrix(Chunks(rows, n)[k]))
    ensures Concat(Chunks(rows, n)) == rows
  {
    var fd := ConfigureDataAccess(FederateMatrix(reg, identifier, rows, n).value.1, UnprotectedAccess());
    forall k | 0 <= k < |fd.nodes|
      ensures QueryPrivateData(fd.nodes[k], identifier, rnds(k)) == Ok(Matrix(Chunks(rows, n)[k]))
    {
      UnprotectedReleasesValue(Matrix(Chunks(rows, n)[k]), rnds(k));
    }
    assert QueryAll(fd, rnds).Ok?;
    ChunksConcat(rows, n);
  }

  /** `apply_federated_transformation(federated_data, t)`: every node's value
      under the identifier is transformed; the first failure is raised. */
  function ApplyFederatedTransformation(fd: FederatedData, t: Value -> Result<Value>): (r: Result<FederatedData>)
    ensures r.Ok? ==> r.value.identifier == fd.identifier && NumNodes(r.value) == NumNodes(fd)
    ensures r.Ok? ==> forall k :: 0 <= k < |fd.nodes| ==>
      ApplyDataTransformation(fd.nodes[k], fd.identifier, t) == Ok(r.value.nodes[k])
    ensures r.Err? ==> exists k :: (0 <= k < |fd.nodes| && ApplyDataTransformation(fd.nodes[k], fd.identifier, t) == Err(r.error) &&
      forall j :: 0 <= j < k ==> ApplyDataTransformation(fd.nodes[j], fd.identifier, t).Ok?)
  {
    var nodes :- TransformFrom(fd.nodes, fd.identifier, t, 0);
    Ok(fd.(nodes := nodes))
  }

  function TransformFrom(nodes: seq<Node>, identifier: string, t: Value -> Result<Value>, i: nat)
    : (r: Result<seq<Node>>)
    requires i <= |nodes|
    ensures r.Ok? ==> |r.value| == |nodes| - i
    ensures r.Ok? ==> forall k :: i <= k < |nodes| ==>
      ApplyDataTransformation(nodes[k], identifier, t) == Ok(r.value[k - i])
    ensures r.Err? ==> exists k :: (i <= k < |nodes| && ApplyDataTransformation(nodes[k], identifier, t) == Err(r.error) &&
      forall j :: i <= j < k ==> ApplyDataTransformation(nodes[j], identifier, t).Ok?)
    decreases |nodes| - i
  {
    if i == |nodes| then Ok([])
    else
      var head := ApplyDataTransformation(nodes[i], identifier, t);
      if head.Err? then Err(head.error)
      else
        var tail := TransformFrom(nodes, identifier, t, i + 1);
        if tail.Err? then Err(tail.error)
        else Ok([head.value] + tail.value)
  }

  /** A federated array queried under unprotected access returns its chunks,
      one per node, in order. */
  lemma FederatedArrayQuery(reg: Registry, identifier: string, arr: seq<real>, n: nat, rnds: nat -> Randomness)
    requires n > 0 && identifier !in reg.used
    ensures FederateArray(reg, identifier, arr, n).Ok?
    ensures QueryAll(ConfigureDataAccess(FederateArray(reg, identifier, arr, n).value.1, UnprotectedAccess()), rnds).Ok?
    ensures QueryAll(ConfigureDataAccess(FederateArray(reg, identifier, arr, n).value.1, UnprotectedAccess()), rnds).value
      == seq(|Chunks(arr, n)|, k requires 0 <= k < |Chunks(arr, n)| => Array(Chunks(arr, n)[k]))
  {
    var fd := ConfigureDataAccess(FederateArray(reg, identifier, arr, n).value.1, UnprotectedAccess());
    forall k | 0 <= k < |fd.nodes|
      ensures QueryPrivateData(fd.nodes[k], identifier, rnds(k)) == Ok(Array(Chunks(arr, n)[k]))
    {
      UnprotectedReleasesValue(Array(Chunks(arr, n)[k]), rnds(k));
    }
    assert QueryAll(fd, rnds).Ok?;
  }
}

=== FILE: legacy_core.dfy ===
/** The legacy core (`shfl/core/`): a data node without access policies,
    the two mechanisms of its `dp_mechanism.py`, and the two federated
    operations of its `federated_operation.py`.

    A legacy query is any function from the stored value to an answer (the
    abstract `Query.get`; the module's only concrete query, `Get`, is the
    identity), and a transformation is a function from the stored value to
    its replacement, as in the current node. */
module LegacyCore {
  import opened Wrappers
  import opened Values
  import DpMechanism

  datatype LegacyNode = LegacyNode(privateData: map<string, Value>, model: Option<Value>)

  /** `DataNode()`: no private data and no model. */
  function NewNode(): (n: LegacyNode)
    ensures n.privateData == map[] && n.model.None?
  {
    LegacyNode(map[], None)
  }

  /** `set_private_data(name, data)`: stores `data` under `name`; the other
      names keep their values. */
  function SetPrivateData(n: LegacyNode, name: string, data: Value): (r: LegacyNode)
    ensures r.privateData.Keys == n.privateData.Keys + {name}
    ensures r.privateData[name] == data
    ensures forall k :: k in n.privateData && k != name ==> r.privateData[k] == n.privateData[k]
    ensures r.model == n.model
  {
    n.(privateData := n.privateData[name := data])
  }

  /** `query_private_data(query, name)`: the query's answer on the stored
      value, with no access check; an unknown name is a `KeyError`. */
  function QueryPrivateData(n: LegacyNode, query: Value -> Result<Value>, name: string): (r: Result<Value>)
    ensures name !in n.privateData ==> r == Err(KeyError)
    ensures name in n.privateData ==> r == query(n.privateData[name])
  {
    if name !in n.privateData then Err(KeyError) else query(n.privateData[name])
  }

  /** The `model` setter. */
  function SetModel(n: LegacyNode, params: Value): (r: LegacyNode)
    ensures r.model == Some(params) && r.privateData == n.privateData
  {
    n.(model := Some(params))
  }

  /** `set_model_params(params)`: without a model the call on `None` is an
      `AttributeError`. */
  function SetModelParams(n: LegacyNode, params: Value): (r: Result<LegacyNode>)
    ensures r.Err? <==> n.model.None?
    ensures r.Err? ==> r.error == AttributeError
    ensures r.Ok? ==> r.value.model == Some(params) && r.value.privateData == n.privateData
  {
    if n.model.None? then Err(AttributeError) else Ok(SetModel(n, params))
  }

  /** `query_model_params(query)`: the query's answer on the model's
      parameters. */
  function QueryModelParams(n: LegacyNode, query: Value -> Result<Value>): (r: Result<Value>)
    ensures n.model.None? ==> r == Err(AttributeError)
    ensures n.model.Some? ==> r == query(n.model.value)
  {
    if n.model.None? then Err(AttributeError) else query(n.model.value)
  }

  /** `apply_data_transformation(name, t)`: the value stored under `name` is
      replaced by its transformation; an unknown name is a `KeyError`. */
  function ApplyDataTransformation(n: LegacyNode, name: string, t: Value -> Result<Value>): (r: Result<LegacyNode>)
    ensures name !in n.privateData ==> r == Err(KeyError)
    ensures name in n.privateData && t(n.privateData[name]).Err? ==> r == Err(t(n.privateData[name]).error)
    ensures r.Ok? ==> (name in n.privateData && t(n.privateData[name]).Ok? &&
      r.value.privateData == n.privateData[name := t(n.privateData[name]).value] &&
      r.value.model == n.model)
  {
    if name !in n.privateData then Err(KeyError)
    else
      var v :- t(n.privateData[name]);
      Ok(SetPrivateData(n, name, v))
  }

  /** What `train_model` hands to the model's `train`. */
  datatype TrainCall = TrainCall(data: Value, labels: Value)

  /** `train_model(key)`: no validation; `_private_data.get(key)` is `None`
      for an unknown key, and a value that is not labelled data lacks the
      `data`/`label` attributes, as `None` lacks `train`. */
  function TrainModel(n: LegacyNode, key: string): (r: Result<TrainCall>)
    ensures r.Ok? <==> n.model.Some? && key in n.privateData && n.privateData[key].Labeled?
    ensures r.Err? ==> r.error == AttributeError
    ensures r.Ok? ==> r.value == TrainCall(n.privateData[key].ld.data, n.privateData[key].ld.labels)
  {
    if n.model.None? then Err(AttributeError)
    else if key !in n.privateData then Err(AttributeError)
    else match n.privateData[key]
      case Labeled(ld) => Ok(TrainCall(ld.data, ld.labels))
      case _ => Err(AttributeError)
  }

  /** A value stored under a name is what the identity query returns. */
  lemma StoreThenQuery(n: LegacyNode, name: string, v: Value)
    ensures QueryPrivateData(SetPrivateData(n, name, v), x => Ok(x), name) == Ok(v)
  {
  }

  /** Storing under one name leaves the answers for every other name as
      they were. */
  lemma OtherNamesUnaffected(n: LegacyNode, name: string, other: string, v: Value, query: Value -> Result<Value>)
    requires other != name
    ensures QueryPrivateData(SetPrivateData(n, name, v), query, other) == QueryPrivateData(n, query, other)
  {
  }

  /** `UnrandomizedMechanism` and `RandomizeBinaryProperty(noise, mean)`
      (defaults 0.5 and 0.5). */
  datatype LegacyMechanism = Unrandomized | BinaryProperty(noise: real, mean: real)

  const DefaultBinaryProperty: LegacyMechanism := BinaryProperty(0.5, 0.5)

  /** `randomize(data)` with the two `np.random.rand()` draws `u0` and `u1`:
      the identity, or the two-coin flip on a value whose single number
      (`SoleEntry`: a scalar, or a one-element array or matrix) is a bit. */
  function Randomize(m: LegacyMechanism, v: Value, u0: real, u1: real): (r: Result<Value>)
    ensures m.Unrandomized? ==> r == Ok(v)
    ensures m.BinaryProperty? ==>
      (r.Err? <==> !(SoleEntry(v).Some? && (SoleEntry(v).value == 0.0 || SoleEntry(v).value == 1.0)))
    ensures r.Err? ==> r.error == ValueError
    ensures m.BinaryProperty? && r.Ok? ==> r.value.Scalar? && (r.value.x == 0.0 || r.value.x == 1.0)
    ensures m.BinaryProperty? && r.Ok? && u0 > m.noise ==> r.value == Scalar(SoleEntry(v).value)
    ensures m.BinaryProperty? && r.Ok? && u0 <= m.noise ==> (r.value == Scalar(0.0) <==> u1 > m.mean)
  {
    match m
    case Unrandomized => Ok(v)
    case BinaryProperty(noise, mean) =>
      match SoleEntry(v)
      case None => Err(ValueError)
      case Some(x) =>
        if x != 0.0 && x != 1.0 then Err(ValueError)
        else if u0 > noise then Ok(Scalar(x))
        else if u1 > mean then Ok(Scalar(0.0))
        else Ok(Scalar(1.0))
  }

  /** The legacy two-coin flip answers exactly as the current
      `RandomizeBinaryProperty` does on the same draws. */
  lemma BinaryPropertyMatchesCurrent(noise: real, mean: real, v: Value, rnd: DpMechanism.Randomness)
    ensures Randomize(BinaryProperty(noise, mean), v, rnd.uniform(0), rnd.uniform(1))
      == DpMechanism.Randomize(DpMechanism.BinaryProperty(noise, mean), v, rnd)
  {
  }

  /** With noise 0 every draw above 0 answers the truth; with noise 1 the
      answer depends on the second draw alone. */
  lemma BinaryPropertyExtremes(mean: real, x: real, u0: real, u1: real)
    requires x == 0.0 || x == 1.0
    requires 0.0 <= u0 < 1.0
    ensures u0 > 0.0 ==> Randomize(BinaryProperty(0.0, mean), Scalar(x), u0, u1) == Ok(Scalar(x))
    ensures Randomize(BinaryProperty(1.0, mean), Scalar(x), u0, u1) == Ok(Scalar(if u1 > mean then 0.0 else 1.0))
  {
  }

  /** `query_federated_data(federated_data, query, identifier)` from node i
      on: one answer per node, in node order; the first node that raises
      ends the loop with its error. */
  function QueryFederatedFrom(nodes: seq<LegacyNode>, query: Value -> Result<Value>, identifier: string, i: nat)
    : (r: Result<seq<Value>>)
    requires i <= |nodes|
    ensures r.Ok? ==> |r.value| == |nodes| - i
    ensures r.Ok? ==> forall k :: i <= k < |nodes| ==> QueryPrivateData(nodes[k], query, identifier) == Ok(r.value[k - i])
    ensures (exists k :: i <= k < |nodes| && QueryPrivateData(nodes[k], query, identifier).Err?) ==> r.Err?
    ensures r.Err? ==> exists k :: (i <= k < |nodes| && QueryPrivateData(nodes[k], query, identifier) == Err(r.error) &&
      forall j :: i <= j < k ==> QueryPrivateData(nodes[j], query, identifier).Ok?)
    decreases |nodes| - i
  {
    if i == |nodes| then Ok([])
    else
      var head := QueryPrivateData(nodes[i], query, identifier);
      if head.Err? then Err(head.error)
      else
        var tail := QueryFederatedFrom(nodes, query, identifier, i + 1);
        if tail.Err? then Err(tail.error)
        else Ok([head.value] + tail.value)
  }

  function QueryFederatedData(nodes: seq<LegacyNode>, query: Value -> Result<Value>, identifier: string)
    : (r: Result<seq<Value>>)
    ensures r.Ok? ==> |r.value| == |nodes|
    ensures r.Ok? ==> forall k :: 0 <= k < |nodes| ==> QueryPrivateData(nodes[k], query, identifier) == Ok(r.value[k])
    ensures r.Err? <==> exists k :: 0 <= k < |nodes| && QueryPrivateData(nodes[k], query, identifier).Err?
    ensures r.Err? ==> exists k :: (0 <= k < |nodes| && QueryPrivateData(nodes[k], query, identifier) == Err(r.error) &&
      forall j :: 0 <= j < k ==> QueryPrivateData(nodes[j], query, identifier).Ok?)
  {
    QueryFederatedFrom(nodes, query, identifier, 0)
  }

  /** `apply_federated_transformation(federated_data, t)` from node i on:
      every node transforms its value under the identifier; the first
      failure is raised. */
  function TransformFrom(nodes: seq<LegacyNode>, identifier: string, t: Value -> Result<Value>, i: nat)
    : (r: Result<seq<LegacyNode>>)
    requires i <= |nodes|
    ensures r.Ok? ==> |r.value| == |nodes| - i
    ensures r.Ok? ==> forall k :: i <= k < |nodes| ==>
      ApplyDataTransformation(nodes[k], identifier, t) == Ok(r.value[k - i])
    ensures (exists k :: i <= k < |nodes| && ApplyDataTransformation(nodes[k], identifier, t).Err?) ==> r.Err?
    ensures r.Err? ==> exists k :: (i <= k < |nodes| && ApplyDataTransformation(nodes[k], identifier, t) == Err(r.error) &&
      forall j :: i <= j < k ==> ApplyDataTransformation(nodes[j], identifier, t).Ok?)
    decreases |nodes| - i
  {
    if i == |nodes| then Ok([])
    else
      var head := ApplyDataTransformation(nodes[i], identifier, t);
      if head.Err? then Err(head.error)
      else
        var tail := TransformFrom(nodes, identifier, t, i + 1);
        if tail.Err? then Err(tail.error)
        else Ok([head.value] + tail.value)
  }

  function ApplyFederatedTransformation(nodes: seq<LegacyNode>, identifier: string, t: Value -> Result<Value>)
    : (r: Result<seq<LegacyNode>>)
    ensures r.Ok? ==> |r.value| == |nodes|
    ensures r.Ok? ==> forall k :: 0 <= k < |nodes| ==>
      ApplyDataTransformation(nodes[k], identifier, t) == Ok(r.value[k])
    ensures r.Err? <==> exists k :: 0 <= k < |nodes| && ApplyDataTransformation(nodes[k], identifier, t).Err?
    ensures r.Err? ==> exists k :: (0 <= k < |nodes| && ApplyDataTransformation(nodes[k], identifier, t) == Err(r.error) &&
      forall j :: 0 <= j < k ==> ApplyDataTransformation(nodes[j], identifier, t).Ok?)
  {
    TransformFrom(nodes, identifier, t, 0)
  }

  /** After a successful federated transformation, the identity query over
      the federation returns every node's transformed value, in node
      order. */
  lemma TransformThenQuery(nodes: seq<LegacyNode>, identifier: string, t: Value -> Result<Value>)
    requires ApplyFederatedTransformation(nodes, identifier, t).Ok?
    ensures forall k :: 0 <= k < |nodes| ==> identifier in nodes[k].privateData && t(nodes[k].privateData[identifier]).Ok?
    ensures QueryFederatedData(ApplyFederatedTransformation(nodes, identifier, t).value, x => Ok(x), identifier)
      == Ok(seq(|nodes|, k requires 0 <= k < |nodes| => t(nodes[k].privateData[identifier]).value))
  {
    var after := ApplyFederatedTransformation(nodes, identifier, t).value;
    forall k | 0 <= k < |nodes|
      ensures identifier in nodes[k].privateData && t(nodes[k].privateData[identifier]).Ok?
      ensures QueryPrivateData(after[k], x => Ok(x), identifier) == Ok(t(nodes[k].privateData[identifier]).value)
    {
      assert ApplyDataTransformation(nodes[k], identifier, t) == Ok(after[k]);
    }
    var q := QueryFederatedData(after, x => Ok(x), identifier);
    assert q.Ok?;
    var expected := seq(|nodes|, k requires 0 <= k < |nodes| => t(nodes[k].privateData[identifier]).value);
    forall k | 0 <= k < |nodes| ensures q.value[k] == expected[k] {
      assert QueryPrivateData(after[k], x => Ok(x), identifier) == Ok(q.value[k]);
    }
    assert q.value == expected;
  }
}

=== FILE: linear_regression.dfy ===
/** `LinearRegressionModel` (`shfl/model/linear_regression_model.py`): the
    argument checks, the constructor and the packing of scikit-learn's
    intercept and coefficients into one parameter array, intercept first.
    Fitting and prediction belong to scikit-learn and are not modelled. */
module LinearRegression {
  import opened Wrappers
  import opened ModelChecks

  /** scikit-learn's fitted `intercept_` and `coef_`: a scalar and a vector
      for one target, a vector and a two-dimensional array otherwise. */
  datatype Coefficients =
    | Single(intercept: real, coef: seq<real>)
    | Multi(intercepts: seq<real>, coefs: Array2)

  datatype Model = Model(nFeatures: nat, nTargets: nat, coefficients: Coefficients)

  /** `_check_initialization(n)`: an integer of at least one. */
  function CheckInitialization(n: Arg): (r: Result<nat>)
    ensures r.Ok? <==> n.IntArg? && n.n >= 1
    ensures r.Ok? ==> r.value == n.n
    ensures r.Err? ==> r.error == AssertionError
  {
    if !n.IntArg? then Err(AssertionError)
    else if n.n < 1 then Err(AssertionError)
    else Ok(n.n)
  }

  /** `set_model_params(params)`: for one target the first row is split into
      intercept and coefficients (the other rows are ignored); otherwise
      column 0 holds the intercepts and the remaining columns the
      coefficients.  Indexing an empty row or column raises. */
  function SetParams(m: Model, params: Array2): (r: Result<Model>)
    requires WellShaped(params)
    ensures r.Err? <==> params.cols == 0 || (m.nTargets == 1 && |params.rows| == 0)
    ensures r.Err? ==> r.error == IndexError
    ensures r.Ok? ==> r.value.nFeatures == m.nFeatures && r.value.nTargets == m.nTargets
    ensures r.Ok? && m.nTargets == 1 ==>
      r.value.coefficients == Single(params.rows[0][0], params.rows[0][1..])
    ensures r.Ok? && m.nTargets != 1 ==>
      r.value.coefficients.Multi? &&
      |r.value.coefficients.intercepts| == |params.rows| &&
      r.value.coefficients.coefs.cols == params.cols - 1 &&
      |r.value.coefficients.coefs.rows| == |params.rows| &&
      (forall i :: 0 <= i < |params.rows| ==>
        [r.value.coefficients.intercepts[i]] + r.value.coefficients.coefs.rows[i] == params.rows[i])
  {
    if m.nTargets == 1 then
      if |params.rows| == 0 || params.cols == 0 then Err(IndexError)
      else Ok(m.(coefficients := Single(params.rows[0][0], params.rows[0][1..])))
    else if params.cols == 0 then Err(IndexError)
    else
      var intercepts := seq(|params.rows|, i requires 0 <= i < |params.rows| => params.rows[i][0]);
      var coefs := Array2(seq(|params.rows|, i requires 0 <= i < |params.rows| => params.rows[i][1..]), params.cols - 1);
      Ok(m.(coefficients := Multi(intercepts, coefs)))
  }

  /** `get_model_params()`: the intercept stacked in front of the
      coefficients, as a one-row array for one target.  Stacking an
      intercept vector and a coefficient array of different heights
      raises. */
  function GetParams(m: Model): (r: Result<Array2>)
    ensures r.Err? <==> m.coefficients.Multi? && |m.coefficients.intercepts| != |m.coefficients.coefs.rows|
    ensures r.Err? ==> r.error == ValueError
    ensures r.Ok? && m.coefficients.Single? ==>
      r.value == Array2([[m.coefficients.intercept] + m.coefficients.coef], |m.coefficients.coef| + 1)
    ensures r.Ok? && m.coefficients.Multi? ==>
      r.value.cols == m.coefficients.coefs.cols + 1 &&
      |r.value.rows| == |m.coefficients.intercepts| &&
      (forall i :: 0 <= i < |r.value.rows| ==>
        r.value.rows[i] == [m.coefficients.intercepts[i]] + m.coefficients.coefs.rows[i])
  {
    match m.coefficients
    case Single(b, w) => Ok(Array2([[b] + w], |w| + 1))
    case Multi(bs, ws) =>
      if |bs| != |ws.rows| then Err(ValueError)
      else Ok(Array2(seq(|bs|, i requires 0 <= i < |bs| => [bs[i]] + ws.rows[i]), ws.cols + 1))
  }

  /** The model's parameters have the layout the constructor gives them:
      one intercept per coefficient row, every row as wide as the array
      says. */
  predicate Consistent(m: Model) {
    (m.nTargets == 1 <==> m.coefficients.Single?) &&
    (m.coefficients.Multi? ==>
      |m.coefficients.intercepts| == |m.coefficients.coefs.rows| && WellShaped(m.coefficients.coefs))
  }

  /** `LinearRegressionModel(n_features, n_targets)`: both arguments are
      checked, then the parameters are set to zeros of shape
      `(n_targets, n_features + 1)`. */
  function New(nFeatures: Arg, nTargets: Arg): (r: Result<Model>)
    ensures r.Ok? <==> nFeatures.IntArg? && nFeatures.n >= 1 && nTargets.IntArg? && nTargets.n >= 1
    ensures r.Err? ==> r.error == AssertionError
    ensures r.Ok? ==> r.value.nFeatures == nFeatures.n && r.value.nTargets == nTargets.n && Consistent(r.value)
  {
    var f :- CheckInitialization(nFeatures);
    var t :- CheckInitialization(nTargets);
    SetParams(Model(f, t, Single(0.0, [])), Zeros(t, f + 1))
  }

  /** A fresh model reports zero parameters of shape
      `(n_targets, n_features + 1)`. */
  lemma NewParamsAreZeros(nFeatures: nat, nTargets: nat)
    requires nFeatures >= 1 && nTargets >= 1
    ensures New(IntArg(nFeatures), IntArg(nTargets)).Ok?
    ensures GetParams(New(IntArg(nFeatures), IntArg(nTargets)).value) == Ok(Zeros(nTargets, nFeatures + 1))
  {
    var m := New(IntArg(nFeatures), IntArg(nTargets)).value;
    var z := Zeros(nTargets, nFeatures + 1);
    var p := GetParams(m).value;
    assert |p.rows| == nTargets;
    forall i | 0 <= i < nTargets ensures p.rows[i] == z.rows[i] {
      if nTargets == 1 {
        assert p.rows[0] == [0.0] + z.rows[0][1..];
      } else {
        assert p.rows[i] == [p.rows[i][0]] + p.rows[i][1..];
      }
    }
    assert p == z;
  }

  /** With several targets, setting parameters and reading them back gives
      the same array, for any array with at least one column. */
  lemma SetGetRoundTrip(m: Model, params: Array2)
    requires m.nTargets != 1 && WellShaped(params) && params.cols >= 1
    ensures SetParams(m, params).Ok?
    ensures GetParams(SetParams(m, params).value) == Ok(params)
  {
    var p := GetParams(SetParams(m, params).value).value;
    forall i | 0 <= i < |params.rows| ensures p.rows[i] == params.rows[i] {
      assert p.rows[i] == [p.rows[i][0]] + p.rows[i][1..];
    }
    assert p == params;
  }

  /** With one target only the first row survives the round trip: a
      one-row array comes back unchanged, a taller one as its first row. */
  lemma SetGetSingleTarget(m: Model, params: Array2)
    requires m.nTargets == 1 && WellShaped(params) && params.cols >= 1 && |params.rows| >= 1
    ensures SetParams(m, params).Ok?
    ensures GetParams(SetParams(m, params).value) == Ok(Array2([params.rows[0]], params.cols))
    ensures |params.rows| == 1 ==> GetParams(SetParams(m, params).value) == Ok(params)
  {
    assert [params.rows[0][0]] + params.rows[0][1..] == params.rows[0];
    if |params.rows| == 1 {
      assert params.rows == [params.rows[0]];
    }
  }

  /** Reading the parameters and setting them back leaves a consistent model
      unchanged. */
  lemma GetSetRoundTrip(m: Model)
    requires Consistent(m)
    ensures GetParams(m).Ok?
    ensures WellShaped(GetParams(m).value)
    ensures SetParams(m, GetParams(m).value) == Ok(m)
  {
    var p := GetParams(m).value;
    match m.coefficients
    case Single(b, w) =>
      assert ([b] + w)[1..] == w;
    case Multi(bs, ws) =>
      var r := SetParams(m, p).value.coefficients;
      forall i | 0 <= i < |bs| ensures r.intercepts[i] == bs[i] && r.coefs.rows[i] == ws.rows[i] {
        assert [r.intercepts[i]] + r.coefs.rows[i] == p.rows[i] == [bs[i]] + ws.rows[i];
        assert r.intercepts[i] == p.rows[i][0];
        assert r.coefs.rows[i] == p.rows[i][1..];
      }
      assert r.intercepts == bs;
      assert r.coefs.rows == ws.rows;
  }

  /** `_check_data(data)`: data must carry `n_features` columns. */
  function CheckData(m: Model, shape: seq<nat>): (r: Result<()>)
    ensures r.Ok? <==> Columns(shape) == Some(m.nFeatures)
    ensures r.Err? ==> r.error == (if |shape| == 0 then IndexError else AssertionError)
  {
    CheckWidthIsColumns(m.nFeatures, shape);
    CheckWidth(m.nFeatures, shape)
  }

  /** `_check_labels(labels)`: labels must carry `n_targets` columns. */
  function CheckLabels(m: Model, shape: seq<nat>): (r: Result<()>)
    ensures r.Ok? <==> Columns(shape) == Some(m.nTargets)
    ensures r.Err? ==> r.error == (if |shape| == 0 then IndexError else AssertionError)
  {
    CheckWidthIsColumns(m.nTargets, shape);
    CheckWidth(m.nTargets, shape)
  }
}

=== FILE: logistic_regression.dfy ===
/** `LogisticRegressionModel` (`shfl/model/logistic_regression_model.py`):
    the argument checks, the constructor, the class check on labels and the
    packing of scikit-learn's intercepts and coefficients into one parameter
    array, intercepts in column 0.  Fitting, prediction and the metrics
    belong to scikit-learn and are not modelled.  Classes are reals here. */
module LogisticRegression {
  import opened Wrappers
  import opened Permutation
  import opened Sorting
  import opened ModelChecks

  /** The stored classes (`classes_`), one intercept per coefficient row
      (`intercept_`) and the coefficient array (`coef_`). */
  datatype Model = Model(nFeatures: nat, classes: seq<real>, intercepts: seq<real>, coefs: Array2)

  /** `_check_initialization(n_features, classes)` as written: the two
      messages about `n_features` format a variable `n` that does not exist,
      so those checks raise `NameError` instead of their `AssertionError`. */
  function CheckInitializationAsWritten(nFeatures: Arg, classes: seq<real>): (r: Result<nat>)
    ensures (!nFeatures.IntArg? || nFeatures.n < 0) ==> r == Err(NameError)
    ensures nFeatures.IntArg? && nFeatures.n >= 0 ==> r == CheckInitialization(nFeatures, classes)
  {
    if !nFeatures.IntArg? then Err(NameError)
    else if nFeatures.n < 0 then Err(NameError)
    else if |classes| < 2 then Err(AssertionError)
    else if |Unique(classes)| != |classes| then Err(AssertionError)
    else Ok(nFeatures.n)
  }

  /** The check as its messages intend it: every failure is an
      `AssertionError`.  `n_features = 0` passes (the test is `< 0`); at
      least two classes, none repeated. */
  function CheckInitialization(nFeatures: Arg, classes: seq<real>): (r: Result<nat>)
    ensures r.Ok? <==> nFeatures.IntArg? && nFeatures.n >= 0 && |classes| >= 2 && Distinct(classes)
    ensures r.Ok? ==> r.value == nFeatures.n
    ensures r.Err? ==> r.error == AssertionError
  {
    UniqueLength(classes);
    if !nFeatures.IntArg? then Err(AssertionError)
    else if nFeatures.n < 0 then Err(AssertionError)
    else if |classes| < 2 then Err(AssertionError)
    else if |Unique(classes)| != |classes| then Err(AssertionError)
    else Ok(nFeatures.n)
  }

  /** The check as written rejects exactly what the intended one rejects,
      but with the wrong exception for a bad `n_features`. */
  lemma AsWrittenRejectsSameInputs(nFeatures: Arg, classes: seq<real>)
    ensures CheckInitializationAsWritten(nFeatures, classes).Err? <==> CheckInitialization(nFeatures, classes).Err?
    ensures CheckInitializationAsWritten(nFeatures, classes).Err? ==>
      (CheckInitializationAsWritten(nFeatures, classes).error == NameError <==>
       !nFeatures.IntArg? || nFeatures.n < 0)
  {
  }

  /** `LogisticRegressionModel(1.5, [0, 1])` raises `NameError`, not the
      `AssertionError` its message describes. */
  lemma AsWrittenCounterexample()
    ensures CheckInitializationAsWritten(OtherArg, [0.0, 1.0]) == Err(NameError)
    ensures CheckInitialization(OtherArg, [0.0, 1.0]) == Err(AssertionError)
  {
  }

  /** The distinct elements of a sequence. */
  function Elements(s: seq<real>): set<real> {
    set x | x in s
  }

  /** A sequence has at least as many entries as distinct elements, and
      exactly as many when no element repeats. */
  lemma {:induction false} ElementsSize(s: seq<real>)
    ensures |Elements(s)| <= |s|
    ensures |Elements(s)| == |s| <==> Distinct(s)
  {
    if |s| > 0 {
      var t := s[1..];
      ElementsSize(t);
      assert Elements(s) == {s[0]} + Elements(t) by {
        forall x ensures x in Elements(s) <==> x in {s[0]} + Elements(t) {
          assert x in s <==> x == s[0] || x in t;
        }
      }
      if s[0] in t {
        var k :| 0 <= k < |t| && t[k] == s[0];
        assert s[k + 1] == s[0];
        assert Elements(s) == Elements(t);
      } else {
        assert |Elements(s)| == 1 + |Elements(t)|;
        if Distinct(t) {
          forall a, b | 0 <= a < b < |s| ensures s[a] != s[b] {
            if a > 0 {
              assert s[a] == t[a - 1] && s[b] == t[b - 1];
            } else {
              assert s[b] == t[b - 1];
            }
          }
        }
        if Distinct(s) {
          forall a, b | 0 <= a < b < |t| ensures t[a] != t[b] {
            assert t[a] == s[a + 1] && t[b] == s[b + 1];
          }
        }
      }
    } else {
      assert Elements(s) == {};
    }
  }

  /** `len(np.unique(classes)) == len(classes)` holds exactly when no class
      repeats. */
  lemma UniqueLength(s: seq<real>)
    ensures |Unique(s)| == |s| <==> Distinct(s)
  {
    var u := Unique(s);
    assert Elements(u) == Elements(s);
    assert Distinct(u);
    ElementsSize(u);
    ElementsSize(s);
  }

  /** `set_model_params(params)`: column 0 holds the intercepts, the other
      columns the coefficients; an array without columns has no column 0. */
  function SetParams(m: Model, params: Array2): (r: Result<Model>)
    requires WellShaped(params)
    ensures r.Err? <==> params.cols == 0
    ensures r.Err? ==> r.error == IndexError
    ensures r.Ok? ==>
      r.value.nFeatures == m.nFeatures && r.value.classes == m.classes &&
      |r.value.intercepts| == |params.rows| == |r.value.coefs.rows| &&
      r.value.coefs.cols == params.cols - 1 &&
      (forall i :: 0 <= i < |params.rows| ==> [r.value.intercepts[i]] + r.value.coefs.rows[i] == params.rows[i])
  {
    if params.cols == 0 then Err(IndexError)
    else
      var intercepts := seq(|params.rows|, i requires 0 <= i < |params.rows| => params.rows[i][0]);
      var coefs := Array2(seq(|params.rows|, i requires 0 <= i < |params.rows| => params.rows[i][1..]), params.cols - 1);
      Ok(m.(intercepts := intercepts, coefs := coefs))
  }

  /** `get_model_params()`: `np.column_stack((intercept_, coef_))`, which
      raises when the heights differ. */
  function GetParams(m: Model): (r: Result<Array2>)
    ensures r.Err? <==> |m.intercepts| != |m.coefs.rows|
    ensures r.Err? ==> r.error == ValueError
    ensures r.Ok? ==>
      r.value.cols == m.coefs.cols + 1 && |r.value.rows| == |m.intercepts| &&
      (forall i :: 0 <= i < |r.value.rows| ==> r.value.rows[i] == [m.intercepts[i]] + m.coefs.rows[i])
  {
    if |m.intercepts| != |m.coefs.rows| then Err(ValueError)
    else Ok(Array2(seq(|m.intercepts|, i requires 0 <= i < |m.intercepts| => [m.intercepts[i]] + m.coefs.rows[i]), m.coefs.cols + 1))
  }

  /** One intercept per coefficient row, every row as wide as the array
      says. */
  predicate Consistent(m: Model) {
    |m.intercepts| == |m.coefs.rows| && WellShaped(m.coefs)
  }

  /** `LogisticRegressionModel(n_features, classes)` with the intended
      check: the classes are stored in ascending order and the parameters
      start as zeros with one row per class (also for two classes: the
      `n_classes` computed on lines 21-23 is never used). */
  function New(nFeatures: Arg, classes: seq<real>): (r: Result<Model>)
    ensures r.Ok? <==> CheckInitialization(nFeatures, classes).Ok?
    ensures r.Err? ==> r.error == AssertionError
    ensures r.Ok? ==> r.value.nFeatures == nFeatures.n && Consistent(r.value)
    ensures r.Ok? ==> StrictlySorted(r.value.classes) && multiset(r.value.classes) == multiset(classes)
  {
    var n :- CheckInitialization(nFeatures, classes);
    var sorted := Sort(classes);
    SortedDistinct(classes);
    SetParams(Model(n, sorted, [], Array2([], 0)), Zeros(|classes|, n + 1))
  }

  /** `LogisticRegressionModel(n_features, classes)` as written: a
      non-integer or negative `n_features` raises `NameError` from the
      check's message; every other input builds the model `New` builds. */
  function NewAsWritten(nFeatures: Arg, classes: seq<real>): (r: Result<Model>)
    ensures r.Ok? <==> nFeatures.IntArg? && nFeatures.n >= 0 && |classes| >= 2 && Distinct(classes)
    ensures r.Err? ==> (r.error == NameError <==> !nFeatures.IntArg? || nFeatures.n < 0)
    ensures r.Err? && r.error != NameError ==> r.error == AssertionError
  {
    match CheckInitializationAsWritten(nFeatures, classes)
    case Err(e) => Err(e)
    case Ok(_) => New(nFeatures, classes)
  }

  /** The constructor as written and the corrected one fail on the same
      inputs and build the same model when they succeed. */
  lemma NewAsWrittenAgrees(nFeatures: Arg, classes: seq<real>)
    ensures NewAsWritten(nFeatures, classes).Err? <==> New(nFeatures, classes).Err?
    ensures NewAsWritten(nFeatures, classes).Ok? ==> NewAsWritten(nFeatures, classes) == New(nFeatures, classes)
  {
  }

  /** Sorting distinct classes orders them strictly. */
  lemma SortedDistinct(s: seq<real>)
    requires Distinct(s)
    ensures StrictlySorted(Sort(s))
  {
    var t := Sort(s);
    assert Elements(t) == Elements(s) by {
      forall x ensures x in t <==> x in s {
        assert x in t <==> x in multiset(t);
        assert x in s <==> x in multiset(s);
      }
    }
    ElementsSize(s);
    ElementsSize(t);
    forall i, j | 0 <= i < j < |t| ensures t[i] < t[j] {
      assert t[i] <= t[j] && t[i] != t[j];
    }
  }

  /** A fresh model reports zero parameters with one row per class and
      `n_features + 1` columns. */
  lemma NewParamsAreZeros(nFeatures: nat, classes: seq<real>)
    requires |classes| >= 2 && Distinct(classes)
    ensures New(IntArg(nFeatures), classes).Ok?
    ensures GetParams(New(IntArg(nFeatures), classes).value) == Ok(Zeros(|classes|, nFeatures + 1))
  {
    var p := GetParams(New(IntArg(nFeatures), classes).value).value;
    var z := Zeros(|classes|, nFeatures + 1);
    forall i | 0 <= i < |classes| ensures p.rows[i] == z.rows[i] {
      assert p.rows[i] == [p.rows[i][0]] + p.rows[i][1..];
    }
    assert p == z;
  }

  /** Setting parameters and reading them back gives the same array, for
      any array with at least one column. */
  lemma SetGetRoundTrip(m: Model, params: Array2)
    requires WellShaped(params) && params.cols >= 1
    ensures SetParams(m, params).Ok?
    ensures GetParams(SetParams(m, params).value) == Ok(params)
  {
    var p := GetParams(SetParams(m, params).value).value;
    assert p == params;
  }

  /** Reading the parameters and setting them back leaves a consistent model
      unchanged. */
  lemma GetSetRoundTrip(m: Model)
    requires Consistent(m)
    ensures GetParams(m).Ok?
    ensures WellShaped(GetParams(m).value)
    ensures SetParams(m, GetParams(m).value) == Ok(m)
  {
    var p := GetParams(m).value;
    var r := SetParams(m, p).value;
    forall i | 0 <= i < |m.intercepts| ensures r.intercepts[i] == m.intercepts[i] && r.coefs.rows[i] == m.coefs.rows[i] {
      assert [r.intercepts[i]] + r.coefs.rows[i] == p.rows[i] == [m.intercepts[i]] + m.coefs.rows[i];
      assert r.intercepts[i] == p.rows[i][0];
      assert r.coefs.rows[i] == p.rows[i][1..];
    }
    assert r.intercepts == m.intercepts;
    assert r.coefs.rows == m.coefs.rows;
  }

  /** `_check_data(data)`: data must carry `n_features` columns. */
  function CheckData(m: Model, shape: seq<nat>): (r: Result<()>)
    ensures r.Ok? <==> Columns(shape) == Some(m.nFeatures)
    ensures r.Err? ==> r.error == (if |shape| == 0 then IndexError else AssertionError)
  {
    CheckWidthIsColumns(m.nFeatures, shape);
    CheckWidth(m.nFeatures, shape)
  }

  /** `_check_labels(labels)`: the distinct labels, in ascending order, must
      be exactly the stored classes. */
  function CheckLabels(m: Model, labels: seq<real>): (r: Result<()>)
    ensures r.Ok? <==> Unique(labels) == m.classes
    ensures r.Err? ==> r.error == AssertionError
  {
    if Unique(labels) == m.classes then Ok(()) else Err(AssertionError)
  }

  /** On a freshly built model, labels pass the check exactly when they
      contain every class and nothing else: missing classes are rejected as
      firmly as foreign ones. */
  lemma NewCheckLabels(nFeatures: Arg, classes: seq<real>, labels: seq<real>)
    requires New(nFeatures, classes).Ok?
    ensures CheckLabels(New(nFeatures, classes).value, labels).Ok? <==>
      (forall x :: x in labels <==> x in classes)
  {
    var stored := New(nFeatures, classes).value.classes;
    UniqueEqualsIff(labels, stored);
    forall x ensures x in stored <==> x in classes {
      assert x in stored <==> x in multiset(stored);
      assert x in classes <==> x in multiset(classes);
    }
  }
}

=== FILE: model_checks.dfy ===
/** What the model wrappers (`shfl/model/linear_regression_model.py`,
    `shfl/model/logistic_regression_model.py`) share: the arguments their
    constructors check, the two-dimensional parameter arrays they exchange,
    and the width check on data and labels. */
module ModelChecks {
  import opened Wrappers

  /** A constructor argument as `isinstance(n, int)` sees it: a Python
      integer, or a value of any other type (a float, a string, `None`). */
  datatype Arg = IntArg(n: int) | OtherArg

  /** A numpy two-dimensional array: its rows and its number of columns,
      which an array without rows still has. */
  datatype Array2 = Array2(rows: seq<seq<real>>, cols: nat)

  /** Every row has `cols` entries. */
  predicate WellShaped(a: Array2) {
    forall i :: 0 <= i < |a.rows| ==> |a.rows[i]| == a.cols
  }

  /** `np.zeros((rows, cols))`. */
  function Zeros(rows: nat, cols: nat): (r: Array2)
    ensures WellShaped(r) && |r.rows| == rows && r.cols == cols
    ensures forall i, j :: 0 <= i < rows && 0 <= j < cols ==> r.rows[i][j] == 0.0
  {
    Array2(seq(rows, _ => seq(cols, _ => 0.0)), cols)
  }

  /** The number of features (or targets) an array of this shape carries:
      one for a one-dimensional array, `shape[1]` otherwise; a
      zero-dimensional array has none to compare. */
  function Columns(shape: seq<nat>): Option<nat> {
    if |shape| == 0 then None
    else if |shape| == 1 then Some(1)
    else Some(shape[1])
  }

  /** `_check_data` and the linear model's `_check_labels`: an array of the
      given numpy shape must carry `width` columns; a one-dimensional array
      is accepted only when one column is expected.  A zero-dimensional
      array has no `shape[1]`. */
  function CheckWidth(width: nat, shape: seq<nat>): (r: Result<()>)
    ensures |shape| == 0 ==> r == Err(IndexError)
    ensures |shape| > 0 && r.Err? ==> r.error == AssertionError
    ensures |shape| == 1 ==> (r.Ok? <==> width == 1)
    ensures |shape| >= 2 ==> (r.Ok? <==> shape[1] == width)
  {
    if |shape| == 1 then
      if width != 1 then Err(AssertionError) else Ok(())
    else if |shape| < 2 then Err(IndexError)
    else if shape[1] != width then Err(AssertionError)
    else Ok(())
  }

  /** The check accepts exactly the arrays that carry `width` columns. */
  lemma CheckWidthIsColumns(width: nat, shape: seq<nat>)
    ensures CheckWidth(width, shape).Ok? <==> Columns(shape) == Some(width)
  {
  }
}

=== FILE: node.dfy ===
/** A data node (`shfl/private/node.py`, `DataNode`): named private values,
    one access policy per name, an optional model and the policy guarding the
    model's parameters.

    The model is represented by its parameters only, since the node does
    nothing with it but read, replace and train them.  A data transformation
    is a function from the stored value to its replacement (or an error), the
    functional reading of `FederatedTransformation.apply`, which mutates the
    stored object in place. */
module Node {
  import opened Wrappers
  import opened Values
  import opened Query
  import opened DpMechanism
  import opened Access

  datatype Node = Node(
    privateData: map<string, Value>,
    policies: map<string, AccessDefinition>,
    model: Option<Value>,
    modelPolicy: AccessDefinition)

  /** What `train_model` hands to the model's `train`. */
  datatype TrainCall = TrainCall(data: Value, labels: Value)

  /** `DataNode()`: no data, no policies, no model, unprotected model params. */
  function NewNode(): (n: Node)
    ensures n.privateData == map[] && n.policies == map[]
    ensures n.model.None?
    ensures n.modelPolicy == AccessDefinition(Identity, Unrandomized)
  {
    Node(map[], map[], None, UnprotectedAccess())
  }

  /** `set_private_data(name, data)`: stores (a copy of) `data` under `name`,
      replacing any earlier value; nothing else changes. */
  function SetPrivateData(n: Node, name: string, data: Value): (r: Node)
    ensures r.privateData.Keys == n.privateData.Keys + {name}
    ensures r.privateData[name] == data
    ensures forall k :: k in n.privateData && k != name ==> r.privateData[k] == n.privateData[k]
    ensures r.policies == n.policies && r.model == n.model && r.modelPolicy == n.modelPolicy
  {
    n.(privateData := n.privateData[name := data])
  }

  /** `configure_private_data_access(name, policy)`: installs `policy` for
      `name` only. */
  function ConfigurePrivateDataAccess(n: Node, name: string, p: AccessDefinition): (r: Node)
    ensures r.policies.Keys == n.policies.Keys + {name}
    ensures r.policies[name] == p
    ensures forall k :: k in n.policies && k != name ==> r.policies[k] == n.policies[k]
    ensures r.privateData == n.privateData && r.model == n.model && r.modelPolicy == n.modelPolicy
  {
    n.(policies := n.policies[name := p])
  }

  /** `configure_model_params_access(policy)`. */
  function ConfigureModelParamsAccess(n: Node, p: AccessDefinition): (r: Node)
    ensures r.modelPolicy == p
    ensures r.privateData == n.privateData && r.policies == n.policies && r.model == n.model
  {
    n.(modelPolicy := p)
  }

  /** The `model` setter. */
  function SetModel(n: Node, params: Value): (r: Node)
    ensures r.model == Some(params)
    ensures r.privateData == n.privateData && r.policies == n.policies && r.modelPolicy == n.modelPolicy
  {
    n.(model := Some(params))
  }

  /** `set_model_params(params)`: delegated to the model; without a model the
      attribute lookup on `None` fails. */
  function SetModelParams(n: Node, params: Value): (r: Result<Node>)
    ensures r.Err? <==> n.model.None?
    ensures r.Err? ==> r.error == AttributeError
    ensures r.Ok? ==> r.value == SetModel(n, params)
  {
    if n.model.None? then Err(AttributeError) else Ok(SetModel(n, params))
  }

  /** `apply_data_transformation(name, t)`: replaces the value stored under
      `name` by its transformation; a missing name is a `KeyError`. */
  function ApplyDataTransformation(n: Node, name: string, t: Value -> Result<Value>): (r: Result<Node>)
    ensures name !in n.privateData ==> r == Err(KeyError)
    ensures name in n.privateData && t(n.privateData[name]).Err? ==> r == Err(t(n.privateData[name]).error)
    ensures name in n.privateData && t(n.privateData[name]).Ok? ==>
      r == Ok(SetPrivateData(n, name, t(n.privateData[name]).value))
  {
    if name !in n.privateData then Err(KeyError)
    else
      var v :- t(n.privateData[name]);
      Ok(SetPrivateData(n, name, v))
  }

  /** `query_private_data(name)`: a name without a policy is a `ValueError`;
      a policy without data is a `KeyError`; otherwise the policy's answer
      for the stored value.  The node itself is never changed by a query. */
  function QueryPrivateData(n: Node, name: string, rnd: Randomness): (r: Result<Value>)
    ensures name !in n.policies ==> r == Err(ValueError)
    ensures name in n.policies && name !in n.privateData ==> r == Err(KeyError)
    ensures name in n.policies && name in n.privateData ==>
      r == Answer(n.policies[name], n.privateData[name], rnd)
  {
    if name !in n.policies then Err(ValueError)
    else if name !in n.privateData then Err(KeyError)
    else Answer(n.policies[name], n.privateData[name], rnd)
  }

  /** `query_model_params()`: the model policy's QUERY applied to the model
      params; its mechanism is never applied.  No model is an `AttributeError`. */
  function QueryModelParams(n: Node): (r: Result<Value>)
    ensures n.model.None? ==> r == Err(AttributeError)
    ensures n.model.Some? ==> r == Get(n.modelPolicy.query, n.model.value)
  {
    if n.model.None? then Err(AttributeError) else Get(n.modelPolicy.query, n.model.value)
  }

  /** `train_model(key)`: the stored value must be labelled data (a missing
      key reads as `None`, which has neither attribute), otherwise
      `ValueError`; then exactly its data and labels go to the model, which
      must exist. */
  function TrainModel(n: Node, key: string): (r: Result<TrainCall>)
    ensures r.Ok? <==> key in n.privateData && n.privateData[key].Labeled? && n.model.Some?
    ensures !(key in n.privateData && n.privateData[key].Labeled?) ==> r == Err(ValueError)
    ensures r.Ok? ==> r.value == TrainCall(n.privateData[key].ld.data, n.privateData[key].ld.labels)
  {
    if key !in n.privateData || !n.privateData[key].Labeled? then Err(ValueError)
    else if n.model.None? then Err(AttributeError)
    else Ok(TrainCall(n.privateData[key].ld.data, n.privateData[key].ld.labels))
  }

  /** Under unprotected access, a query returns exactly what was stored. */
  lemma StoreThenQueryUnprotected(n: Node, name: string, v: Value, rnd: Randomness)
    ensures QueryPrivateData(
      ConfigurePrivateDataAccess(SetPrivateData(n, name, v), name, UnprotectedAccess()), name, rnd) == Ok(v)
  {
    UnprotectedReleasesValue(v, rnd);
  }

  /** Storing a value or installing a policy under one name never changes
      what a query under another name returns. */
  lemma OtherNamesUnaffected(n: Node, name: string, other: string, v: Value, p: AccessDefinition, rnd: Randomness)
    requires other != name
    ensures QueryPrivateData(SetPrivateData(n, name, v), other, rnd) == QueryPrivateData(n, other, rnd)
    ensures QueryPrivateData(ConfigurePrivateDataAccess(n, name, p), other, rnd) == QueryPrivateData(n, other, rnd)
  {
  }

  /** The model params are released unchanged under unprotected access,
      whatever mechanism a later policy names: only the query is used. */
  lemma ModelParamsIgnoreMechanism(n: Node, params: Value, m: Mechanism)
    ensures QueryModelParams(ConfigureModelParamsAccess(SetModel(n, params), UnprotectedAccess())) == Ok(params)
    ensures QueryModelParams(ConfigureModelParamsAccess(SetModel(n, params), AccessDefinition(Identity, m))) == Ok(params)
  {
  }
}

=== FILE: norm.dfy ===
/** The L1 sensitivity norm (`shfl/differential_privacy/norm.py`):
    `np.sum(np.abs(x_1 - x_2))`, with numpy's broadcasting of the two
    operands over the grid shapes `Height` x `Width` of the values. */
module Norm {
  import opened Wrappers
  import opened Numeric
  import opened Values

  /** `|a[i] - b[i]|` for every position. */
  function AbsDiffs(a: seq<real>, b: seq<real>): (r: seq<real>)
    requires |a| == |b|
    ensures |r| == |a|
  {
    seq(|a|, i requires 0 <= i < |a| => Abs(a[i] - b[i]))
  }

  /** `|x - b[i]|` for every position (a scalar broadcast against an array). */
  function AbsDiffsFrom(x: real, b: seq<real>): (r: seq<real>)
    ensures |r| == |b|
  {
    seq(|b|, i requires 0 <= i < |b| => Abs(x - b[i]))
  }

  /** A value numpy can subtract: not labelled data (which has no `-`), and
      a matrix whose rows share one width. */
  predicate Subtractable(v: Value) {
    match v
    case Labeled(_) => false
    case Matrix(rows) => Rectangular(rows)
    case _ => true
  }

  /** The entry at row i, column j of the grid. */
  function At(v: Value, i: nat, j: nat): real
    requires Subtractable(v) && i < Height(v) && j < Width(v)
  {
    match v
    case Scalar(x) => x
    case Array(xs) => xs[j]
    case Matrix(rows) => rows[i][j]
    case Labeled(_) => 0.0
  }

  /** `x_1 - x_2` is defined. */
  predicate Compatible(v1: Value, v2: Value) {
    Subtractable(v1) && Subtractable(v2) &&
    Broadcasts(Height(v1), Height(v2)) && Broadcasts(Width(v1), Width(v2))
  }

  /** Entry (i, j) of `np.abs(x_1 - x_2)`. */
  function AbsAt(v1: Value, v2: Value, i: nat, j: nat): real
    requires Compatible(v1, v2)
    requires i < Joint(Height(v1), Height(v2)) && j < Joint(Width(v1), Width(v2))
  {
    Abs(At(v1, Pick(i, Height(v1)), Pick(j, Width(v1))) - At(v2, Pick(i, Height(v2)), Pick(j, Width(v2))))
  }

  /** Row i of `np.abs(x_1 - x_2)`. */
  function AbsRow(v1: Value, v2: Value, i: nat): (r: seq<real>)
    requires Compatible(v1, v2) && i < Joint(Height(v1), Height(v2))
    ensures |r| == Joint(Width(v1), Width(v2))
  {
    var w := Joint(Width(v1), Width(v2));
    seq(w, j requires 0 <= j < w => AbsAt(v1, v2, i, j))
  }

  /** `np.sum` of `np.abs(x_1 - x_2)`, row by row. */
  function RowSums(v1: Value, v2: Value): (r: seq<real>)
    requires Compatible(v1, v2)
    ensures |r| == Joint(Height(v1), Height(v2))
  {
    var h := Joint(Height(v1), Height(v2));
    seq(h, i requires 0 <= i < h => Sum(AbsRow(v1, v2, i)))
  }

  /** `L1SensitivityNorm.compute(x_1, x_2)`: labelled data cannot be
      subtracted (`TypeError`); shapes that do not broadcast, and matrices
      with rows of differing widths, are a `ValueError`. */
  function L1(v1: Value, v2: Value): (r: Result<real>)
    ensures r.Err? <==> !Compatible(v1, v2)
    ensures r.Err? ==> r.error == (if v1.Labeled? || v2.Labeled? then TypeError else ValueError)
  {
    if v1.Labeled? || v2.Labeled? then Err(TypeError)
    else if !Compatible(v1, v2) then Err(ValueError)
    else Ok(Sum(RowSums(v1, v2)))
  }

  lemma SumSingleton(x: real)
    ensures Sum([x]) == x
  {
    assert [x][1..] == [];
  }

  /** Two scalars: the absolute difference. */
  lemma L1Scalars(a: real, b: real)
    ensures L1(Scalar(a), Scalar(b)) == Ok(Abs(a - b))
  {
    var v1, v2 := Scalar(a), Scalar(b);
    assert AbsRow(v1, v2, 0) == [Abs(a - b)];
    SumSingleton(Abs(a - b));
    assert RowSums(v1, v2) == [Abs(a - b)];
    SumSingleton(Abs(a - b));
  }

  /** Two arrays of one length: the sum of the entrywise distances. */
  lemma L1Arrays(as_: seq<real>, bs: seq<real>)
    requires |as_| == |bs|
    ensures L1(Array(as_), Array(bs)) == Ok(Sum(AbsDiffs(as_, bs)))
  {
    var v1, v2 := Array(as_), Array(bs);
    assert AbsRow(v1, v2, 0) == AbsDiffs(as_, bs);
    assert RowSums(v1, v2) == [Sum(AbsDiffs(as_, bs))];
    SumSingleton(Sum(AbsDiffs(as_, bs)));
  }

  /** A scalar against an array: its distance to every entry, summed. */
  lemma L1ScalarArray(a: real, bs: seq<real>)
    ensures L1(Scalar(a), Array(bs)) == Ok(Sum(AbsDiffsFrom(a, bs)))
  {
    var v1, v2 := Scalar(a), Array(bs);
    assert AbsRow(v1, v2, 0) == AbsDiffsFrom(a, bs);
    assert RowSums(v1, v2) == [Sum(AbsDiffsFrom(a, bs))];
    SumSingleton(Sum(AbsDiffsFrom(a, bs)));
  }

  /** A one-entry array broadcasts like a scalar. */
  lemma L1SingletonArray(a: real, bs: seq<real>)
    ensures L1(Array([a]), Array(bs)) == L1(Scalar(a), Array(bs))
  {
    var v1, v2 := Array([a]), Array(bs);
    assert AbsRow(v1, v2, 0) == AbsRow(Scalar(a), v2, 0);
    assert RowSums(v1, v2) == RowSums(Scalar(a), v2);
  }

  /** Two matrices of one shape: the entrywise distances, row by row. */
  lemma L1Matrices(a: seq<seq<real>>, b: seq<seq<real>>)
    requires |a| == |b| && Rectangular(a) && Rectangular(b)
    requires forall i :: 0 <= i < |a| ==> |a[i]| == |b[i]|
    ensures L1(Matrix(a), Matrix(b)) == Ok(Sum(seq(|a|, i requires 0 <= i < |a| => Sum(AbsDiffs(a[i], b[i])))))
  {
    var v1, v2 := Matrix(a), Matrix(b);
    var sums := seq(|a|, i requires 0 <= i < |a| => Sum(AbsDiffs(a[i], b[i])));
    forall i | 0 <= i < |a| ensures RowSums(v1, v2)[i] == sums[i] {
      assert AbsRow(v1, v2, i) == AbsDiffs(a[i], b[i]);
    }
    assert RowSums(v1, v2) == sums;
  }

  /** An array whose length is the matrix width is subtracted from every
      row. */
  lemma L1ArrayMatrix(xs: seq<real>, rows: seq<seq<real>>)
    requires |rows| > 0 && Rectangular(rows) && |xs| == |rows[0]|
    ensures L1(Array(xs), Matrix(rows)) == Ok(Sum(seq(|rows|, i requires 0 <= i < |rows| => Sum(AbsDiffs(xs, rows[i])))))
  {
    var v1, v2 := Array(xs), Matrix(rows);
    var sums := seq(|rows|, i requires 0 <= i < |rows| => Sum(AbsDiffs(xs, rows[i])));
    forall i | 0 <= i < |rows| ensures RowSums(v1, v2)[i] == sums[i] {
      assert AbsRow(v1, v2, i) == AbsDiffs(xs, rows[i]);
    }
    assert RowSums(v1, v2) == sums;
  }

  /** A scalar against a matrix: its distance to every entry, row by row. */
  lemma L1ScalarMatrix(x: real, rows: seq<seq<real>>)
    requires Rectangular(rows)
    ensures L1(Scalar(x), Matrix(rows)) == Ok(Sum(seq(|rows|, i requires 0 <= i < |rows| => Sum(AbsDiffsFrom(x, rows[i])))))
  {
    var v1, v2 := Scalar(x), Matrix(rows);
    var sums := seq(|rows|, i requires 0 <= i < |rows| => Sum(AbsDiffsFrom(x, rows[i])));
    forall i | 0 <= i < |rows| ensures RowSums(v1, v2)[i] == sums[i] {
      assert AbsRow(v1, v2, i) == AbsDiffsFrom(x, rows[i]);
    }
    assert RowSums(v1, v2) == sums;
  }

  /** Arrays of different lengths, neither of length one, do not broadcast. */
  lemma L1ArrayMismatch(as_: seq<real>, bs: seq<real>)
    requires |as_| != |bs| && |as_| != 1 && |bs| != 1
    ensures L1(Array(as_), Array(bs)) == Err(ValueError)
  {
  }

  lemma {:induction false} RowsNonNegative(v1: Value, v2: Value, i: nat)
    requires Compatible(v1, v2) && i <= Joint(Height(v1), Height(v2))
    ensures forall k :: 0 <= k < i ==> Sum(AbsRow(v1, v2, k)) >= 0.0
    decreases i
  {
    if i > 0 {
      RowsNonNegative(v1, v2, i - 1);
      SumNonNegative(AbsRow(v1, v2, i - 1));
    }
  }

  /** The norm is non-negative. */
  lemma L1NonNegative(v1: Value, v2: Value)
    requires L1(v1, v2).Ok?
    ensures L1(v1, v2).value >= 0.0
  {
    RowsNonNegative(v1, v2, Joint(Height(v1), Height(v2)));
    SumNonNegative(RowSums(v1, v2));
  }

  /** The distance from any numeric value to itself is zero. */
  lemma L1SelfIsZero(v: Value)
    requires Subtractable(v)
    ensures L1(v, v) == Ok(0.0)
  {
    var h, w := Height(v), Width(v);
    forall i | 0 <= i < h ensures Sum(AbsRow(v, v, i)) == 0.0 {
      SumConstant(AbsRow(v, v, i), 0.0);
    }
    SumConstant(RowSums(v, v), 0.0);
  }

  /** The norm is symmetric, in its value and in when it fails. */
  lemma L1Symmetric(v1: Value, v2: Value)
    ensures L1(v1, v2) == L1(v2, v1)
  {
    if Compatible(v1, v2) {
      var h := Joint(Height(v1), Height(v2));
      assert h == Joint(Height(v2), Height(v1));
      forall i | 0 <= i < h ensures AbsRow(v1, v2, i) == AbsRow(v2, v1, i) {
        var w := Joint(Width(v1), Width(v2));
        assert w == Joint(Width(v2), Width(v1));
        forall j | 0 <= j < w ensures AbsRow(v1, v2, i)[j] == AbsRow(v2, v1, i)[j] {
          assert AbsAt(v1, v2, i, j) == AbsAt(v2, v1, i, j);
        }
      }
      assert RowSums(v1, v2) == RowSums(v2, v1);
    }
  }
}

=== FILE: numeric.dfy ===
/** Python and numpy arithmetic the modelled code relies on, stated over
    exact reals: `int()` truncation, slice semantics, sums and powers. */
module Numeric {

  /** Python's `int(x)` on a float: truncation toward zero. */
  function Trunc(x: real): (r: int)
    ensures x >= 0.0 ==> 0 <= r && r as real <= x < r as real + 1.0
    ensures x < 0.0 ==> r <= 0 && r as real - 1.0 < x <= r as real
  {
    if x >= 0.0 then x.Floor else -((-x).Floor)
  }

  /** Where a Python slice bound `i` lands in a sequence of length `len`:
      negative bounds count from the end, and bounds are clipped to [0, len]. */
  function SliceBound(i: int, len: nat): (r: nat)
    ensures r <= len
    ensures 0 <= i <= len ==> r == i
    ensures i > len ==> r == len
  {
    if i < 0 then (if i + len < 0 then 0 else i + len)
    else if i > len then len
    else i
  }

  /** Python's `s[a:b]`. */
  function Slice<T>(s: seq<T>, a: int, b: int): (r: seq<T>)
    ensures 0 <= a <= b <= |s| ==> r == s[a..b]
    ensures 0 <= b <= a ==> r == []
    ensures 0 <= a <= |s| <= b ==> r == s[a..]
  {
    var lo := SliceBound(a, |s|);
    var hi := SliceBound(b, |s|);
    if lo < hi then s[lo..hi] else []
  }

  function Abs(x: real): real {
    if x < 0.0 then -x else x
  }

  function Min(a: int, b: int): int {
    if a <= b then a else b
  }

  function Pow(x: real, k: nat): real {
    if k == 0 then 1.0 else x * Pow(x, k - 1)
  }

  function Sum(s: seq<real>): real {
    if |s| == 0 then 0.0 else s[0] + Sum(s[1..])
  }

  lemma {:induction false} PowBounds(x: real, k: nat)
    requires 0.0 <= x <= 1.0
    ensures 0.0 <= Pow(x, k) <= 1.0
  {
    if k > 0 {
      PowBounds(x, k - 1);
      assert x * Pow(x, k - 1) <= 1.0 * Pow(x, k - 1);
    }
  }

  lemma {:induction false} SumConcat(a: seq<real>, b: seq<real>)
    ensures Sum(a + b) == Sum(a) + Sum(b)
  {
    if |a| > 0 {
      assert (a + b)[1..] == a[1..] + b;
      SumConcat(a[1..], b);
    } else {
      assert a + b == b;
    }
  }

  /** `c * s[i]` for every element. */
  function Scale(c: real, s: seq<real>): (r: seq<real>)
    ensures |r| == |s|
    ensures forall i :: 0 <= i < |s| ==> r[i] == c * s[i]
  {
    if |s| == 0 then [] else [c * s[0]] + Scale(c, s[1..])
  }

  lemma {:induction false} SumScale(c: real, s: seq<real>)
    ensures Sum(Scale(c, s)) == c * Sum(s)
  {
    if |s| > 0 {
      SumScale(c, s[1..]);
    }
  }

  lemma {:induction false} SumConstant(s: seq<real>, c: real)
    requires forall i :: 0 <= i < |s| ==> s[i] == c
    ensures Sum(s) == |s| as real * c
  {
    if |s| > 0 {
      SumConstant(s[1..], c);
    }
  }

  lemma {:induction false} SumNonNegative(s: seq<real>)
    requires forall i :: 0 <= i < |s| ==> s[i] >= 0.0
    ensures Sum(s) >= 0.0
  {
    if |s| > 0 {
      SumNonNegative(s[1..]);
    }
  }

  /** A sum is bounded by its length times any upper bound of its terms, and
      from below likewise. */
  lemma {:induction false} SumBounds(s: seq<real>, lo: real, hi: real)
    requires forall i :: 0 <= i < |s| ==> lo <= s[i] <= hi
    ensures |s| as real * lo <= Sum(s) <= |s| as real * hi
  {
    if |s| > 0 {
      SumBounds(s[1..], lo, hi);
    }
  }

  lemma {:induction false} SumUpdate(s: seq<real>, i: nat, v: real)
    requires i < |s|
    ensures Sum(s[i := v]) == Sum(s) - s[i] + v
  {
    if i > 0 {
      assert s[i := v][1..] == s[1..][i - 1 := v];
      SumUpdate(s[1..], i - 1, v);
    }
  }

  lemma SumSwap(s: seq<real>, i: nat, j: nat)
    requires i < |s| && j < |s|
    ensures Sum(s[i := s[j]][j := s[i]]) == Sum(s)
  {
    SumUpdate(s, i, s[j]);
    SumUpdate(s[i := s[j]], j, s[i]);
  }

  /** numpy's `np.mean` of a non-empty one-dimensional array. */
  function Average(s: seq<real>): real
    requires |s| > 0
  {
    Sum(s) / |s| as real
  }

  /** The mean lies between any lower and upper bound of the elements. */
  lemma AverageBounds(s: seq<real>, lo: real, hi: real)
    requires |s| > 0
    requires forall i :: 0 <= i < |s| ==> lo <= s[i] <= hi
    ensures lo <= Average(s) <= hi
  {
    SumBounds(s, lo, hi);
    var n := |s| as real;
    assert n * lo <= Sum(s) <= n * hi;
    assert lo == (n * lo) / n;
    assert hi == (n * hi) / n;
  }

  /** The mean of a constant sequence is that constant. */
  lemma AverageConstant(s: seq<real>, c: real)
    requires |s| > 0
    requires forall i :: 0 <= i < |s| ==> s[i] == c
    ensures Average(s) == c
  {
    AverageBounds(s, c, c);
  }

  lemma MulLe(i: nat, j: nat, c: nat)
    requires i <= j
    ensures i * c <= j * c
  {
    var d := j - i;
    assert j * c == i * c + d * c;
  }

  /** Integer division is determined by quotient and remainder. */
  lemma DivUnique(a: nat, n: nat, q: nat, r: nat)
    requires n > 0 && r < n && a == q * n + r
    ensures a / n == q
  {
    var q' := a / n;
    assert a == q' * n + a % n;
    if q' > q {
      MulLe(q + 1, q', n);
    } else if q' < q {
      MulLe(q' + 1, q, n);
    }
  }

  lemma DivLe(a: nat, b: nat, n: nat)
    requires n > 0 && a <= b
    ensures a / n <= b / n
  {
    var qa := a / n;
    var qb := b / n;
    assert a == qa * n + a % n;
    assert b == qb * n + b % n;
    if qa > qb {
      MulLe(qb + 1, qa, n);
    }
  }

  /** `int(x * len)`, the recurring size computation. */
  function Scaled(x: real, len: nat): int {
    Trunc(x * len as real)
  }

  /** `int()` is monotone on non-negative values. */
  lemma TruncMonotone(x: real, y: real)
    requires 0.0 <= x <= y
    ensures Trunc(x) <= Trunc(y)
  {
  }

  /** The lists of a list of lists, joined in order. */
  function Concat<T>(chunks: seq<seq<T>>): seq<T> {
    if |chunks| == 0 then [] else chunks[0] + Concat(chunks[1..])
  }

  /** Non-decreasing cut points running from 0 to `len`. */
  predicate CutPoints(bounds: seq<int>, len: nat) {
    |bounds| >= 1 && bounds[0] == 0 && bounds[|bounds| - 1] == len &&
    (forall i :: 0 <= i < |bounds| ==> 0 <= bounds[i] <= len) &&
    (forall i, j :: 0 <= i <= j < |bounds| ==> bounds[i] <= bounds[j])
  }

  /** The pieces of `s` between consecutive cut points. */
  function Pieces<T>(s: seq<T>, bounds: seq<int>): (r: seq<seq<T>>)
    requires CutPoints(bounds, |s|)
    ensures |r| == |bounds| - 1
    ensures forall i :: 0 <= i < |r| ==> r[i] == s[bounds[i]..bounds[i + 1]]
  {
    seq(|bounds| - 1, i requires 0 <= i < |bounds| - 1 => s[bounds[i]..bounds[i + 1]])
  }

  lemma {:induction false} ConcatPiecesFrom<T>(s: seq<T>, bounds: seq<int>, i: nat)
    requires CutPoints(bounds, |s|) && i < |bounds|
    ensures 0 <= bounds[i] <= |s|
    ensures Concat(Pieces(s, bounds)[i..]) == s[bounds[i]..]
    decreases |bounds| - i
  {
    if i < |bounds| - 1 {
      ConcatPiecesFrom(s, bounds, i + 1);
      var p := Pieces(s, bounds)[i..];
      assert p[1..] == Pieces(s, bounds)[i + 1..];
      assert s[bounds[i]..] == s[bounds[i]..bounds[i + 1]] + s[bounds[i + 1]..];
    }
  }

  /** Cutting `s` at such points and joining the pieces gives `s` back. */
  lemma ConcatPieces<T>(s: seq<T>, bounds: seq<int>)
    requires CutPoints(bounds, |s|)
    ensures Concat(Pieces(s, bounds)) == s
  {
    ConcatPiecesFrom(s, bounds, 0);
    assert Pieces(s, bounds)[0..] == Pieces(s, bounds);
  }
}

=== FILE: permutation.dfy ===
/** Random reorderings with the randomness passed in.

    Python's `random.shuffle` and numpy's `np.random.shuffle` are the
    Fisher-Yates shuffle: for `i` from the last position down to 1, swap
    position `i` with a uniformly drawn position `j <= i`.  Here the draws are an
    explicit stream `draws: nat -> nat` and position `i` uses `draws(i) % (i + 1)`,
    so every permutation arises from some stream.  The modelled code shuffles
    `arange(n)` and then gathers rows by the shuffled indices; `GatherShuffle`
    proves that this is the same as shuffling the rows directly. */
module Permutation {

  function Swap<T>(s: seq<T>, i: nat, j: nat): (r: seq<T>)
    requires i < |s| && j < |s|
    ensures |r| == |s|
    ensures r[i] == s[j] && r[j] == s[i]
    ensures forall k :: 0 <= k < |s| && k != i && k != j ==> r[k] == s[k]
  {
    s[i := s[j]][j := s[i]]
  }

  /** Fisher-Yates restricted to positions below `i`. */
  function ShufflePrefix<T>(s: seq<T>, i: nat, draws: nat -> nat): (r: seq<T>)
    requires i <= |s|
    ensures |r| == |s|
    decreases i
  {
    if i <= 1 then s
    else ShufflePrefix(Swap(s, i - 1, draws(i - 1) % i), i - 1, draws)
  }

  function Shuffle<T>(s: seq<T>, draws: nat -> nat): (r: seq<T>)
    ensures |r| == |s|
  {
    ShufflePrefix(s, |s|, draws)
  }

  /** numpy's `arange(n)`. */
  function Range(n: nat): (r: seq<nat>)
    ensures |r| == n
    ensures forall i :: 0 <= i < n ==> r[i] == i
  {
    seq(n, i => i)
  }

  predicate IndicesBelow(idx: seq<nat>, n: nat) {
    forall k :: 0 <= k < |idx| ==> idx[k] < n
  }

  predicate Distinct<T(==)>(s: seq<T>) {
    forall a, b :: 0 <= a < b < |s| ==> s[a] != s[b]
  }

  /** `p` lists each of `0 .. n-1` exactly once. */
  predicate IsPermutation(p: seq<nat>, n: nat) {
    |p| == n && IndicesBelow(p, n) && Distinct(p)
  }

  /** numpy fancy indexing `s[idx]`. */
  function Gather<T>(s: seq<T>, idx: seq<nat>): (r: seq<T>)
    requires IndicesBelow(idx, |s|)
    ensures |r| == |idx|
    ensures forall k :: 0 <= k < |idx| ==> r[k] == s[idx[k]]
  {
    seq(|idx|, k requires 0 <= k < |idx| => s[idx[k]])
  }

  /** Rows paired with their labels. */
  function Zip<A, B>(a: seq<A>, b: seq<B>): (r: seq<(A, B)>)
    requires |a| == |b|
    ensures |r| == |a|
    ensures forall k :: 0 <= k < |a| ==> r[k] == (a[k], b[k])
  {
    seq(|a|, k requires 0 <= k < |a| => (a[k], b[k]))
  }

  lemma SwapMultiset<T>(s: seq<T>, i: nat, j: nat)
    requires i < |s| && j < |s|
    ensures multiset(Swap(s, i, j)) == multiset(s)
  {
    var t := s[i := s[j]];
    assert multiset(t) == multiset(s) - multiset{s[i]} + multiset{s[j]};
    assert multiset(t[j := s[i]]) == multiset(t) - multiset{t[j]} + multiset{s[i]};
  }

  /** A shuffle is a rearrangement: the same elements with the same multiplicities. */
  lemma {:induction false} ShufflePrefixMultiset<T>(s: seq<T>, i: nat, draws: nat -> nat)
    requires i <= |s|
    ensures multiset(ShufflePrefix(s, i, draws)) == multiset(s)
    decreases i
  {
    if i > 1 {
      SwapMultiset(s, i - 1, draws(i - 1) % i);
      ShufflePrefixMultiset(Swap(s, i - 1, draws(i - 1) % i), i - 1, draws);
    }
  }

  lemma ShuffleMultiset<T>(s: seq<T>, draws: nat -> nat)
    ensures multiset(Shuffle(s, draws)) == multiset(s)
  {
    ShufflePrefixMultiset(s, |s|, draws);
  }

  lemma {:induction false} ShufflePrefixKeepsPermutation(p: seq<nat>, n: nat, i: nat, draws: nat -> nat)
    requires i <= |p|
    requires IsPermutation(p, n)
    ensures IsPermutation(ShufflePrefix(p, i, draws), n)
    decreases i
  {
    if i > 1 {
      var q := Swap(p, i - 1, draws(i - 1) % i);
      assert Distinct(q) by {
        forall a, b | 0 <= a < b < |q| ensures q[a] != q[b] {
          var a' := if a == i - 1 then draws(i - 1) % i else if a == draws(i - 1) % i then i - 1 else a;
          var b' := if b == i - 1 then draws(i - 1) % i else if b == draws(i - 1) % i then i - 1 else b;
          assert q[a] == p[a'] && q[b] == p[b'] && a' != b';
        }
      }
      ShufflePrefixKeepsPermutation(q, n, i - 1, draws);
    }
  }

  /** Shuffling `arange(n)` yields a permutation of `0 .. n-1`. */
  lemma ShuffleRangeIsPermutation(n: nat, draws: nat -> nat)
    ensures IsPermutation(Shuffle(Range(n), draws), n)
  {
    ShufflePrefixKeepsPermutation(Range(n), n, n, draws);
  }

  lemma {:induction false} ShufflePrefixGather<T>(s: seq<T>, p: seq<nat>, i: nat, draws: nat -> nat)
    requires IndicesBelow(p, |s|)
    requires i <= |p|
    ensures IndicesBelow(ShufflePrefix(p, i, draws), |s|)
    ensures ShufflePrefix(Gather(s, p), i, draws) == Gather(s, ShufflePrefix(p, i, draws))
    decreases i
  {
    if i > 1 {
      var j := draws(i - 1) % i;
      assert Swap(Gather(s, p), i - 1, j) == Gather(s, Swap(p, i - 1, j));
      ShufflePrefixGather(s, Swap(p, i - 1, j), i - 1, draws);
    }
  }

  /** Shuffling an index array and gathering rows by it (what the modelled code
      does) equals shuffling the rows themselves with the same draws. */
  lemma GatherShuffle<T>(s: seq<T>, draws: nat -> nat)
    ensures IndicesBelow(Shuffle(Range(|s|), draws), |s|)
    ensures Gather(s, Shuffle(Range(|s|), draws)) == Shuffle(s, draws)
  {
    assert Gather(s, Range(|s|)) == s;
    ShufflePrefixGather(s, Range(|s|), |s|, draws);
  }

  /** Gathering rows and labels by the same indices keeps every row with its label. */
  lemma GatherZip<A, B>(a: seq<A>, b: seq<B>, p: seq<nat>)
    requires |a| == |b|
    requires IndicesBelow(p, |a|)
    ensures Zip(Gather(a, p), Gather(b, p)) == Gather(Zip(a, b), p)
  {
  }

  /** Gathering by a shuffled `arange(n)` keeps the multiset of rows. */
  lemma GatherShuffledMultiset<T>(s: seq<T>, draws: nat -> nat)
    ensures IndicesBelow(Shuffle(Range(|s|), draws), |s|)
    ensures multiset(Gather(s, Shuffle(Range(|s|), draws))) == multiset(s)
  {
    GatherShuffle(s, draws);
    ShuffleMultiset(s, draws);
  }
}

=== FILE: query.dfy ===
/** Queries over private data (`shfl/private/query.py`). */
module Query {
  import opened Wrappers
  import opened Numeric
  import opened Values

  datatype Query = Identity | Mean

  /** `Query.get`.  `Mean` is `np.mean`: the mean of all entries; NaN for an
      empty array; a `ValueError` for a ragged list of rows; a `TypeError`
      for labelled data, which has no arithmetic. */
  function Get(q: Query, v: Value): (r: Result<Value>)
    ensures q == Identity ==> r == Ok(v)
    ensures q == Mean && v.Array? && |v.xs| > 0 ==> r == Ok(Scalar(Average(v.xs)))
    ensures q == Mean && v.Scalar? ==> r == Ok(v)
    ensures q == Mean && r.Ok? ==> r.value.Scalar?
    ensures q == Mean && v.Labeled? ==> r == Err(TypeError)
    ensures q == Mean && v.Array? && |v.xs| == 0 ==> r == Err(NotANumber)
  {
    match q
    case Identity => Ok(v)
    case Mean =>
      match v
      case Scalar(x) => Ok(v)
      case Array(xs) => if |xs| == 0 then Err(NotANumber) else Ok(Scalar(Average(xs)))
      case Matrix(rows) =>
        if !Rectangular(rows) then Err(ValueError)
        else if |Flatten(rows)| == 0 then Err(NotANumber)
        else Ok(Scalar(Average(Flatten(rows))))
      case Labeled(_) => Err(TypeError)
  }

  /** `IdentityFunction.get` is idempotent. */
  lemma IdentityIdempotent(v: Value)
    ensures Get(Identity, Get(Identity, v).value) == Get(Identity, v)
  {
  }

  /** The mean of a non-empty array lies between its minimum and maximum,
      and the mean of a constant array is that constant. */
  lemma MeanWithinBounds(xs: seq<real>, lo: real, hi: real)
    requires |xs| > 0
    requires forall i :: 0 <= i < |xs| ==> lo <= xs[i] <= hi
    ensures Get(Mean, Array(xs)).Ok?
    ensures lo <= Get(Mean, Array(xs)).value.x <= hi
  {
    AverageBounds(xs, lo, hi);
  }

  lemma MeanOfConstant(xs: seq<real>, c: real)
    requires |xs| > 0
    requires forall i :: 0 <= i < |xs| ==> xs[i] == c
    ensures Get(Mean, Array(xs)) == Ok(Scalar(c))
  {
    AverageConstant(xs, c);
  }
}

=== FILE: sensitivity_sampler.dfy ===
/** The sensitivity sampler (`shfl/differential_privacy/sensitivity_sampler.py`):
    estimates the sensitivity of a query as an order statistic of the
    distances between its answers on `m` pairs of neighbouring databases.

    The oracle is an explicit stream: `draw(i)(j)` is the j-th record the
    oracle yields in round i, so round i's databases share the records
    `0 .. n-2` and end in record `n-1` and record `n` respectively.  The
    sensitivity norm is the L1 norm. */
module SensitivitySampler {
  import opened Wrappers
  import opened Numeric
  import opened Sorting
  import opened Values
  import opened Query
  import opened Norm

  /** Round i's databases `db1 = shared + [x]`, `db2 = shared + [y]`. */
  function Neighbours(draw: nat -> nat -> real, i: nat, n: nat): (r: (seq<real>, seq<real>))
    requires n > 0
    ensures |r.0| == n && |r.1| == n
    ensures r.0[..n - 1] == r.1[..n - 1]
    ensures forall j :: 0 <= j < n - 1 ==> r.0[j] == draw(i)(j)
    ensures r.0[n - 1] == draw(i)(n - 1) && r.1[n - 1] == draw(i)(n)
  {
    var shared := seq(n - 1, j requires 0 <= j < n - 1 => draw(i)(j));
    (shared + [draw(i)(n - 1)], shared + [draw(i)(n)])
  }

  /** `_sensitivity_norm(query, norm, x1, x2)`: the norm of the difference
      of the query's answers. */
  function SensitivityNorm(q: Query, db1: seq<real>, db2: seq<real>): (r: Result<real>)
    ensures r.Ok? ==> r.value >= 0.0
    ensures Get(q, Array(db1)).Err? ==> r == Err(Get(q, Array(db1)).error)
    ensures Get(q, Array(db1)).Ok? && Get(q, Array(db2)).Ok? ==>
      r == L1(Get(q, Array(db1)).value, Get(q, Array(db2)).value)
  {
    var v1 :- Get(q, Array(db1));
    var v2 :- Get(q, Array(db2));
    var d :- L1(v1, v2);
    L1NonNegative(v1, v2);
    Ok(d)
  }

  /** Round k of the loop: the sensitivity norm of round k's databases. */
  function Round(q: Query, draw: nat -> nat -> real, n: nat, k: nat): (r: Result<real>)
    requires n > 0
    ensures r.Ok? ==> r.value >= 0.0
  {
    SensitivityNorm(q, Neighbours(draw, k, n).0, Neighbours(draw, k, n).1)
  }

  /** The distances of rounds `i .. m-1`, in round order; the first round
      that raises ends the sampling. */
  function DistancesFrom(q: Query, draw: nat -> nat -> real, n: nat, i: nat, m: nat): (r: Result<seq<real>>)
    requires n > 0 && i <= m
    ensures r.Ok? ==> |r.value| == m - i
    ensures r.Ok? ==> forall k :: 0 <= k < m - i ==>
      Round(q, draw, n, i + k) == Ok(r.value[k])
    ensures r.Err? ==> exists k :: i <= k < m && Round(q, draw, n, k).Err?
    decreases m - i
  {
    if i == m then Ok([])
    else
      var g := Round(q, draw, n, i);
      if g.Err? then Err(g.error)
      else
        var rest := DistancesFrom(q, draw, n, i + 1, m);
        if rest.Err? then Err(rest.error)
        else
          var gs := [g.value] + rest.value;
          assert forall k :: 0 < k < |gs| ==> gs[k] == rest.value[k - 1];
          Ok(gs)
  }

  /** numpy indexing `s[idx]`: negative indices count from the end; anything
      outside `[-len, len)` is an `IndexError`. */
  function PyIndex(s: seq<real>, idx: int): (r: Result<real>)
    ensures r.Ok? <==> -|s| <= idx < |s|
    ensures r.Err? ==> r.error == IndexError
    ensures 0 <= idx < |s| ==> r == Ok(s[idx])
    ensures -|s| <= idx < 0 ==> r == Ok(s[|s| + idx])
  {
    if 0 <= idx < |s| then Ok(s[idx])
    else if -|s| <= idx < 0 then Ok(s[|s| + idx])
    else Err(IndexError)
  }

  /** `gs = np.sort(gs); return gs[k-1], np.mean(gs)`. */
  function KthAndMean(gs: seq<real>, k: int): (r: Result<(real, real)>)
    ensures r.Ok? <==> -|gs| < k <= |gs|
    ensures r.Err? ==> r.error == IndexError
  {
    var sorted := Sort(gs);
    var s :- PyIndex(sorted, k - 1);
    Ok((s, Average(sorted)))
  }

  /** For `1 <= k <= m` the sensitivity is the k-th smallest distance: one of
      the distances, with at least k distances at or below it and at least
      `m-k+1` at or above it; the mean is the arithmetic mean of all
      distances. */
  lemma KthAndMeanIsOrderStatistic(gs: seq<real>, k: int)
    requires 1 <= k <= |gs|
    ensures KthAndMean(gs, k).Ok?
    ensures KthAndMean(gs, k).value.0 in gs
    ensures CountAtMost(gs, KthAndMean(gs, k).value.0) >= k
    ensures CountAtLeast(gs, KthAndMean(gs, k).value.0) >= |gs| - k + 1
    ensures KthAndMean(gs, k).value.1 == Sum(gs) / |gs| as real
  {
    var s := Sort(gs);
    var v := s[k - 1];
    assert KthAndMean(gs, k) == Ok((v, Average(s)));
    assert v in multiset(gs) by {
      assert v in multiset(s);
    }
    SortedCounts(s, k);
    CountsSort(gs, v);
    SumSort(gs);
  }

  /** In a sorted sequence, at least k entries are at most its k-th entry
      and at least `|s|-k+1` are at least it. */
  lemma SortedCounts(s: seq<real>, k: nat)
    requires Sorted(s) && 1 <= k <= |s|
    ensures CountAtMost(s, s[k - 1]) >= k
    ensures CountAtLeast(s, s[k - 1]) >= |s| - k + 1
  {
    CountAtMostPrefix(s, k, s[k - 1]);
    CountAtLeastSuffix(s, k - 1, s[k - 1]);
  }

  /** `k = 0` indexes `gs[-1]`: the largest distance. */
  lemma KthAndMeanZeroIsMax(gs: seq<real>)
    requires |gs| > 0
    ensures KthAndMean(gs, 0) == KthAndMean(gs, |gs|)
  {
  }

  /** The result depends only on the multiset of distances, not on the order
      in which the rounds produced them. */
  lemma KthAndMeanOrderIndependent(a: seq<real>, b: seq<real>, k: int)
    requires multiset(a) == multiset(b)
    ensures KthAndMean(a, k) == KthAndMean(b, k)
  {
    SortPermutationInvariant(a, b);
  }

  /** With `k = m` the sensitivity is the maximum distance, so it bounds every
      distance and the mean. */
  lemma KthAndMeanMax(gs: seq<real>)
    requires |gs| > 0
    ensures KthAndMean(gs, |gs|).Ok?
    ensures forall i :: 0 <= i < |gs| ==> gs[i] <= KthAndMean(gs, |gs|).value.0
    ensures KthAndMean(gs, |gs|).value.1 <= KthAndMean(gs, |gs|).value.0
  {
    var s := Sort(gs);
    var v := s[|s| - 1];
    assert KthAndMean(gs, |gs|).value == (v, Average(s));
    SortedBetweenEnds(s);
    BoundedByPermutation(gs, s, v);
    AverageBounds(s, s[0], v);
  }

  /** Every entry of a sorted sequence lies between its first and last. */
  lemma SortedBetweenEnds(s: seq<real>)
    requires Sorted(s) && |s| > 0
    ensures forall j :: 0 <= j < |s| ==> s[0] <= s[j] <= s[|s| - 1]
  {
  }

  /** An upper bound of a sequence bounds every permutation of it. */
  lemma BoundedByPermutation(a: seq<real>, b: seq<real>, v: real)
    requires multiset(a) == multiset(b)
    requires forall j :: 0 <= j < |b| ==> b[j] <= v
    ensures forall i :: 0 <= i < |a| ==> a[i] <= v
  {
    forall i | 0 <= i < |a| ensures a[i] <= v {
      assert a[i] in multiset(b);
    }
  }

  /** `_sensitivity_sampler(query, norm, oracle, n, m, k)`.  With `m = 0` the
      loop does not run and `gs[k-1]` indexes an empty array, an
      `IndexError`; otherwise with `n = 0` the oracle is asked for `-1`
      records, a `ValueError`. */
  function Sample(q: Query, draw: nat -> nat -> real, n: nat, m: nat, k: int): (r: Result<(real, real)>)
    ensures m == 0 ==> r == Err(IndexError)
    ensures m > 0 && n == 0 ==> r == Err(ValueError)
    ensures n > 0 && DistancesFrom(q, draw, n, 0, m).Err? ==> r.Err?
    ensures n > 0 && DistancesFrom(q, draw, n, 0, m).Ok? ==>
      r == KthAndMean(DistancesFrom(q, draw, n, 0, m).value, k)
  {
    if m == 0 then KthAndMean([], k)
    else if n == 0 then Err(ValueError)
    else
      var gs :- DistancesFrom(q, draw, n, 0, m);
      KthAndMean(gs, k)
  }

  /** The sampling loop succeeds exactly when every round does. */
  lemma DistancesOkIffRoundsOk(q: Query, draw: nat -> nat -> real, n: nat, m: nat)
    requires n > 0
    ensures DistancesFrom(q, draw, n, 0, m).Ok? <==> forall i :: 0 <= i < m ==> Round(q, draw, n, i).Ok?
  {
    var d := DistancesFrom(q, draw, n, 0, m);
    if d.Ok? {
      forall i | 0 <= i < m ensures Round(q, draw, n, i).Ok? {
        assert Round(q, draw, n, 0 + i) == Ok(d.value[i]);
      }
    }
  }

  /** With `k = m` the sensitivity is the largest of the m distances: it is
      one of them, at least every other, and at least their mean; the
      sampling fails exactly when some round does. */
  lemma GivenMIsMaximum(q: Query, draw: nat -> nat -> real, n: nat, m: nat)
    requires n > 0 && m > 0
    ensures Sample(q, draw, n, m, m).Ok? <==> forall i :: 0 <= i < m ==> Round(q, draw, n, i).Ok?
    ensures Sample(q, draw, n, m, m).Ok? ==>
      forall i :: 0 <= i < m ==> Round(q, draw, n, i).Ok? && Round(q, draw, n, i).value <= Sample(q, draw, n, m, m).value.0
    ensures Sample(q, draw, n, m, m).Ok? ==>
      exists i :: 0 <= i < m && Round(q, draw, n, i) == Ok(Sample(q, draw, n, m, m).value.0)
    ensures Sample(q, draw, n, m, m).Ok? ==> Sample(q, draw, n, m, m).value.1 <= Sample(q, draw, n, m, m).value.0
  {
    DistancesOkIffRoundsOk(q, draw, n, m);
    var d := DistancesFrom(q, draw, n, 0, m);
    if d.Ok? {
      MaximumIsLargestRound(q, draw, n, m);
      assert Sample(q, draw, n, m, m) == KthAndMean(d.value, m);
    }
  }

  /** When every round succeeds, the last order statistic of the distances
      is the largest round distance. */
  lemma MaximumIsLargestRound(q: Query, draw: nat -> nat -> real, n: nat, m: nat)
    requires n > 0 && m > 0 && DistancesFrom(q, draw, n, 0, m).Ok?
    ensures var gs := DistancesFrom(q, draw, n, 0, m).value;
      KthAndMean(gs, m).Ok? &&
      (forall i :: 0 <= i < m ==> Round(q, draw, n, i).Ok? && Round(q, draw, n, i).value <= KthAndMean(gs, m).value.0) &&
      (exists i :: 0 <= i < m && Round(q, draw, n, i) == Ok(KthAndMean(gs, m).value.0)) &&
      KthAndMean(gs, m).value.1 <= KthAndMean(gs, m).value.0
  {
    var gs := DistancesFrom(q, draw, n, 0, m).value;
    assert |gs| == m;
    MaximumFacts(gs);
    RoundsAreDistances(q, draw, n, m);
    var v := KthAndMean(gs, m).value.0;
    var j :| 0 <= j < m && gs[j] == v;
    assert Round(q, draw, n, j) == Ok(v);
  }

  /** The largest of a non-empty list of distances is one of them, bounds
      all of them and bounds their mean. */
  lemma MaximumFacts(gs: seq<real>)
    requires |gs| > 0
    ensures KthAndMean(gs, |gs|).Ok?
    ensures forall i :: 0 <= i < |gs| ==> gs[i] <= KthAndMean(gs, |gs|).value.0
    ensures exists j :: 0 <= j < |gs| && gs[j] == KthAndMean(gs, |gs|).value.0
    ensures KthAndMean(gs, |gs|).value.1 <= KthAndMean(gs, |gs|).value.0
  {
    KthAndMeanMax(gs);
    KthAndMeanIsOrderStatistic(gs, |gs|);
  }

  /** Round i's distance is entry i of the sampled distances. */
  lemma RoundsAreDistances(q: Query, draw: nat -> nat -> real, n: nat, m: nat)
    requires n > 0 && DistancesFrom(q, draw, n, 0, m).Ok?
    ensures forall i :: 0 <= i < m ==> Round(q, draw, n, i) == Ok(DistancesFrom(q, draw, n, 0, m).value[i])
  {
    forall i | 0 <= i < m ensures Round(q, draw, n, i) == Ok(DistancesFrom(q, draw, n, 0, m).value[i]) {
      assert Round(q, draw, n, 0 + i) == Ok(DistancesFrom(q, draw, n, 0, m).value[i]);
    }
  }

  /** `sample_sensitivity` with `m` given and `gamma` absent.  `n` keeps the
      source's default `None`.  The configuration first evaluates
      `-1 / (4 * m)`, a `ZeroDivisionError` for `m = 0`, and sets `k = m`; a
      negative `m` passes it and `np.ones(m)` raises `ValueError`.  In the
      loop, `n - 1` on `None` is a `TypeError`, and a count of `n <= 0` asks
      the oracle for a negative number of records, a `ValueError`.  Otherwise
      the sensitivity is the largest distance. */
  function SampleSensitivityGivenM(q: Query, draw: nat -> nat -> real, n: Option<int>, m: int)
    : (r: Result<(real, real)>)
    ensures m == 0 ==> r == Err(ZeroDivisionError)
    ensures m < 0 ==> r == Err(ValueError)
    ensures m > 0 && n.None? ==> r == Err(TypeError)
    ensures m > 0 && n.Some? && n.value <= 0 ==> r == Err(ValueError)
    ensures m > 0 && n.Some? && n.value > 0 ==>
      (r.Ok? <==> forall i :: 0 <= i < m ==> Round(q, draw, n.value, i).Ok?)
    ensures r.Ok? ==> m > 0 && n.Some? && n.value > 0
    ensures r.Ok? && n.Some? && n.value > 0 ==>
      forall i :: 0 <= i < m ==> Round(q, draw, n.value, i).Ok? && Round(q, draw, n.value, i).value <= r.value.0
    ensures r.Ok? && n.Some? && n.value > 0 ==>
      exists i :: 0 <= i < m && Round(q, draw, n.value, i) == Ok(r.value.0)
    ensures r.Ok? ==> r.value.1 <= r.value.0
  {
    if m == 0 then Err(ZeroDivisionError)
    else if m < 0 then Err(ValueError)
    else if n.None? then Err(TypeError)
    else if n.value <= 0 then Err(ValueError)
    else
      GivenMIsMaximum(q, draw, n.value, m);
      Sample(q, draw, n.value, m, m)
  }

  /** With a positive count and a positive `m`, the public entry point is
      the sampling loop read at `k = m`, which numpy's negative indexing
      makes the same as `k = 0`. */
  lemma GivenMIsLastOrderStatistic(q: Query, draw: nat -> nat -> real, n: nat, m: nat)
    requires n > 0 && m > 0
    ensures SampleSensitivityGivenM(q, draw, Some(n), m) == Sample(q, draw, n, m, m)
    ensures Sample(q, draw, n, m, m) == Sample(q, draw, n, m, 0)
  {
    var d := DistancesFrom(q, draw, n, 0, m);
    if d.Ok? {
      assert |d.value| == m;
      KthAndMeanZeroIsMax(d.value);
    }
  }
}

=== FILE: sorting.dfy ===
/** Ascending sort of reals (numpy's `np.sort`) and what it preserves:
    elements, sum, and how many elements lie below or above a value.
    Also `Unique`, numpy's `np.unique`: the sorted distinct elements. */
module Sorting {
  import opened Numeric

  predicate Sorted(s: seq<real>) {
    forall i, j :: 0 <= i < j < |s| ==> s[i] <= s[j]
  }

  predicate StrictlySorted(s: seq<real>) {
    forall i, j :: 0 <= i < j < |s| ==> s[i] < s[j]
  }

  function Insert(x: real, s: seq<real>): (r: seq<real>)
    requires Sorted(s)
    ensures Sorted(r)
    ensures multiset(r) == multiset(s) + multiset{x}
    ensures |r| == |s| + 1
    ensures r[0] == x || (|s| > 0 && r[0] == s[0])
  {
    if |s| == 0 || x <= s[0] then [x] + s
    else
      var rest := Insert(x, s[1..]);
      assert s == [s[0]] + s[1..];
      assert s[0] <= rest[0];
      [s[0]] + rest
  }

  /** The elements of `s` in ascending order. */
  function Sort(s: seq<real>): (r: seq<real>)
    ensures Sorted(r)
    ensures multiset(r) == multiset(s)
    ensures |r| == |s|
  {
    if |s| == 0 then []
    else
      assert s == [s[0]] + s[1..];
      Insert(s[0], Sort(s[1..]))
  }

  lemma {:induction false} SumInsert(x: real, s: seq<real>)
    requires Sorted(s)
    ensures Sum(Insert(x, s)) == x + Sum(s)
  {
    if |s| > 0 && x > s[0] {
      SumInsert(x, s[1..]);
    }
  }

  /** Sorting does not change the sum. */
  lemma {:induction false} SumSort(s: seq<real>)
    ensures Sum(Sort(s)) == Sum(s)
  {
    if |s| > 0 {
      SumSort(s[1..]);
      SumInsert(s[0], Sort(s[1..]));
    }
  }

  /** Two sorted sequences holding the same elements are equal. */
  lemma {:induction false} SortedUnique(a: seq<real>, b: seq<real>)
    requires Sorted(a) && Sorted(b)
    requires multiset(a) == multiset(b)
    ensures a == b
  {
    if |a| > 0 {
      assert |b| == |multiset(b)| == |multiset(a)| == |a|;
      assert a[0] in multiset(b);
      assert b[0] in multiset(a);
      assert a[0] == b[0];
      assert a == [a[0]] + a[1..];
      assert b == [b[0]] + b[1..];
      assert multiset(a) == multiset{a[0]} + multiset(a[1..]);
      assert multiset(b) == multiset{b[0]} + multiset(b[1..]);
      assert multiset(a[1..]) == multiset(a) - multiset{a[0]};
      assert multiset(b[1..]) == multiset(b) - multiset{b[0]};
      SortedUnique(a[1..], b[1..]);
    } else {
      assert |b| == |multiset(b)| == 0;
    }
  }

  /** The sorted result depends only on the elements, not on their order. */
  lemma SortPermutationInvariant(a: seq<real>, b: seq<real>)
    requires multiset(a) == multiset(b)
    ensures Sort(a) == Sort(b)
  {
    SortedUnique(Sort(a), Sort(b));
  }

  /** Number of elements of `s` that are at most `x`. */
  function CountAtMost(s: seq<real>, x: real): (r: nat)
    ensures r <= |s|
  {
    if |s| == 0 then 0 else (if s[0] <= x then 1 else 0) + CountAtMost(s[1..], x)
  }

  /** Number of elements of `s` that are at least `x`. */
  function CountAtLeast(s: seq<real>, x: real): (r: nat)
    ensures r <= |s|
  {
    if |s| == 0 then 0 else (if s[0] >= x then 1 else 0) + CountAtLeast(s[1..], x)
  }

  lemma {:induction false} CountsInsert(y: real, s: seq<real>, x: real)
    requires Sorted(s)
    ensures CountAtMost(Insert(y, s), x) == (if y <= x then 1 else 0) + CountAtMost(s, x)
    ensures CountAtLeast(Insert(y, s), x) == (if y >= x then 1 else 0) + CountAtLeast(s, x)
  {
    if |s| > 0 && y > s[0] {
      CountsInsert(y, s[1..], x);
    }
  }

  /** Sorting does not change how many elements lie below or above `x`. */
  lemma {:induction false} CountsSort(s: seq<real>, x: real)
    ensures CountAtMost(Sort(s), x) == CountAtMost(s, x)
    ensures CountAtLeast(Sort(s), x) == CountAtLeast(s, x)
  {
    if |s| > 0 {
      CountsSort(s[1..], x);
      CountsInsert(s[0], Sort(s[1..]), x);
    }
  }

  lemma {:induction false} CountAtMostPrefix(s: seq<real>, k: nat, x: real)
    requires k <= |s|
    requires forall i :: 0 <= i < k ==> s[i] <= x
    ensures CountAtMost(s, x) >= k
  {
    if k > 0 {
      CountAtMostPrefix(s[1..], k - 1, x);
    }
  }

  lemma {:induction false} CountAtLeastSuffix(s: seq<real>, k: nat, x: real)
    requires k <= |s|
    requires forall i :: k <= i < |s| ==> s[i] >= x
    ensures CountAtLeast(s, x) >= |s| - k
  {
    if |s| > 0 {
      if k > 0 {
        CountAtLeastSuffix(s[1..], k - 1, x);
      } else {
        CountAtLeastSuffix(s[1..], 0, x);
      }
    }
  }

  /** Removes adjacent repeats of a sorted sequence. */
  function Dedup(s: seq<real>): (r: seq<real>)
    requires Sorted(s)
    ensures StrictlySorted(r)
    ensures forall x :: x in r <==> x in s
    ensures |s| > 0 ==> |r| > 0 && r[0] == s[0]
  {
    if |s| <= 1 then s
    else
      var rest := Dedup(s[1..]);
      assert forall x :: x in s <==> x == s[0] || x in s[1..];
      if s[0] == s[1] then rest else [s[0]] + rest
  }

  /** numpy's `np.unique`: the distinct elements in ascending order. */
  function Unique(s: seq<real>): (r: seq<real>)
    ensures StrictlySorted(r)
    ensures forall x :: x in r <==> x in s
  {
    var sorted := Sort(s);
    assert forall x :: x in sorted <==> x in multiset(s);
    Dedup(sorted)
  }

  /** A strictly sorted sequence is determined by its set of elements. */
  lemma {:induction false} StrictlySortedUnique(a: seq<real>, b: seq<real>)
    requires StrictlySorted(a) && StrictlySorted(b)
    requires forall x :: x in a <==> x in b
    ensures a == b
  {
    if |a| > 0 {
      assert a[0] in a;
      assert |b| > 0;
    }
    if |b| > 0 {
      assert b[0] in b;
      assert |a| > 0;
    }
    if |a| > 0 {
      assert a[0] in b && b[0] in a;
      assert a[0] == b[0];
      forall x ensures x in a[1..] <==> x in b[1..] {
        assert x in a[1..] <==> x in a && x != a[0];
        assert x in b[1..] <==> x in b && x != b[0];
      }
      StrictlySortedUnique(a[1..], b[1..]);
    }
  }

  /** `np.unique(s)` equals a strictly sorted `c` exactly when `s` and `c`
      hold the same values. */
  lemma UniqueEqualsIff(s: seq<real>, c: seq<real>)
    requires StrictlySorted(c)
    ensures Unique(s) == c <==> (forall x :: x in s <==> x in c)
  {
    if forall x :: x in s <==> x in c {
      StrictlySortedUnique(Unique(s), c);
    }
  }
}

=== FILE: values.dfy ===
/** The values a data node can hold: scalars, one- and two-dimensional
    numeric arrays, and labelled data (`shfl/private/data.py`, `LabeledData`).
    Values are immutable, so the defensive `copy.deepcopy` the node performs
    on every store holds by construction. */
module Values {
  import opened Wrappers

  datatype Value =
    | Scalar(x: real)
    | Array(xs: seq<real>)
    | Matrix(rows: seq<seq<real>>)
    | Labeled(ld: LabeledData)

  /** A data sample and its label; the getters are the destructors
      (`labels` is the `label` property; `label` is a Dafny keyword). */
  datatype LabeledData = LabeledData(data: Value, labels: Value)

  /** The `data` property setter: replaces the features, keeps the label. */
  function SetData(ld: LabeledData, d: Value): (r: LabeledData)
    ensures r.data == d
    ensures r.labels == ld.labels
  {
    ld.(data := d)
  }

  /** The `label` property setter: replaces the label, keeps the features. */
  function SetLabel(ld: LabeledData, l: Value): (r: LabeledData)
    ensures r.labels == l
    ensures r.data == ld.data
  {
    ld.(labels := l)
  }

  /** All rows have the same width (a proper numpy two-dimensional array). */
  predicate Rectangular(rows: seq<seq<real>>) {
    forall i :: 0 <= i < |rows| ==> |rows[i]| == |rows[0]|
  }

  /** The entries of a matrix in row-major order (numpy's `ravel`). */
  function Flatten(rows: seq<seq<real>>): (r: seq<real>)
    ensures Rectangular(rows) && |rows| > 0 ==> |r| == |rows| * |rows[0]|
  {
    if |rows| == 0 then []
    else
      assert Rectangular(rows) ==> Rectangular(rows[1..]);
      rows[0] + Flatten(rows[1..])
  }

  /** numpy pads a shape with leading ones: a scalar is seen as 1 x 1, an
      array of n entries as 1 x n, a matrix of r rows of width c as r x c
      (a matrix without rows as 0 x 0).  `Height` is the number of rows. */
  function Height(v: Value): nat {
    match v
    case Matrix(rows) => |rows|
    case _ => 1
  }

  /** The number of columns numpy sees. */
  function Width(v: Value): nat {
    match v
    case Array(xs) => |xs|
    case Matrix(rows) => if |rows| == 0 then 0 else |rows[0]|
    case _ => 1
  }

  /** Two axis lengths broadcast when they are equal or one of them is 1. */
  predicate Broadcasts(d1: nat, d2: nat) {
    d1 == d2 || d1 == 1 || d2 == 1
  }

  /** The broadcast length of two compatible axes. */
  function Joint(d1: nat, d2: nat): nat {
    if d1 == 1 then d2 else d1
  }

  /** The index an axis of length d reads for position i of a broadcast
      result: an axis of length 1 is always read at 0. */
  function Pick(i: nat, d: nat): nat {
    if d == 1 then 0 else i
  }

  /** The number a value stands for in a truth test or in `int(...)`: a
      scalar, or the only entry of a one-element array or matrix.  Larger or
      empty arrays have no single truth value; labelled data is no number. */
  function SoleEntry(v: Value): Option<real> {
    match v
    case Scalar(x) => Some(x)
    case Array(xs) => if |xs| == 1 then Some(xs[0]) else None
    case Matrix(rows) => if |rows| == 1 && |rows[0]| == 1 then Some(rows[0][0]) else None
    case Labeled(_) => None
  }
}

=== FILE: wrappers.dfy ===
/** Failure-carrying results shared by every module of the model.

    The modelled program signals failure by raising Python exceptions; each
    operation that can raise returns a `Result` whose `Err` names the
    exception class, so error paths are part of every contract. */
module Wrappers {

  /** The exception classes raised by the modelled code.  `NotANumber` is not
      an exception: it stands for the NaN numpy returns (with a warning) for the
      mean of an empty array, which no later step can use as a number. */
  datatype Error =
    | ValueError
    | KeyError
    | TypeError
    | IndexError
    | AttributeError
    | ZeroDivisionError
    | AssertionError
    | NameError
    | NotANumber

  datatype Option<T> = None | Some(value: T)

  datatype Result<T> = Ok(value: T) | Err(error: Error) {

    predicate IsFailure() {
      Err?
    }

    function PropagateFailure<U>(): Result<U>
      requires Err?
    {
      Err(error)
    }

    function Extract(): T
      requires Ok?
    {
      value
    }
  }
}
